=== FILE: README.md ===
# kfkscript evaluation engine — a Dafny model

kfkscript is a small prefix-notation scripting language: a program is a flat stream of
tokens in which every keyword takes a fixed number of arguments, each argument being a
string literal, a number literal or another keyword invocation (`+ 1 + 2 3` is 6).
This project models the interpreter's core in two revisions of the repository:

- the newer revision (`src/rust/`): the lexer, the registry built at startup, the
  recursive evaluator `run_next_expression` / `retrieve_arguments`, the main loop with
  its conditional skipping driven by a nesting stack of `If`, `Else`, `Ignore` and
  `SubroutineDefinition` frames, the capture of subroutine bodies, and the keywords
  `println`, `+`, `if`, `else`, `end`, `let`, `tel`, `==`, `true`, `false`;
- the older revision (`src/`): its lexer without comments, `next_invocation` and the
  top-level loop, and its keywords `println`, `+`, `let`, `tel`, `if`, `else`, `end`.

The token iterator of the source becomes a token sequence and a cursor position, the
mutable `GlobalState` an immutable datatype threaded through pure functions, eyre errors
an `Error` datatype and the older revision's panics a `Fault` datatype. f64 values are
`real`; f64's Display and `str::parse::<f64>` are function parameters (`show`,
`parseNumber`). The keywords whose bodies are not part of this model (`-`, `<`, `!`, the
`scope::` keywords, `return`, `subroutine`, `run`) are registered like the others but
dispatched to a function parameter `external`.

Files, one module each:

| file | module | models |
|---|---|---|
| results.dfy | Results | `Option` and `Result` |
| tokens.dfy | Tokens | tokens, `is_whitespace`, `is_ascii_digit` (both token.rs files) |
| expression.dfy | Expression | `Argument` with its `PartialEq`/`Hash`, bindings, `NestingState`, `GlobalState`, error kinds |
| control_flow.dfy | ControlFlow | `if_`, `else_`, `end`, `determine_tokens_to_skip` |
| keywords.dfy | Keywords | `println`, `add`, `let_`, `tel`, `eq`, `true_`, `false_` |
| registry.dfy | Registry | `register_keyword` and the startup registrations |
| interpreter.dfy | Interpreter | dispatch, `run_next_expression`, `retrieve_arguments`, skipping, `get_subroutine_tokens`, `main_loop` |
| tree.dfy | TreeSemantics | an expression-tree reading of the token stream, proved equal to the cursor evaluator |
| programs.dfy | Programs | whole programs through the newer evaluator |
| parser.dfy | Parser | the newer lexer `parse` |
| legacy_invocation.dfy | LegacyInvocation | older `InvocationArgument`, bindings, state, faults |
| legacy_control_flow.dfy | LegacyControlFlow | older `if_`, `else_`, `end`, `determine_tokens_to_skip` |
| legacy_keywords.dfy | LegacyKeywords | older `println`, `add`, `let_`, `tel` |
| legacy_evaluator.dfy | LegacyEvaluator | older `next_invocation` and top-level loop |
| legacy_tree.dfy | LegacyTreeSemantics | the expression-tree reading evaluated with the older keywords, proved equal to `next_invocation` |
| legacy_programs.dfy | LegacyPrograms | whole programs through the older evaluator |
| legacy_parser.dfy | LegacyParser | older lexer, compared with the newer one |

Where the two revisions differ, or the newer code differs from its own comments, the
model follows the code of each revision:

- Number equality in the newer revision holds when two numbers are MORE than
  `f64::EPSILON` apart (src/rust/expression.rs:27, src/rust/keywords.rs:81-87), while the
  older revision compares printed forms (src/invocation.rs:25). No number is equal to
  itself, so a number key never finds its own entry. As long as no other bound number
  shares its probe tag in the `HashMap`, a variable named by a number is stored by `let`
  but never found by `tel` in the newer revision (`Keywords.LetThenTelNumberName`).
- `if` in the newer revision treats a number within `f64::EPSILON` of zero as false
  (src/rust/control_flow.rs:16); the older revision treats only exactly zero as false
  (src/control_flow.rs:16).
- A skipped invocation occupies the keyword plus as many following tokens as its arity,
  whatever those tokens are (src/rust/control_flow.rs:59-80); an invocation in argument
  position is not skipped as a whole.
- Only an `Else` frame triggers skipping in `main_loop` (src/rust/interpreter.rs:102-105),
  while the comment at src/rust/control_flow.rs:51-58 says `Ignore` must skip too; see
  Findings. `Interpreter.Run` is the loop as written, which `main` calls; the corrected
  loop is `Interpreter.RunCorrected`.

## Model

| member | source | states |
|---|---|---|
| Expression.StringArgEqIffSameText | src/rust/expression.rs:26 | two strings are equal exactly when their texts are |
| Expression.ArgEq | src/rust/expression.rs:21-31 | a string never equals a number, two strings are equal exactly when they are the same string, and no number equals itself |
| Expression.HashText | src/rust/expression.rs:12-19 | the hashed text starts with `K` exactly for a string, and a string's text follows its tag unchanged |
| Expression.MixedArgsNeverEqual | src/rust/expression.rs:28 | a string never equals a number, in either order |
| Expression.NumberArgEqIsInverted | src/rust/expression.rs:21-31 | two numbers are "equal" exactly when they differ by more than Epsilon, so no number equals itself and the `impl Eq` reflexivity claim fails |
| Expression.HashTagsDisjoint | src/rust/expression.rs:12-19 | the hashed texts of a string and a number always differ |
| Expression.StringEqualityImpliesEqualHash | src/rust/expression.rs:12-31 | equal strings have equal hashed texts |
| Expression.Lookup | src/rust/expression.rs:50 | a lookup finds a value exactly for a string key that is bound, and it is the bound value; number keys are never found (no two bound numbers sharing a probe tag) |
| Expression.Insert | src/rust/expression.rs:50 | after an insert a string key finds the new value, a number key finds nothing, every other key finds what it found before (no two bound numbers sharing a probe tag) |
| ControlFlow.NumberTruthiness | src/rust/control_flow.rs:15-18 | a number is truthy exactly when it lies outside [-Epsilon, Epsilon]; 0 is false and 1 is true |
| ControlFlow.Truthy | src/rust/control_flow.rs:15-18 | a condition is false exactly when it is the empty string or a number within Epsilon of zero |
| ControlFlow.IfKeyword | src/rust/control_flow.rs:9-24 | fails exactly when there is no argument; otherwise pushes one frame, If for a truthy and Else for a falsy condition, and changes nothing else |
| ControlFlow.ElseKeyword | src/rust/control_flow.rs:26-40 | fails exactly on an empty stack; otherwise swaps If and Else on top, leaves other frames, the depth and the rest of the state alone |
| ControlFlow.ElseTwiceRestores | src/rust/control_flow.rs:26-40 | two `else` in a row restore the state |
| ControlFlow.EndKeyword | src/rust/control_flow.rs:42-49 | succeeds exactly when the top frame exists and is not a subroutine definition; then pops one frame and changes nothing else; the two failures are distinguished |
| ControlFlow.IfThenEndRestores | src/rust/control_flow.rs:9-49 | an `if` followed by its `end` restores the state, for every condition |
| ControlFlow.DetermineTokensToSkip | src/rust/control_flow.rs:59-80 | outside a skip (top frame not Else/Ignore, or token not a keyword, or `end`/`else`) gives (0, unchanged state); inside, gives the keyword's arity, pushes Ignore for `if` only, and fails for an unregistered keyword |
| ControlFlow.SkippedIfBalancedByEnd | src/rust/control_flow.rs:59-80 | the Ignore frame pushed for a skipped `if` is exactly what a later `end` pops |
| Keywords.Stringified | src/rust/keywords.rs:13-16 | each argument is rendered as its text or its printed number, in order |
| Keywords.JoinLength | src/rust/keywords.rs:12-21 | a joined line holds the parts plus exactly one separator between neighbours |
| Keywords.PrintLine | src/rust/keywords.rs:10-21 | the line built equals the rendered arguments joined by single spaces, without leading or trailing space |
| Keywords.PrintlnKeyword | src/rust/keywords.rs:9-24 | `println` returns the state unchanged |
| Keywords.CollectNumbers | src/rust/keywords.rs:27-32 | succeeds exactly when every argument is a number, then gives their values in order; otherwise a type error |
| Keywords.Reduce | src/rust/keywords.rs:33-34 | `reduce` with `+`, the left fold seeded with the first element, equals the reference sum folded from the right for every non-empty list |
| Keywords.Numbers | src/rust/keywords.rs:27-32 | the numeric values of all-number arguments, in order |
| Keywords.AddKeyword | src/rust/keywords.rs:26-39 | succeeds exactly for a non-empty list of numbers and then sets the return value to their sum; a string is a type error and no argument a missing-argument error |
| Keywords.LetKeyword | src/rust/keywords.rs:42-50 | succeeds exactly with two arguments; afterwards the name finds the value (or nothing for a number name with no probe-tag collision), every other key is unaffected, and only the bindings changed |
| Keywords.TelKeyword | src/rust/keywords.rs:53-66 | succeeds exactly when the name is bound; then only the return value changes, to the bound value; the two failures are distinguished |
| Keywords.LetThenTel | src/rust/keywords.rs:42-66 | `let` then `tel` on a string name returns the stored value |
| Keywords.LetThenTelNumberName | src/rust/keywords.rs:42-66 | `let` then `tel` on a number name reports that the variable is not found, when no other bound number shares its probe tag |
| Keywords.EqKeyword | src/rust/keywords.rs:69-91 | succeeds exactly with two arguments and returns 1.0 when they are equal under the argument comparison, else 0.0 |
| Keywords.EqOfEqualNumbersIsFalse | src/rust/keywords.rs:81-87 | comparing a number with itself returns 0.0 |
| Keywords.TrueKeyword | src/rust/keywords.rs:94-98 | the return value becomes 1.0 and nothing else changes |
| Keywords.FalseKeyword | src/rust/keywords.rs:101-105 | the return value becomes 0.0 and nothing else changes |
| Registry.RegisterKeyword | src/rust/main.rs:16-39 | refuses exactly an already registered name; otherwise adds the entry under the name, keeps every earlier entry and changes nothing else |
| Registry.RegisterAll | src/rust/main.rs:62-91 | a finished registration adds exactly the table's names, keeps every earlier entry and changes nothing but the registry; a failure is a duplicate registration of a name from the table or the registry |
| Registry.InitialState | src/rust/main.rs:52-91 | a finished startup is the empty state (no bindings, stack, scopes or subroutines, line 0, return value 0.0) in everything but the registry |
| Registry.RegisterAllDistinct | src/rust/main.rs:62-91 | registering fresh, pairwise distinct names succeeds, maps each name to its own entry, keeps the earlier ones and changes nothing else |
| Registry.StartupNamesDistinct | src/rust/main.rs:62-91 | the twenty startup names are pairwise distinct |
| Registry.StartupSucceeds | src/rust/main.rs:52-91 | startup succeeds with exactly the twenty names registered, each with its implementation and arity, an empty stack and return value 0.0 |
| Registry.StartupEntry | src/rust/main.rs:62-91 | each startup row is registered as written |
| Interpreter.Dispatch | src/rust/interpreter.rs:35 | no keyword changes the registry (given the external ones do not), and no modelled keyword sets a pending subroutine name |
| Interpreter.RunNextExpression | src/rust/interpreter.rs:11-36 | an exhausted cursor, a literal and an unregistered keyword each give their own error; success consumes the keyword and at least one token per argument, and keeps the registry |
| Interpreter.RetrieveArguments | src/rust/interpreter.rs:38-67 | zero arguments consume nothing; running out of tokens is an insufficient-arguments error; success gives exactly `count` arguments, at least one token each |
| Interpreter.LiteralValues | src/rust/interpreter.rs:54-63 | the values of literal tokens, one per token, in order |
| Interpreter.RetrieveLiterals | src/rust/interpreter.rs:38-67 | literal arguments take one token each, give their values in order, and leave the current line at the last literal's line |
| Interpreter.SkipTokens | src/rust/control_flow.rs:59-80 | outside the skip rule the token is evaluated normally; inside, it succeeds exactly for a registered keyword, moves past it and its arity's worth of tokens (not past the end) and pushes Ignore for `if` only |
| Interpreter.FirstIndex | src/rust/interpreter.rs:75-77 | the position of the first occurrence of a frame |
| Interpreter.CaptureStep | src/rust/interpreter.rs:86-92 | a captured token deepens the stack by one for `if`, shortens a non-empty stack by one for `end`, and otherwise keeps its depth |
| Interpreter.CaptureStepFacts | src/rust/interpreter.rs:86-92 | one captured token changes the depth by +1 for `if`, -1 for `end`, keeps the stack below the lowest subroutine frame, and only an `end` can close it |
| Interpreter.CaptureFrom | src/rust/interpreter.rs:75-93 | without a subroutine frame nothing is captured; the only failure is an unterminated subroutine; the captured tokens are exactly the tokens passed over |
| Interpreter.CaptureFacts | src/rust/interpreter.rs:75-93 | a successful capture leaves no subroutine frame and, when one was open, ends right after an `end` with the stack cut back to below the lowest subroutine frame |
| Interpreter.CaptureBalanced | src/rust/interpreter.rs:86-92 | over a capture, stack depth plus captured `end`s equals initial depth plus captured `if`s |
| Interpreter.CaptureNeedsEnd | src/rust/interpreter.rs:79-84 | inside a subroutine definition with no `end` ahead the capture fails as unterminated |
| Interpreter.CaptureExtends | src/rust/interpreter.rs:75-93 | a capture that closes the definition ends on an `end` and leaves the stack below the lowest subroutine frame |
| Interpreter.GetSubroutineTokens | src/rust/interpreter.rs:69-96 | without a subroutine frame returns an empty body with the cursor and the state unchanged; a missing `end` is reported on the current line; on success no subroutine frame remains, the cursor has not moved back, and only the stack changed |
| Interpreter.SubroutineBodyEnds | src/rust/interpreter.rs:69-96 | inside a definition, the body is exactly the tokens before the closing `end`, the cursor stands right after that `end`, and the stack is cut back to just below the lowest subroutine frame |
| Interpreter.CapturedBodyEnds | src/rust/interpreter.rs:75-94 | a capture from inside a definition stops right after an `end`; the captured tokens without their last one are the slice before it |
| Interpreter.AllButLast | src/rust/interpreter.rs:94 | dropping the last captured token: the result is one token shorter and equal to the input at every earlier position |
| Interpreter.StoreSubroutine | src/rust/interpreter.rs:123-128 | with no pending name nothing happens; otherwise the body (the tokens before the closing `end`, or nothing when no definition is open) is stored under the name, the stack is cut back below the lowest subroutine frame, the pending name is cleared, and nothing else in the state changes |
| Interpreter.MainLoopAsWritten | src/rust/interpreter.rs:98-131 | the loop as written ends with the state it reached at the end of the tokens and never changes the registry |
| Interpreter.MainLoop | src/rust/control_flow.rs:51-58 | the loop with Ignore also skipping; the same end and registry guarantees |
| Interpreter.SkippedStepKeepsBindings | src/rust/control_flow.rs:51-80 | a step under an Else or Ignore frame never changes bindings, return value or subroutines |
| Interpreter.Run | src/rust/main.rs:98-99 | `main` runs `main_loop` as written from the first token: no tokens leave the state as it is, and the registry is kept |
| Interpreter.RunCorrected | src/rust/control_flow.rs:51-58 | the same for the loop with Ignore skipping |
| TreeSemantics.EvaluationFollowsTree | src/rust/interpreter.rs:11-67 | for every well-formed expression laid out in prefix notation, the cursor evaluator gives the tree evaluator's result and stops right after the expression |
| TreeSemantics.ArgumentsFollowTree | src/rust/interpreter.rs:38-67 | argument resolution over the prefix layout of argument expressions equals their tree evaluation |
| TreeSemantics.LiteralArgumentFollowsTree | src/rust/interpreter.rs:54-63 | the same when the first argument is a literal |
| TreeSemantics.InvocationArgumentFollowsTree | src/rust/interpreter.rs:50-53 | the same when the first argument is an invocation |
| Programs.StartupHasBasicKeywords | src/rust/main.rs:62-68 | the startup registry holds `+`, `if`, `else`, `end`, `let` with their arities |
| Programs.TwoLiteralArguments | src/rust/interpreter.rs:54-63 | two literal arguments give their two values and leave the state alone |
| Programs.StartupProvides | src/rust/main.rs:62-91 | every row of the startup table is registered under its name with its implementation and arity |
| Programs.AddOfTwo | src/rust/keywords.rs:26-39 | `+` on two numbers returns their sum and changes nothing else |
| Programs.InnerAddition | src/rust/keywords.rs:26-39 | `+ a b` sets the return value to a + b and nothing else |
| Programs.NestedSumIsSix | src/rust/interpreter.rs:50-53 | the tree of `+ 1 + 2 3` evaluates to 6 |
| Programs.InnerSumArgument | src/rust/interpreter.rs:50-53 | the inner `+ 2 3`, as an argument, gives the value 5 and leaves its return value in the state |
| Programs.NestedSumLayout | src/rust/interpreter.rs:11-67 | `+ 1 + 2 3` is the prefix layout of its tree, which is well formed |
| Programs.NestedAdditionYieldsSix | src/rust/interpreter.rs:11-67 | the cursor evaluator consumes all five tokens of `+ 1 + 2 3` and returns 6 |
| Programs.FlatInvocation | src/rust/interpreter.rs:11-67 | a keyword followed only by literals is applied to their values, with the line of the last one, and the cursor lands right after them |
| Programs.IfStep | src/rust/control_flow.rs:9-24 | `if c` evaluated moves two tokens and pushes If or Else by truthiness |
| Programs.LetStep | src/rust/keywords.rs:42-50 | `let $name v` evaluated moves three tokens and binds the name |
| Programs.ElseStep | src/rust/control_flow.rs:26-40 | `else` evaluated moves one token and toggles the top frame |
| Programs.EndStep | src/rust/control_flow.rs:42-49 | `end` evaluated moves one token and pops the top frame |
| Programs.LoopIf | src/rust/interpreter.rs:98-131 | one loop turn over `if c` outside a skip frame |
| Programs.LoopLet | src/rust/interpreter.rs:98-131 | one loop turn over `let` outside a skip frame |
| Programs.LoopElse | src/rust/control_flow.rs:51-58 | `else` is evaluated by the loop even under a skip frame |
| Programs.LoopEnd | src/rust/control_flow.rs:51-58 | `end` is evaluated by the loop even under a skip frame |
| Programs.LoopSkip | src/rust/control_flow.rs:51-80 | under a skip frame any other keyword is passed over with its arity's worth of tokens, `if` pushing Ignore |
| Programs.AsWrittenLoopIf | src/rust/interpreter.rs:98-131 | one turn of the loop as written over `if c` outside an Else frame |
| Programs.AsWrittenLoopLet | src/rust/interpreter.rs:98-131 | one turn of the loop as written over `let` outside an Else frame |
| Programs.AsWrittenLoopEnd | src/rust/interpreter.rs:98-131 | one turn of the loop as written over `end` |
| Programs.AsWrittenLoopElse | src/rust/interpreter.rs:102-105 | as written, `else` is evaluated and toggles the top frame, also under an Else frame, where the skip step passes it on to evaluation |
| Programs.AsWrittenLoopSkip | src/rust/interpreter.rs:102-105 | one turn of the loop as written under an Else frame |
| Programs.FalseConditionSkipsFirstBranch | src/rust/control_flow.rs:51-58 | in the corrected loop, `if 0` pushes Else and the first `let` is skipped |
| Programs.FalseConditionRunsElseBranch | src/rust/control_flow.rs:51-58 | in the corrected loop, `else` turns Else into If and the second `let` runs |
| Programs.FalseConditionRun | src/rust/control_flow.rs:51-58 | the corrected loop runs `if 0 let $x 1 else let $x 2 end` to x bound to 2 and an empty stack |
| Programs.FalseConditionTakesElseBranch | src/rust/main.rs:98-99 | the program `if 0 let $x 1 else let $x 2 end`, run as `main` runs it, binds x to 2, leaves the stack empty and changes nothing else but the line; the corrected loop gives the same result |
| Programs.FalseConditionSkipsFirstBranchAsWritten | src/rust/interpreter.rs:98-131 | as written, `if 0` pushes Else and the first `let` is skipped |
| Programs.FalseConditionRunsElseBranchAsWritten | src/rust/interpreter.rs:98-131 | as written, `else` under the Else frame turns it into If and the second `let` runs |
| Programs.FalseConditionRunAsWritten | src/rust/interpreter.rs:98-131 | as written, `if 0 let $x 1 else let $x 2 end` binds x to 2 and leaves the stack empty |
| Programs.TrueConditionRunsFirstBranch | src/rust/control_flow.rs:51-58 | in the corrected loop, `if 1` pushes If and the first `let` runs |
| Programs.TrueConditionSkipsElseBranch | src/rust/control_flow.rs:51-58 | in the corrected loop, `else` turns If into Else and the second `let` is skipped |
| Programs.TrueConditionRun | src/rust/control_flow.rs:51-58 | the corrected loop runs `if 1 let $x 1 else let $x 2 end` to x bound to 1 and an empty stack |
| Programs.TrueConditionTakesFirstBranch | src/rust/main.rs:98-99 | the program `if 1 let $x 1 else let $x 2 end`, run as `main` runs it, binds x to 1, leaves the stack empty and changes nothing else but the line; the corrected loop gives the same result |
| Programs.TrueConditionRunsFirstBranchAsWritten | src/rust/interpreter.rs:98-131 | as written, `if 1` pushes If and the first `let` runs |
| Programs.TrueConditionSkipsElseBranchAsWritten | src/rust/interpreter.rs:98-131 | as written, `else` turns If into Else and the second `let` is skipped |
| Programs.TrueConditionRunAsWritten | src/rust/interpreter.rs:98-131 | as written, `if 1 let $x 1 else let $x 2 end` binds x to 1 and leaves the stack empty |
| Programs.NestedIfEntersAsWritten | src/rust/interpreter.rs:102-105 | as written, `if 0 if 1` leaves Else and Ignore on the stack |
| Programs.NestedIfBodyRunsAsWritten | src/rust/interpreter.rs:102-105 | as written, the `let` under the Ignore frame runs |
| Programs.NestedIfRunAsWritten | src/rust/interpreter.rs:98-131 | as written, `if 0 if 1 let $x 1 end end` binds x |
| Programs.NestedIfInSkippedBranchRunsAsWritten | src/rust/interpreter.rs:102-105 | run as `main` runs it, x is bound to 1 inside a branch whose condition is false |
| Programs.NestedIfEnters | src/rust/control_flow.rs:51-80 | `if 0 if 1` leaves Else and Ignore on the stack |
| Programs.NestedIfBodySkipped | src/rust/control_flow.rs:51-58 | under the Ignore frame the `let` is skipped |
| Programs.NestedIfRun | src/rust/control_flow.rs:51-58 | the corrected loop runs `if 0 if 1 let $x 1 end end` to the starting state with only the line changed |
| Programs.NestedIfInSkippedBranchIsSkipped | src/rust/control_flow.rs:51-58 | the same for the concrete program: nothing in the skipped branch runs |
| Parser.DetermineNextTokenType | src/rust/parser.rs:6-26 | a digit, or `-` before a digit, starts a number with that character; `$` and `'` start strings with empty text; whitespace starts nothing; anything else starts a keyword |
| Parser.Finish | src/rust/parser.rs:61-115 | the open text becomes a token of the open kind on the current line; only a number text that does not parse fails |
| Parser.Step | src/rust/parser.rs:36-121 | one character advances the line exactly on a line feed, adds at most one token at the end, fails only on a bad number, and inside a comment does nothing but stay in the comment |
| Parser.CloseKeepsSound | src/rust/parser.rs:61-121 | closing the open token keeps the lexer invariant: the appended token is good and on the current line |
| Parser.StepKeepsSound | src/rust/parser.rs:36-121 | one character keeps the lexer invariant: plain keyword and number texts, numbers carrying their parsed value, lines in order and within the counter |
| Parser.ScanFrom | src/rust/parser.rs:36-121 | scanning keeps the earlier tokens, adds at most one per character, counts the line feeds, and fails only on a bad number |
| Parser.ScanKeepsSound | src/rust/parser.rs:36-121 | scanning keeps the lexer invariant |
| Parser.Parse | src/rust/parser.rs:28-123 | the tokens start with a keyword, have well-formed texts, lines between 1 and the last line in order, and no more of them than characters; the only error is a bad number (which tokens a text gives is stated by the closing lemmas below) |
| Parser.CommentIgnored | src/rust/parser.rs:40-51 | inside a comment every character before the line feed is read without effect |
| Parser.OpenKeywordNeverEmitted | src/rust/parser.rs:86-98 | text with no whitespace and no `#` never closes the open keyword |
| Parser.UnterminatedInputHasNoTokens | src/rust/parser.rs:122 | such an input parses to no tokens: the token open at the end is dropped |
| Parser.LeadingWhitespaceGivesEmptyKeyword | src/rust/parser.rs:32 | input that starts with whitespace yields an empty keyword on line 1 first |
| Parser.OpenTextGrows | src/rust/parser.rs:62-120 | while the open token is not closed, each character joins its text, the line counter moves once per line feed, and no token is emitted |
| Parser.OpenTokenDropped | src/rust/parser.rs:122 | a token of any kind still open when the input ends is never emitted: the tokens are exactly those before it |
| Parser.KeywordClosesAt | src/rust/parser.rs:86-98 | an open keyword followed by a run of characters without whitespace or `#` and then whitespace or `#` yields exactly one more token, the keyword of the open text plus the run on the current line, and a `#` opens a comment |
| Parser.NumberClosesAt | src/rust/parser.rs:99-115 | the same for a number: exactly one more token carrying the value its text parses to, or the invalid-number error for that text and line |
| Parser.DollarStringClosesAt | src/rust/parser.rs:74-85 | a `$` string closes at the next space or line feed, other whitespace included in its text, and yields exactly that string on the current line |
| Parser.ApostropheStringClosesAt | src/rust/parser.rs:62-73 | a `'` string closes at the next `"`, whitespace and line feeds included, and yields exactly that string on the line where it closes |
| Parser.ParseFirstKeyword | src/rust/parser.rs:28-98 | a text that starts with a run without whitespace or `#`, ended by whitespace or `#`, has that run as its first token, a keyword on line 1 |
| LegacyInvocation.ToArgument | src/invocation.rs:4-8 | an older value corresponds to the newer one of the same kind and content |
| LegacyInvocation.ToArguments | src/invocation.rs:4-8 | the same, element by element |
| LegacyInvocation.ValueEq | src/invocation.rs:21-29 | only values of the same kind can be equal, and every value equals itself |
| LegacyInvocation.HashText | src/invocation.rs:10-17 | the hashed text starts with `K` exactly for a string, and a string's text follows its tag unchanged |
| LegacyInvocation.ValueEqIsEquivalence | src/invocation.rs:19-29 | the older comparison is reflexive, symmetric and transitive |
| LegacyInvocation.HashTextMatchesEquality | src/invocation.rs:10-29 | two values are equal exactly when their hashed texts are |
| LegacyInvocation.Lookup | src/invocation.rs:48 | a lookup finds exactly the entry under the key's hashed text |
| LegacyInvocation.Insert | src/invocation.rs:48 | after an insert every key equal to the given one finds the new value and every other key finds what it found before |
| LegacyControlFlow.Truthy | src/control_flow.rs:15-18 | a condition is false exactly when it is the empty string or exactly zero |
| LegacyControlFlow.IfKeyword | src/control_flow.rs:8-24 | fails exactly without an argument; otherwise pushes If for a truthy and Else for a falsy condition and changes nothing else |
| LegacyControlFlow.IfRevisionsAgreeAwayFromZero | src/control_flow.rs:15-18 | both revisions choose the same branch unless the condition is a non-zero number within Epsilon of zero |
| LegacyControlFlow.IfRevisionsDivergeNearZero | src/control_flow.rs:16 | for such a number the older revision takes the first branch and the newer the second |
| LegacyControlFlow.ElseKeyword | src/control_flow.rs:26-36 | fails exactly on an empty stack; otherwise swaps If and Else on top and changes nothing else |
| LegacyControlFlow.ElseTwiceRestores | src/control_flow.rs:26-36 | two `else` in a row restore the state |
| LegacyControlFlow.EndKeyword | src/control_flow.rs:38-45 | succeeds exactly when the top frame exists and is not a subroutine definition; then pops it |
| LegacyControlFlow.IfThenEndRestores | src/control_flow.rs:8-45 | an `if` followed by its `end` restores the state |
| LegacyControlFlow.DetermineTokensToSkip | src/control_flow.rs:55-76 | the same skip rule as the newer revision |
| LegacyControlFlow.SkippedIfBalancedByEnd | src/control_flow.rs:55-76 | the Ignore frame of a skipped `if` is what its `end` pops |
| LegacyKeywords.PrintLine | src/keywords.rs:8-19 | the older line is the newer line for the same values, with exactly one space between neighbours |
| LegacyKeywords.PrintlnKeyword | src/keywords.rs:7-22 | `println` returns the state unchanged |
| LegacyKeywords.AddFrom | src/keywords.rs:26-31 | the loop succeeds exactly when every argument is a number; otherwise it panics on the string |
| LegacyKeywords.AddFromIsSum | src/keywords.rs:25-31 | the loop gives the seed plus the sum of the arguments |
| LegacyKeywords.AddKeyword | src/keywords.rs:24-35 | succeeds exactly on all-number arguments, gives 0.0 for none, and changes only the return value |
| LegacyKeywords.OlderAddIsSum | src/keywords.rs:24-35 | the older `+` on numbers returns exactly the sum of their values and changes nothing else |
| LegacyKeywords.AddRevisionsAgree | src/keywords.rs:24-35 | on non-empty numbers both revisions' `+` agree; on no arguments the older gives 0.0 and the newer fails |
| LegacyKeywords.LetKeyword | src/keywords.rs:37-43 | succeeds exactly with two arguments; every key equal to the name finds the value, every other key is unaffected |
| LegacyKeywords.TelKeyword | src/keywords.rs:46-54 | succeeds exactly when the name is bound; then only the return value changes, to the bound value |
| LegacyKeywords.LetThenTel | src/keywords.rs:37-54 | `let` then `tel` returns the stored value for string and number names alike |
| LegacyKeywords.LetThenTelSamePrintedNumber | src/keywords.rs:37-54 | a number name is found under any number that prints the same |
| LegacyEvaluator.Dispatch | src/main.rs:77 | no older keyword changes the registry or the line; `println` and `+` change only the return value |
| LegacyEvaluator.NextInvocation | src/main.rs:48-78 | an exhausted cursor, a string, a number and an unregistered keyword each panic distinctly; success consumes the keyword and at least one token per argument |
| LegacyEvaluator.GatherArguments | src/main.rs:59-75 | zero arguments consume nothing; running out of tokens panics; success gives exactly `count` arguments |
| LegacyEvaluator.LiteralValues | src/main.rs:65-72 | the values of literal tokens in order |
| LegacyEvaluator.GatherLiterals | src/main.rs:59-75 | literal arguments take one token each, give their values in order and leave the state exactly as it was |
| LegacyEvaluator.TopLevel | src/main.rs:40-43 | the loop ends with the state reached at the end of the tokens and never changes the registry or the line |
| LegacyEvaluator.Run | src/main.rs:18-43 | a finished run has changed nothing but the return value |
| LegacyTreeSemantics.InvocationFollowsTree | src/main.rs:48-78 | on every well-formed invocation laid out in prefix notation, `next_invocation` gives the tree evaluator's result or panic: the keyword's own implementation applied to the argument values, in the state the arguments leave; the cursor lands right after the invocation |
| LegacyTreeSemantics.ArgumentsFollowTree | src/main.rs:59-75 | the argument loop gives the tree's argument values in order: a literal its value, a keyword its recursive result's return value in the state it leaves, and `NoReturnValue` when that is missing |
| LegacyTreeSemantics.RunFollowsTree | src/main.rs:40-78 | a program that is one well-formed invocation runs from the startup state to exactly the tree evaluator's result |
| LegacyPrograms.AddTwoNumbers | src/keywords.rs:24-35 | `+` on two numbers returns their sum |
| LegacyPrograms.SumOfTwoRun | src/main.rs:40-78 | `+ a b` finishes with a + b as the return value |
| LegacyPrograms.OnePlusTwo | src/main.rs:40-78 | `+ 1 2` finishes with 3 |
| LegacyPrograms.InnerSum | src/main.rs:61-64 | the inner invocation of `+ a + b c` consumes the last three tokens and returns b + c |
| LegacyPrograms.NestedSumRun | src/main.rs:48-78 | `+ a + b c` finishes with a + (b + c) |
| LegacyPrograms.NestedSumIsSix | src/main.rs:48-78 | `+ 1 + 2 3` finishes with 6 |
| LegacyPrograms.UnregisteredKeywordsPanic | src/main.rs:24-39 | a program starting with `if`, `else`, `end`, `let` or `tel` panics, since only `println` and `+` are registered |
| LegacyParser.Step | src/parser.rs:13-100 | one character advances the line exactly on a line feed, adds at most one token, and fails exactly on a number text that does not parse |
| LegacyParser.ScanFrom | src/parser.rs:13-100 | scanning keeps the earlier tokens, adds at most one per character and counts the line feeds |
| LegacyParser.Parse | src/parser.rs:6-102 | no more tokens than characters; the only error is a bad number |
| LegacyParser.StepsAgree | src/parser.rs:13-100 | on a character other than `#` both lexers take the same step |
| LegacyParser.ScansAgree | src/parser.rs:13-100 | on text without `#` both lexers scan alike |
| LegacyParser.ParsersAgreeWithoutHash | src/parser.rs:6-102 | on input without `#` both revisions' lexers give the same tokens or fail on the same number text |
| LegacyParser.NewerLexerEndsKeywordAtHash | src/rust/parser.rs:86-98 | the newer lexer reads `a#b ` as the keyword `a` followed by a comment |
| LegacyParser.OlderLexerKeepsHashInKeyword | src/parser.rs:74-82 | the older lexer reads `a#b ` as the keyword `a#b` |

## Left out

- Output and the command line: the `println!` write (only the line `println` builds is
  modelled), `print_tokens`, reading the source file, the clap command line and the
  `KFKSCRIPT_DEBUG` variable.
- The bodies of `subtract`, `less_than`, `not`, the `scope::` keywords, `return`,
  `subroutine` and `run` are not part of this model; they are the `external` parameter.
  The registry guarantees assume that parameter leaves the registry alone
  (`KeepsRegistry`).
- `skip_tokens` is called by `main_loop` but is not part of this model; `SkipTokens`
  reads it as the rule of `determine_tokens_to_skip` applied to the cursor.
- f64 arithmetic is real arithmetic: rounding, infinities and NaN are not modelled.
  f64's Display and `str::parse::<f64>` are parameters, so printed and parsed forms are
  not fixed.
- Hash collisions: bindings are keyed by value (newer) or by the hashed text (older).
  In the older revision the hash agrees with equality, so this is exact.
- Expression.Lookup, Expression.Insert, Keywords.LetKeyword, Keywords.LetThenTelNumberName:
  these assume that no two bound number keys share a probe tag. `HashMap` calls `eq` on
  every probed entry whose short hash tag matches the key's. The newer number equality
  holds for numbers more than `f64::EPSILON` apart (src/rust/expression.rs:27). So when the
  tags of two different bound numbers collide, a lookup of one finds the other's entry
  and `let` overwrites it. Tag collisions depend on the hasher's per-run random seed, so
  the model does not include them.
- The line counter is unbounded; the source's `u32` would wrap only after 2^32 lines.
- The unreachable code after `continue` at src/rust/interpreter.rs:106-118 is not modelled.
- The older revision does not compile as it stands. Its state initializer omits the line
  number and the nesting stack, which are taken as 0 and empty. It stores a token where a
  string value is due (src/main.rs:21, 67, 71), which is read as the token's text or
  value. Its `println`, `+` and `if` panics and `unwrap`s are `Fault` values.
- The older revision defines `if`, `else`, `end`, `let`, `tel` and
  `determine_tokens_to_skip` but never registers or calls them. They are modelled on
  their own, and `LegacyPrograms.UnregisteredKeywordsPanic` states what a program using
  them does.
- Interpreter.MainLoopAsWritten: its contract states only the end of the tokens and the
  unchanged registry. What it does to programs is stated by the scenarios in Programs.
- Interpreter.MainLoop: same as MainLoopAsWritten, its whole-program behaviour is stated
  by scenarios rather than one general contract.
- Interpreter.Run, Interpreter.RunCorrected: they inherit the limit of the loops they
  call. Their contracts state only that an empty program leaves the state as it is and
  that the registry is kept. The scenarios in Programs state what whole programs do.
- The state fields `scopes`, `subroutines` and `subroutine_name` are not declared in the
  newer revision's `GlobalState` (src/rust/expression.rs:48-62), where they appear only as
  comments. Yet src/rust/main.rs:58-60 and src/rust/interpreter.rs:123-127 use all three,
  so the newer revision as shown does not compile either. Their types in the model are
  choices, not readings of the source:
  - `subroutineName` is an `Option<Argument>` holding the argument the defining keyword
    received, although the comment at src/rust/expression.rs:56 says `String`;
  - `subroutines` maps that argument to the captured tokens;
  - `scopes` is a sequence of `Scope` records (bindings, return value, line), although
    the comment at src/rust/expression.rs:60 says `Vec<GlobalState>`.
- Interpreter.SkippedStepKeepsBindings: assumes `else` and `end` are registered as at
  startup, since another registry could make them run arbitrary code.
- LegacyParser.Parse: does not restate the token-shape invariant proved for the newer
  lexer, because the agreement lemma carries it over for inputs without `#`.

## Findings

| source | as written | input that shows it | evidently intended | confidence | as-written member | corrected member |
|---|---|---|---|---|---|---|
| src/rust/interpreter.rs:102-105 | `main_loop` skips the next invocation only when the top frame is `Else`. An `Ignore` frame, pushed for an `if` inside a skipped branch, lets the statements of that inner branch run | `if 0 if 1 let $x 1 end end`: x ends up bound to 1 although the outer condition is false | skip under `Ignore` as well, as the comment at src/rust/control_flow.rs:51-58 and the skip rule itself (which already treats Else and Ignore alike) describe | medium; not executed | Programs.NestedIfInSkippedBranchRunsAsWritten | Programs.NestedIfInSkippedBranchIsSkipped |

=== FILE: control_flow.dfy ===
/** The control-flow keywords `if`, `else`, `end` of the newer revision and the rule that
    decides how many tokens a skipped invocation occupies (src/rust/control_flow.rs). */
module ControlFlow {
  import opened Results
  import opened Tokens
  import opened Expression

  /** The truthiness `if` applies: a number further than Epsilon from zero, or a
      non-empty string. */
  predicate Truthy(a: Argument)
    ensures Truthy(a) <==> a != StringArg("") && !(a.NumberArg? && -Epsilon <= a.number <= Epsilon)
  {
    match a
    case NumberArg(n) => Abs(n - 0.0) > Epsilon
    case StringArg(s) => s != ""
  }

  lemma NumberTruthiness(x: real)
    ensures Truthy(NumberArg(x)) <==> (x > Epsilon || x < -Epsilon)
    ensures !Truthy(NumberArg(0.0)) && Truthy(NumberArg(1.0))
  {
  }

  /** `if`: pushes exactly one frame, If for a truthy first argument and Else otherwise,
      and changes nothing else; without an argument it fails. */
  function IfKeyword(st: GlobalState, args: seq<Argument>): (r: Result<GlobalState, Error>)
    ensures r.Failure? <==> |args| == 0
    ensures r.Failure? ==> r.error == MissingArgument(st.lineNumber)
    ensures r.Success? ==>
      && |r.value.nesting| == |st.nesting| + 1
      && r.value.nesting[..|st.nesting|] == st.nesting
      && (Top(r.value.nesting) == If <==> Truthy(args[0]))
      && (Top(r.value.nesting) == Else <==> !Truthy(args[0]))
      && r.value == st.(nesting := r.value.nesting)
  {
    if |args| == 0 then
      Failure(MissingArgument(st.lineNumber))
    else if Truthy(args[0]) then
      Success(st.(nesting := st.nesting + [If]))
    else
      Success(st.(nesting := st.nesting + [Else]))
  }

  /** The swap `else` performs on the top frame. */
  function Toggle(f: NestingState): NestingState {
    match f
    case If => Else
    case Else => If
    case _ => f
  }

  /** `else`: fails on an empty stack; otherwise swaps If and Else on top, leaves Ignore
      and SubroutineDefinition alone, keeps the depth and everything below the top. */
  function ElseKeyword(st: GlobalState, args: seq<Argument>): (r: Result<GlobalState, Error>)
    ensures r.Failure? <==> |st.nesting| == 0
    ensures r.Failure? ==> r.error == UnbalancedControlFlow(st.lineNumber)
    ensures r.Success? ==>
      && |r.value.nesting| == |st.nesting|
      && r.value.nesting[..|st.nesting| - 1] == st.nesting[..|st.nesting| - 1]
      && Top(r.value.nesting) == Toggle(Top(st.nesting))
      && r.value == st.(nesting := r.value.nesting)
  {
    if |st.nesting| == 0 then
      Failure(UnbalancedControlFlow(st.lineNumber))
    else
      var below := st.nesting[..|st.nesting| - 1];
      match Top(st.nesting)
      case If => Success(st.(nesting := below + [Else]))
      case Else => Success(st.(nesting := below + [If]))
      case _ => Success(st)
  }

  /** `else` twice is the identity. */
  lemma {:induction false} ElseTwiceRestores(st: GlobalState, args: seq<Argument>)
    requires |st.nesting| > 0
    ensures ElseKeyword(st, args).Success?
    ensures ElseKeyword(ElseKeyword(st, args).value, args) == Success(st)
  {
    var once := ElseKeyword(st, args).value;
    var twice := ElseKeyword(once, args).value;
    var n := |st.nesting|;
    assert Toggle(Toggle(Top(st.nesting))) == Top(st.nesting);
    assert twice.nesting[..n - 1] == st.nesting[..n - 1];
    assert twice.nesting == twice.nesting[..n - 1] + [Top(twice.nesting)];
    assert st.nesting == st.nesting[..n - 1] + [Top(st.nesting)];
  }

  /** `end`: pops exactly one frame. An empty stack is an error and popping a
      SubroutineDefinition frame reaches the `todo!()`. */
  function EndKeyword(st: GlobalState, args: seq<Argument>): (r: Result<GlobalState, Error>)
    ensures r.Success? <==> |st.nesting| > 0 && Top(st.nesting) != SubroutineDefinition
    ensures |st.nesting| == 0 ==> r == Failure(UnbalancedControlFlow(st.lineNumber))
    ensures |st.nesting| > 0 && Top(st.nesting) == SubroutineDefinition ==>
      r == Failure(NotImplemented(st.lineNumber))
    ensures r.Success? ==>
      && r.value.nesting + [Top(st.nesting)] == st.nesting
      && r.value == st.(nesting := r.value.nesting)
  {
    if |st.nesting| == 0 then
      Failure(UnbalancedControlFlow(st.lineNumber))
    else if Top(st.nesting) == SubroutineDefinition then
      Failure(NotImplemented(st.lineNumber))
    else
      Success(st.(nesting := st.nesting[..|st.nesting| - 1]))
  }

  /** An `if` closed by its `end` leaves the state as it found it. */
  lemma IfThenEndRestores(st: GlobalState, cond: Argument, args: seq<Argument>)
    ensures IfKeyword(st, [cond]).Success?
    ensures EndKeyword(IfKeyword(st, [cond]).value, args) == Success(st)
  {
    var pushed := IfKeyword(st, [cond]).value;
    assert pushed.nesting[..|pushed.nesting| - 1] == st.nesting;
  }

  /** When the frame on top says the next invocation must not run: the top is Else or
      Ignore and the next token is a keyword other than `end` and `else`. */
  predicate SkipApplies(nesting: seq<NestingState>, next: Token) {
    && |nesting| > 0
    && (Top(nesting) == Else || Top(nesting) == Ignore)
    && next.Keyword?
    && next.lexeme != "end"
    && next.lexeme != "else"
  }

  /** `determine_tokens_to_skip`: how many argument tokens follow the keyword to be
      skipped, together with the state to continue in. Outside a skip it returns
      (0, st) untouched; inside, it returns the registered arity, pushing Ignore first
      when the skipped keyword is `if`, and fails on an unregistered keyword. */
  function DetermineTokensToSkip(st: GlobalState, next: Token): (r: Result<(nat, GlobalState), Error>)
    ensures !SkipApplies(st.nesting, next) ==> r == Success((0, st))
    ensures SkipApplies(st.nesting, next) && next.lexeme !in st.keywords ==>
      r == Failure(UnknownKeyword(next.lexeme, next.line))
    ensures SkipApplies(st.nesting, next) && next.lexeme in st.keywords ==>
      && r.Success?
      && r.value.0 == st.keywords[next.lexeme].numberOfArguments
      && (next.lexeme == "if" ==> r.value.1 == st.(nesting := st.nesting + [Ignore]))
      && (next.lexeme != "if" ==> r.value.1 == st)
  {
    if SkipApplies(st.nesting, next) then
      var pushed := if next.lexeme == "if" then st.(nesting := st.nesting + [Ignore]) else st;
      if next.lexeme in pushed.keywords then
        Success((pushed.keywords[next.lexeme].numberOfArguments, pushed))
      else
        Failure(UnknownKeyword(next.lexeme, next.line))
    else
      Success((0, st))
  }

  /** The Ignore frame pushed for a skipped `if` is exactly what its `end` pops: skipping
      the `if` and later evaluating that `end` restores the state. */
  lemma SkippedIfBalancedByEnd(st: GlobalState, next: Token, args: seq<Argument>)
    requires SkipApplies(st.nesting, next) && next.lexeme == "if" && "if" in st.keywords
    ensures DetermineTokensToSkip(st, next).Success?
    ensures EndKeyword(DetermineTokensToSkip(st, next).value.1, args) == Success(st)
  {
    var pushed := DetermineTokensToSkip(st, next).value.1;
    assert pushed.nesting[..|pushed.nesting| - 1] == st.nesting;
  }
}

=== FILE: expression.dfy ===
/** Runtime values, nesting frames, keyword registry entries and the interpreter state
    of the newer revision (src/rust/expression.rs), together with the error kinds the
    engine reports. */
module Expression {
  import opened Results
  import opened Tokens

  /** `f64::EPSILON`, 2^-52. Only its positivity matters to the proofs. */
  const Epsilon: real := 1.0 / 4503599627370496.0

  function Abs(x: real): real {
    if x < 0.0 then -x else x
  }

  /** `Argument`: the only two kinds of runtime value. */
  datatype Argument = StringArg(text: string) | NumberArg(number: real)

  /** The hand-written `PartialEq` for `Argument`. Two numbers compare "equal" when they
      are MORE than Epsilon apart, as written. */
  predicate ArgEq(a: Argument, b: Argument)
    ensures ArgEq(a, b) ==> (a.StringArg? <==> b.StringArg?)
    ensures a.StringArg? && b.StringArg? ==> (ArgEq(a, b) <==> a == b)
    ensures a.NumberArg? && a == b ==> !ArgEq(a, b)
  {
    match (a, b)
    case (StringArg(l), StringArg(r)) => l == r
    case (NumberArg(l), NumberArg(r)) => Abs(l - r) > Epsilon
    case _ => false
  }

  /** The text the hand-written `Hash` feeds to the hasher; `show` is f64's Display. */
  function HashText(a: Argument, show: real -> string): (r: string)
    ensures |r| > 0 && (r[0] == 'K' <==> a.StringArg?)
    ensures a.StringArg? ==> |r| >= 10 && r[10..] == a.text
  {
    match a
    case StringArg(s) => "KfkString:" + s
    case NumberArg(n) => "Number:" + show(n)
  }

  lemma StringArgEqIffSameText(s: string, t: string)
    ensures ArgEq(StringArg(s), StringArg(t)) <==> s == t
  {
  }

  lemma MixedArgsNeverEqual(s: string, x: real)
    ensures !ArgEq(StringArg(s), NumberArg(x)) && !ArgEq(NumberArg(x), StringArg(s))
  {
  }

  /** Numbers are "equal" exactly when they differ by more than Epsilon; in particular a
      number never equals itself, so the `impl Eq` marker claims a reflexivity that the
      comparison does not have. */
  lemma NumberArgEqIsInverted(x: real, y: real)
    ensures ArgEq(NumberArg(x), NumberArg(y)) <==> (x - y > Epsilon || y - x > Epsilon)
    ensures !ArgEq(NumberArg(x), NumberArg(x))
  {
  }

  /** The variant tag in front of the hashed text keeps strings and numbers apart. */
  lemma HashTagsDisjoint(s: string, x: real, show: real -> string)
    ensures HashText(StringArg(s), show) != HashText(NumberArg(x), show)
  {
    assert HashText(StringArg(s), show)[0] == 'K';
    assert HashText(NumberArg(x), show)[0] == 'N';
  }

  /** For strings the equality and the hash agree, as `Hash`'s contract demands. */
  lemma StringEqualityImpliesEqualHash(s: string, t: string, show: real -> string)
    requires ArgEq(StringArg(s), StringArg(t))
    ensures HashText(StringArg(s), show) == HashText(StringArg(t), show)
  {
  }

  /** The variable bindings, `HashMap<Argument, Argument>`. A lookup compares the key
      under ArgEq with every probed entry whose short hash tag matches its own. The model
      takes the case where no two bound number keys share a probe tag. Then the only
      entry a number is compared with is its own, which ArgEq rejects, so number-keyed
      entries are stored but never found. */
  type Bindings = map<Argument, Argument>

  function Lookup(m: Bindings, key: Argument): (r: Option<Argument>)
    ensures r.Some? <==> key.StringArg? && key in m
    ensures r.Some? ==> r.value == m[key]
  {
    if key in m && ArgEq(key, key) then Some(m[key]) else None
  }

  /** `HashMap::insert`: a later lookup of a string key sees the new value. */
  function Insert(m: Bindings, key: Argument, value: Argument): (r: Bindings)
    ensures forall k :: k != key ==> Lookup(r, k) == Lookup(m, k)
    ensures key.StringArg? ==> Lookup(r, key) == Some(value)
    ensures key.NumberArg? ==> Lookup(r, key) == None
  {
    m[key := value]
  }

  /** `NestingState`: one frame per open `if` or subroutine definition. */
  datatype NestingState = If | Else | Ignore | SubroutineDefinition

  function Top(nesting: seq<NestingState>): NestingState
    requires |nesting| > 0
  {
    nesting[|nesting| - 1]
  }

  /** The implementations registered at startup. The function pointers of the source
      become this closed set; the keywords whose bodies are not part of this model
      (subtract, <, !, the scope keywords, return, subroutine, run) are `External`. */
  datatype Builtin =
    | PrintlnFn | AddFn | IfFn | ElseFn | EndFn | LetFn | TelFn | EqFn | TrueFn | FalseFn
    | External(name: string)

  datatype KeywordImplementation =
    KeywordImplementation(name: string, implementation: Builtin, numberOfArguments: nat)

  /** A saved scope: bindings, return value and line, restored by `scope::pop`. */
  datatype Scope = Scope(variables: Bindings, ret: Option<Argument>, lineNumber: nat)

  /** `GlobalState`, including the three fields that main.rs and interpreter.rs use but
      expression.rs does not declare: scopes, subroutines and subroutineName. */
  datatype GlobalState = GlobalState(
    variables: Bindings,
    keywords: map<string, KeywordImplementation>,
    lineNumber: nat,
    nesting: seq<NestingState>,
    ret: Option<Argument>,
    scopes: seq<Scope>,
    subroutines: map<Argument, seq<Token>>,
    subroutineName: Option<Argument>)

  /** The error kinds behind the eyre messages of the newer revision. */
  datatype Error =
    | TokenExpected                                  // cursor exhausted where a keyword was due
    | UnexpectedToken(line: nat)                     // a literal where a keyword was due
    | UnknownKeyword(name: string, line: nat)
    | InsufficientArguments(name: string, line: nat)
    | MissingReturnValue(line: nat)
    | MissingArgument(line: nat)                     // a keyword body found too few arguments
    | TypeError(line: nat)                           // a string given to `+`
    | VariableNotFound(variable: Argument)
    | UnbalancedControlFlow(line: nat)               // `else` or `end` with an empty stack
    | NotImplemented(line: nat)                      // the `todo!()` in `end`
    | UnterminatedSubroutine(line: nat)
    | DuplicateKeywordRegistration(name: string)
    | InvalidNumber(lexeme: string, line: nat)
}

=== FILE: interpreter.dfy ===
/** The evaluation engine of the newer revision (src/rust/interpreter.rs): keyword
    dispatch with recursive argument resolution, subroutine-body capture, and the main
    loop with its conditional skipping. The token iterator becomes the token sequence
    and a cursor position threaded through pure functions. */
module Interpreter {
  import opened Results
  import opened Tokens
  import opened Expression
  import opened ControlFlow
  import opened Keywords

  /** The keywords whose bodies are not part of this model, as one function of the
      keyword name, the state and the resolved arguments. */
  type ExternalKeywords = (string, GlobalState, seq<Argument>) -> Result<GlobalState, Error>

  /** No keyword touches the registry once startup is over; for the external keywords
      this is an assumption, for the built-ins it is proved (Dispatch). */
  ghost predicate KeepsRegistry(external: ExternalKeywords) {
    forall name, st, args ::
      external(name, st, args).Success? ==> external(name, st, args).value.keywords == st.keywords
  }

  /** Calls the implementation a registry entry names. */
  function Dispatch(implementation: Builtin, st: GlobalState, args: seq<Argument>, external: ExternalKeywords)
    : (r: Result<GlobalState, Error>)
    ensures KeepsRegistry(external) && r.Success? ==> r.value.keywords == st.keywords
    ensures !implementation.External? && r.Success? ==> r.value.subroutineName == st.subroutineName
  {
    match implementation
    case PrintlnFn => PrintlnKeyword(st, args)
    case AddFn => AddKeyword(st, args)
    case IfFn => IfKeyword(st, args)
    case ElseFn => ElseKeyword(st, args)
    case EndFn => EndKeyword(st, args)
    case LetFn => LetKeyword(st, args)
    case TelFn => TelKeyword(st, args)
    case EqFn => EqKeyword(st, args)
    case TrueFn => TrueKeyword(st, args)
    case FalseFn => FalseKeyword(st, args)
    case External(name) => external(name, st, args)
  }

  /** The cursor after a step together with the state it produced. */
  datatype Cursor = Cursor(pos: nat, state: GlobalState)

  /** Arguments resolved for one invocation, left to right. */
  datatype Gathered = Gathered(args: seq<Argument>, pos: nat, state: GlobalState)

  /** The value a literal token stands for. */
  function LiteralValue(t: Token): Argument
    requires !t.Keyword?
  {
    match t
    case KfkString(text, _) => StringArg(text)
    case Number(_, n, _) => NumberArg(n)
  }

  /** `run_next_expression`: consumes one keyword and its arguments and applies the
      keyword. The token must be a registered keyword; on success the cursor has moved
      past the keyword and at least one token per argument, never past the end. */
  function RunNextExpression(tokens: seq<Token>, pos: nat, st: GlobalState, external: ExternalKeywords)
    : (r: Result<Cursor, Error>)
    requires pos <= |tokens|
    decreases |tokens| - pos, 0
    ensures pos == |tokens| ==> r == Failure(TokenExpected)
    ensures pos < |tokens| && !tokens[pos].Keyword? ==> r == Failure(UnexpectedToken(tokens[pos].line))
    ensures pos < |tokens| && tokens[pos].Keyword? && tokens[pos].lexeme !in st.keywords ==>
      r == Failure(UnknownKeyword(tokens[pos].lexeme, tokens[pos].line))
    ensures r.Success? ==>
      && tokens[pos].Keyword?
      && tokens[pos].lexeme in st.keywords
      && pos + 1 + st.keywords[tokens[pos].lexeme].numberOfArguments <= r.value.pos <= |tokens|
    ensures KeepsRegistry(external) && r.Success? ==> r.value.state.keywords == st.keywords
  {
    if pos == |tokens| then
      Failure(TokenExpected)
    else
      var token := tokens[pos];
      match token
      case KfkString(_, line) => Failure(UnexpectedToken(line))
      case Number(_, _, line) => Failure(UnexpectedToken(line))
      case Keyword(name, line) =>
        if name !in st.keywords then
          Failure(UnknownKeyword(name, line))
        else
          var entry := st.keywords[name];
          var gathered :- RetrieveArguments(entry, token, tokens, pos + 1, st.(lineNumber := line),
                                            entry.numberOfArguments, external);
          var next :- Dispatch(entry.implementation, gathered.state, gathered.args, external);
          Success(Cursor(gathered.pos, next))
  }

  /** `retrieve_arguments`: resolves `count` arguments left to right. A literal is
      consumed and becomes the value (and its line the current line); a keyword is
      evaluated recursively, its state adopted and its return value used. Running out of
      tokens is an error. */
  function RetrieveArguments(entry: KeywordImplementation, keyword: Token, tokens: seq<Token>, pos: nat,
                             st: GlobalState, count: nat, external: ExternalKeywords)
    : (r: Result<Gathered, Error>)
    requires pos <= |tokens|
    decreases |tokens| - pos, count
    ensures count == 0 ==> r == Success(Gathered([], pos, st))
    ensures count > 0 && pos == |tokens| ==> r == Failure(InsufficientArguments(entry.name, keyword.line))
    ensures r.Success? ==> |r.value.args| == count && pos + count <= r.value.pos <= |tokens|
    ensures KeepsRegistry(external) && r.Success? ==> r.value.state.keywords == st.keywords
  {
    if count == 0 then
      Success(Gathered([], pos, st))
    else if pos == |tokens| then
      Failure(InsufficientArguments(entry.name, keyword.line))
    else
      match tokens[pos]
      case Keyword(_, _) =>
        var callee :- RunNextExpression(tokens, pos, st, external);
        if callee.state.ret.None? then
          Failure(MissingReturnValue(callee.state.lineNumber))
        else
          var rest :- RetrieveArguments(entry, keyword, tokens, callee.pos, callee.state, count - 1, external);
          Success(Gathered([callee.state.ret.value] + rest.args, rest.pos, rest.state))
      case KfkString(_, line) =>
        var rest :- RetrieveArguments(entry, keyword, tokens, pos + 1, st.(lineNumber := line), count - 1, external);
        Success(Gathered([LiteralValue(tokens[pos])] + rest.args, rest.pos, rest.state))
      case Number(_, _, line) =>
        var rest :- RetrieveArguments(entry, keyword, tokens, pos + 1, st.(lineNumber := line), count - 1, external);
        Success(Gathered([LiteralValue(tokens[pos])] + rest.args, rest.pos, rest.state))
  }

  /** The values of literal tokens, in order. */
  function LiteralValues(literals: seq<Token>): (r: seq<Argument>)
    requires forall i :: 0 <= i < |literals| ==> !literals[i].Keyword?
    ensures |r| == |literals| && forall i :: 0 <= i < |literals| ==> r[i] == LiteralValue(literals[i])
  {
    if |literals| == 0 then [] else [LiteralValue(literals[0])] + LiteralValues(literals[1..])
  }

  /** Argument resolution over `count` literal tokens from `pos` gives their values in
      order, the cursor right after them, and the line of the last one as the current
      line. */
  predicate LiteralsRetrieved(entry: KeywordImplementation, keyword: Token, tokens: seq<Token>,
                              pos: nat, st: GlobalState, count: nat, external: ExternalKeywords)
    requires 0 < count && pos + count <= |tokens|
    requires forall i :: pos <= i < pos + count ==> !tokens[i].Keyword?
  {
    RetrieveArguments(entry, keyword, tokens, pos, st, count, external)
      == Success(Gathered(LiteralValues(tokens[pos..pos + count]), pos + count,
                          st.(lineNumber := tokens[pos + count - 1].line)))
  }

  /** Literal arguments take one token each, give their values in order, and leave the
      line of the last one as the current line. */
  lemma {:induction false} RetrieveLiterals(entry: KeywordImplementation, keyword: Token, tokens: seq<Token>,
                                            pos: nat, st: GlobalState, count: nat, external: ExternalKeywords)
    requires 0 < count && pos + count <= |tokens|
    requires forall i :: pos <= i < pos + count ==> !tokens[i].Keyword?
    decreases count
    ensures LiteralsRetrieved(entry, keyword, tokens, pos, st, count, external)
  {
    if count > 1 {
      RetrieveLiterals(entry, keyword, tokens, pos + 1, st.(lineNumber := tokens[pos].line), count - 1, external);
      LiteralsCons(entry, keyword, tokens, pos, st, count, external);
    } else {
      LiteralArgumentStep(entry, keyword, tokens, pos, st, count, external);
    }
  }

  /** The inductive step of RetrieveLiterals: one more literal in front. */
  lemma LiteralsCons(entry: KeywordImplementation, keyword: Token, tokens: seq<Token>,
                     pos: nat, st: GlobalState, count: nat, external: ExternalKeywords)
    requires 1 < count && pos + count <= |tokens| && !tokens[pos].Keyword?
    requires forall i :: pos + 1 <= i < pos + count ==> !tokens[i].Keyword?
    requires LiteralsRetrieved(entry, keyword, tokens, pos + 1, st.(lineNumber := tokens[pos].line), count - 1, external)
    ensures LiteralsRetrieved(entry, keyword, tokens, pos, st, count, external)
  {
    var literals := tokens[pos..pos + count];
    assert literals[1..] == tokens[pos + 1..pos + count];
    assert LiteralValues(literals) == [LiteralValue(tokens[pos])] + LiteralValues(literals[1..]);
    LiteralArgumentStep(entry, keyword, tokens, pos, st, count, external);
  }

  /** Resolved arguments handed to a keyword's implementation, the cursor staying after them. */
  function Apply(implementation: Builtin, r: Result<Gathered, Error>, external: ExternalKeywords)
    : Result<Cursor, Error>
  {
    match r
    case Success(g) => At(Dispatch(implementation, g.state, g.args, external), g.pos)
    case Failure(e) => Failure(e)
  }

  /** A registered keyword: its arguments resolved from the next token on, with the
      keyword's line as the current line, then applied. */
  lemma InvocationStep(tokens: seq<Token>, pos: nat, st: GlobalState, external: ExternalKeywords)
    requires pos < |tokens| && tokens[pos].Keyword? && tokens[pos].lexeme in st.keywords
    ensures var entry := st.keywords[tokens[pos].lexeme];
      RunNextExpression(tokens, pos, st, external)
        == Apply(entry.implementation,
                 RetrieveArguments(entry, tokens[pos], tokens, pos + 1, st.(lineNumber := tokens[pos].line),
                                   entry.numberOfArguments, external), external)
  {
  }

  /** A resolved argument in front of the ones resolved after it. */
  function Prepend(v: Argument, r: Result<Gathered, Error>): Result<Gathered, Error> {
    match r
    case Success(g) => Success(Gathered([v] + g.args, g.pos, g.state))
    case Failure(e) => Failure(e)
  }

  /** One keyword argument: its invocation's error, a missing return value, or its
      return value in front of the arguments after it. */
  lemma KeywordArgumentStep(entry: KeywordImplementation, keyword: Token, tokens: seq<Token>, pos: nat,
                            st: GlobalState, count: nat, external: ExternalKeywords)
    requires 0 < count && pos < |tokens| && tokens[pos].Keyword?
    ensures RunNextExpression(tokens, pos, st, external).Failure? ==>
      RetrieveArguments(entry, keyword, tokens, pos, st, count, external)
        == Failure(RunNextExpression(tokens, pos, st, external).error)
    ensures RunNextExpression(tokens, pos, st, external).Success? &&
            RunNextExpression(tokens, pos, st, external).value.state.ret.None? ==>
      RetrieveArguments(entry, keyword, tokens, pos, st, count, external)
        == Failure(MissingReturnValue(RunNextExpression(tokens, pos, st, external).value.state.lineNumber))
    ensures RunNextExpression(tokens, pos, st, external).Success? &&
            RunNextExpression(tokens, pos, st, external).value.state.ret.Some? ==>
      var callee := RunNextExpression(tokens, pos, st, external).value;
      RetrieveArguments(entry, keyword, tokens, pos, st, count, external)
        == Prepend(callee.state.ret.value,
                   RetrieveArguments(entry, keyword, tokens, callee.pos, callee.state, count - 1, external))
  {
  }

  /** One literal argument: its value in front of the arguments after it, which are
      resolved with the literal's line as the current line. */
  lemma LiteralArgumentStep(entry: KeywordImplementation, keyword: Token, tokens: seq<Token>, pos: nat,
                            st: GlobalState, count: nat, external: ExternalKeywords)
    requires 0 < count && pos < |tokens| && !tokens[pos].Keyword?
    ensures RetrieveArguments(entry, keyword, tokens, pos, st, count, external)
      == Prepend(LiteralValue(tokens[pos]),
                 RetrieveArguments(entry, keyword, tokens, pos + 1, st.(lineNumber := tokens[pos].line), count - 1, external))
  {
  }

  /** The step `main_loop` takes under an Else frame. The source calls a `skip_tokens`
      that is not part of this model; it is read as: determine the skip, and when the
      skip rule applies move past the keyword and that many further tokens (never past
      the end), otherwise evaluate the token normally (this is how `end` and `else` are
      reached while skipping). */
  function SkipTokens(tokens: seq<Token>, pos: nat, st: GlobalState, external: ExternalKeywords)
    : (r: Result<Cursor, Error>)
    requires pos < |tokens|
    ensures r.Success? ==> pos < r.value.pos <= |tokens|
    ensures !SkipApplies(st.nesting, tokens[pos]) ==> r == RunNextExpression(tokens, pos, st, external)
    ensures SkipApplies(st.nesting, tokens[pos]) ==>
      (r.Success? <==> tokens[pos].lexeme in st.keywords)
    ensures SkipApplies(st.nesting, tokens[pos]) && r.Success? ==>
      && r.value.pos == Min(pos + 1 + st.keywords[tokens[pos].lexeme].numberOfArguments, |tokens|)
      && r.value.state == (if tokens[pos].lexeme == "if" then st.(nesting := st.nesting + [Ignore]) else st)
    ensures KeepsRegistry(external) && r.Success? ==> r.value.state.keywords == st.keywords
  {
    var next := tokens[pos];
    var skip :- DetermineTokensToSkip(st, next);
    if SkipApplies(st.nesting, next) then
      Success(Cursor(Min(pos + 1 + skip.0, |tokens|), skip.1))
    else
      RunNextExpression(tokens, pos, skip.1, external)
  }

  function Min(a: nat, b: nat): nat {
    if a < b then a else b
  }

  /** Position of the first occurrence of `f`. */
  function FirstIndex(nesting: seq<NestingState>, f: NestingState): (r: nat)
    requires f in nesting
    ensures r < |nesting| && nesting[r] == f && f !in nesting[..r]
  {
    if nesting[0] == f then 0
    else
      assert f in nesting[1..];
      var k := FirstIndex(nesting[1..], f);
      assert nesting[..k + 1] == [nesting[0]] + nesting[1..][..k];
      k + 1
  }

  /** How a captured token changes the nesting stack: `if` pushes Ignore, `end` pops. */
  function CaptureStep(nesting: seq<NestingState>, t: Token): (r: seq<NestingState>)
    ensures |r| + (if IsKeyword(t, "end") && |nesting| > 0 then 1 else 0) == |nesting| + (if IsKeyword(t, "if") then 1 else 0)
  {
    if IsKeyword(t, "if") then nesting + [Ignore]
    else if IsKeyword(t, "end") then (if |nesting| == 0 then nesting else nesting[..|nesting| - 1])
    else nesting
  }

  function CountKeyword(toks: seq<Token>, name: string): nat {
    if |toks| == 0 then 0 else (if IsKeyword(toks[0], name) then 1 else 0) + CountKeyword(toks[1..], name)
  }

  /** One captured token keeps the lowest SubroutineDefinition frame where it is, or is
      the `end` that pops it. */
  lemma CaptureStepFacts(nesting: seq<NestingState>, t: Token)
    requires SubroutineDefinition in nesting
    ensures |CaptureStep(nesting, t)| + (if IsKeyword(t, "end") then 1 else 0)
      == |nesting| + (if IsKeyword(t, "if") then 1 else 0)
    ensures SubroutineDefinition in CaptureStep(nesting, t) ==>
      CaptureStep(nesting, t)[..FirstIndex(CaptureStep(nesting, t), SubroutineDefinition)]
        == nesting[..FirstIndex(nesting, SubroutineDefinition)]
    ensures SubroutineDefinition !in CaptureStep(nesting, t) ==>
      IsKeyword(t, "end") && CaptureStep(nesting, t) == nesting[..FirstIndex(nesting, SubroutineDefinition)]
  {
    var after := CaptureStep(nesting, t);
    var k := FirstIndex(nesting, SubroutineDefinition);
    if IsKeyword(t, "if") {
      assert after[..|nesting|] == nesting;
      assert after[..k] == nesting[..k];
      FirstIndexOfPrefix(nesting, after, SubroutineDefinition);
    } else if IsKeyword(t, "end") {
      assert after == nesting[..|nesting| - 1];
      if SubroutineDefinition in after {
        FirstIndexOfPrefix(after, nesting, SubroutineDefinition);
      } else {
        assert k == |nesting| - 1;
      }
    }
  }

  /** The first occurrence inside a prefix is the first occurrence in the whole. */
  lemma FirstIndexOfPrefix(short: seq<NestingState>, long: seq<NestingState>, f: NestingState)
    requires |short| <= |long| && long[..|short|] == short && f in short
    ensures f in long && FirstIndex(long, f) == FirstIndex(short, f)
    ensures long[..FirstIndex(long, f)] == short[..FirstIndex(short, f)]
  {
    var i := FirstIndex(short, f);
    assert long[i] == f;
  }

  datatype Capture = Capture(body: seq<Token>, pos: nat, nesting: seq<NestingState>)

  /** The loop of `get_subroutine_tokens`: take tokens while a SubroutineDefinition frame
      is on the stack. It ends right after the `end` that pops the lowest such frame,
      leaving the stack as it was below that frame; every `if` taken is matched by an
      `end` taken. Running out of tokens first is an error. */
  function CaptureFrom(tokens: seq<Token>, pos: nat, nesting: seq<NestingState>, line: nat)
    : (r: Result<Capture, Error>)
    requires pos <= |tokens|
    decreases |tokens| - pos
    ensures SubroutineDefinition !in nesting ==> r == Success(Capture([], pos, nesting))
    ensures r.Failure? ==> r.error == UnterminatedSubroutine(line)
    ensures r.Success? ==> pos <= r.value.pos <= |tokens| && r.value.body == tokens[pos..r.value.pos]
  {
    if SubroutineDefinition !in nesting then
      Success(Capture([], pos, nesting))
    else if pos == |tokens| then
      Failure(UnterminatedSubroutine(line))
    else
      var t := tokens[pos];
      var rest :- CaptureFrom(tokens, pos + 1, CaptureStep(nesting, t), line);
      assert [t] + rest.body == tokens[pos..rest.pos];
      Success(Capture([t] + rest.body, rest.pos, rest.nesting))
  }

  /** What a capture that starts inside a subroutine definition leaves: it ends right
      after the `end` that pops the lowest SubroutineDefinition frame, the stack is what
      lay below that frame, and every `if` taken is matched by an `end` taken. Without an
      `end` ahead the capture fails. */
  lemma {:induction false} CaptureFacts(tokens: seq<Token>, pos: nat, nesting: seq<NestingState>, line: nat)
    requires pos <= |tokens|
    decreases |tokens| - pos
    ensures CaptureFrom(tokens, pos, nesting, line).Success? ==>
      SubroutineDefinition !in CaptureFrom(tokens, pos, nesting, line).value.nesting
    ensures CaptureFrom(tokens, pos, nesting, line).Success? && SubroutineDefinition in nesting ==>
      ClosedByEnd(tokens, pos, nesting, CaptureFrom(tokens, pos, nesting, line).value)
  {
    if SubroutineDefinition in nesting && pos < |tokens| {
      var after := CaptureStep(nesting, tokens[pos]);
      CaptureFacts(tokens, pos + 1, after, line);
      CaptureFactsStep(tokens, pos, nesting, line, CaptureFrom(tokens, pos + 1, after, line));
    }
  }

  /** The facts of CaptureFacts carry over from the capture after one token to the
      capture from that token. */
  lemma CaptureFactsStep(tokens: seq<Token>, pos: nat, nesting: seq<NestingState>, line: nat,
                         rest: Result<Capture, Error>)
    requires pos < |tokens| && SubroutineDefinition in nesting
    requires rest == CaptureFrom(tokens, pos + 1, CaptureStep(nesting, tokens[pos]), line)
    requires rest.Success? ==> SubroutineDefinition !in rest.value.nesting
    requires rest.Success? && SubroutineDefinition in CaptureStep(nesting, tokens[pos]) ==>
      ClosedByEnd(tokens, pos + 1, CaptureStep(nesting, tokens[pos]), rest.value)
    ensures CaptureFrom(tokens, pos, nesting, line).Success? ==>
      && SubroutineDefinition !in CaptureFrom(tokens, pos, nesting, line).value.nesting
      && ClosedByEnd(tokens, pos, nesting, CaptureFrom(tokens, pos, nesting, line).value)
  {
    CaptureFromStep(tokens, pos, nesting, line, rest);
    if rest.Success? {
      CaptureExtends(tokens, pos, nesting, rest.value);
    }
  }

  /** A capture from `pos` under `nesting` that ends right after an `end`, with the
      stack cut back to what lay below the lowest subroutine frame. */
  predicate ClosedByEnd(tokens: seq<Token>, pos: nat, nesting: seq<NestingState>, c: Capture)
  {
    && SubroutineDefinition in nesting
    && pos < c.pos <= |tokens|
    && IsKeyword(tokens[c.pos - 1], "end")
    && c.nesting == nesting[..FirstIndex(nesting, SubroutineDefinition)]
  }

  /** One token taken by the capture loop: the rest of the capture, with that token in
      front of its body. */
  lemma CaptureFromStep(tokens: seq<Token>, pos: nat, nesting: seq<NestingState>, line: nat,
                        rest: Result<Capture, Error>)
    requires pos < |tokens| && SubroutineDefinition in nesting
    requires rest == CaptureFrom(tokens, pos + 1, CaptureStep(nesting, tokens[pos]), line)
    ensures rest.Failure? ==> CaptureFrom(tokens, pos, nesting, line) == rest
    ensures rest.Success? ==>
      CaptureFrom(tokens, pos, nesting, line)
        == Success(Capture([tokens[pos]] + rest.value.body, rest.value.pos, rest.value.nesting))
  {
  }

  /** Every `if` taken into a capture is matched by an `end` taken: the stack shrinks by
      the surplus of `end`s over `if`s in the body. */
  lemma {:induction false} CaptureBalanced(tokens: seq<Token>, pos: nat, nesting: seq<NestingState>, line: nat)
    requires pos <= |tokens|
    decreases |tokens| - pos
    ensures CaptureFrom(tokens, pos, nesting, line).Success? ==>
      var c := CaptureFrom(tokens, pos, nesting, line).value;
      |c.nesting| + CountKeyword(c.body, "end") == |nesting| + CountKeyword(c.body, "if")
  {
    if SubroutineDefinition in nesting && pos < |tokens| {
      var t := tokens[pos];
      var after := CaptureStep(nesting, t);
      CaptureBalanced(tokens, pos + 1, after, line);
      CaptureStepFacts(nesting, t);
      var rest := CaptureFrom(tokens, pos + 1, after, line);
      if rest.Success? {
        var body := [t] + rest.value.body;
        assert CaptureFrom(tokens, pos, nesting, line) == Success(Capture(body, rest.value.pos, rest.value.nesting));
        assert body[1..] == rest.value.body;
        assert CountKeyword(body, "end") == (if IsKeyword(t, "end") then 1 else 0) + CountKeyword(rest.value.body, "end");
        assert CountKeyword(body, "if") == (if IsKeyword(t, "if") then 1 else 0) + CountKeyword(rest.value.body, "if");
      }
    }
  }

  /** Without an `end` ahead, a capture inside a subroutine definition fails. */
  lemma {:induction false} CaptureNeedsEnd(tokens: seq<Token>, pos: nat, nesting: seq<NestingState>, line: nat)
    requires pos <= |tokens| && SubroutineDefinition in nesting
    requires forall i :: pos <= i < |tokens| ==> !IsKeyword(tokens[i], "end")
    decreases |tokens| - pos
    ensures CaptureFrom(tokens, pos, nesting, line) == Failure(UnterminatedSubroutine(line))
  {
    if pos < |tokens| {
      var after := CaptureStep(nesting, tokens[pos]);
      CaptureStepFacts(nesting, tokens[pos]);
      CaptureNeedsEnd(tokens, pos + 1, after, line);
    }
  }

  /** A capture from the next token, with the stack the current token leaves, extends
      to a capture from the current token. */
  lemma CaptureExtends(tokens: seq<Token>, pos: nat, nesting: seq<NestingState>, rest: Capture)
    requires pos < |tokens| && SubroutineDefinition in nesting
    requires pos + 1 <= rest.pos <= |tokens| && rest.body == tokens[pos + 1..rest.pos]
    requires var after := CaptureStep(nesting, tokens[pos]);
      && (SubroutineDefinition !in after ==> rest == Capture([], pos + 1, after))
      && (SubroutineDefinition in after ==> ClosedByEnd(tokens, pos + 1, after, rest))
    ensures ClosedByEnd(tokens, pos, nesting, rest)
  {
    CaptureStepFacts(nesting, tokens[pos]);
  }

  datatype CapturedBody = CapturedBody(body: seq<Token>, pos: nat, state: GlobalState)

  /** `get_subroutine_tokens`: the captured tokens without the closing `end`, the cursor
      after that `end`, and the state with the subroutine's frames popped. */
  function GetSubroutineTokens(tokens: seq<Token>, pos: nat, st: GlobalState): (r: Result<CapturedBody, Error>)
    requires pos <= |tokens|
    ensures r.Failure? ==> r.error == UnterminatedSubroutine(st.lineNumber)
    ensures r.Success? ==>
      && pos <= r.value.pos <= |tokens|
      && SubroutineDefinition !in r.value.state.nesting
      && r.value.state == st.(nesting := r.value.state.nesting)
    ensures SubroutineDefinition !in st.nesting ==> r == Success(CapturedBody([], pos, st))
  {
    match CaptureFrom(tokens, pos, st.nesting, st.lineNumber)
    case Failure(e) => Failure(e)
    case Success(c) =>
      CapturedBodyFacts(tokens, pos, st.nesting, st.lineNumber, c);
      Success(CapturedBody(AllButLast(c.body), c.pos, st.(nesting := c.nesting)))
  }

  /** A body captured from inside a definition: exactly the tokens before the closing
      `end`, the cursor right after that `end`, and the stack cut back to below the
      lowest subroutine frame. */
  lemma SubroutineBodyEnds(tokens: seq<Token>, pos: nat, st: GlobalState)
    requires pos <= |tokens|
    ensures var r := GetSubroutineTokens(tokens, pos, st);
      r.Success? && SubroutineDefinition in st.nesting ==>
        && pos < r.value.pos
        && IsKeyword(tokens[r.value.pos - 1], "end")
        && r.value.body == tokens[pos..r.value.pos - 1]
        && r.value.state.nesting == st.nesting[..FirstIndex(st.nesting, SubroutineDefinition)]
  {
    var captured := CaptureFrom(tokens, pos, st.nesting, st.lineNumber);
    if captured.Success? {
      var c := captured.value;
      assert GetSubroutineTokens(tokens, pos, st)
        == Success(CapturedBody(AllButLast(c.body), c.pos, st.(nesting := c.nesting)));
      CapturedBodyEnds(tokens, pos, st.nesting, st.lineNumber, c);
    }
  }

  /** What any successful capture `c` gives `get_subroutine_tokens`: the cursor does not
      move back, no subroutine frame is left, and without one open nothing is taken. */
  lemma CapturedBodyFacts(tokens: seq<Token>, pos: nat, nesting: seq<NestingState>, line: nat, c: Capture)
    requires pos <= |tokens| && CaptureFrom(tokens, pos, nesting, line) == Success(c)
    ensures pos <= c.pos <= |tokens| && SubroutineDefinition !in c.nesting
    ensures SubroutineDefinition !in nesting ==> c == Capture([], pos, nesting)
  {
    CaptureFacts(tokens, pos, nesting, line);
  }

  /** What a capture `c` from inside a definition gives `get_subroutine_tokens`: the body
      without its closing `end` is the slice one shorter, and the stack is cut back to
      below the lowest subroutine frame. */
  lemma CapturedBodyEnds(tokens: seq<Token>, pos: nat, nesting: seq<NestingState>, line: nat, c: Capture)
    requires pos <= |tokens| && CaptureFrom(tokens, pos, nesting, line) == Success(c)
    ensures SubroutineDefinition in nesting ==>
      && pos < c.pos
      && IsKeyword(tokens[c.pos - 1], "end")
      && AllButLast(c.body) == tokens[pos..c.pos - 1]
      && c.nesting == nesting[..FirstIndex(nesting, SubroutineDefinition)]
  {
    if SubroutineDefinition in nesting {
      CaptureFacts(tokens, pos, nesting, line);
      SliceBeforeLast(tokens, pos, c.pos, c.body);
    }
  }

  /** All but the last token of a slice is the slice one shorter. */
  lemma SliceBeforeLast(tokens: seq<Token>, pos: nat, end: nat, body: seq<Token>)
    requires pos < end <= |tokens| && body == tokens[pos..end]
    ensures AllButLast(body) == tokens[pos..end - 1]
  {
    assert AllButLast(body) == body[..|body| - 1];
  }

  /** The tokens before the last one; nothing for no tokens. */
  function AllButLast(toks: seq<Token>): (r: seq<Token>)
    ensures |toks| == 0 ==> r == []
    ensures |toks| > 0 ==> |r| == |toks| - 1 && forall i :: 0 <= i < |r| ==> r[i] == toks[i]
  {
    if |toks| == 0 then [] else toks[..|toks| - 1]
  }

  /** Lines 123-128 of `main_loop`: when a step has left a pending subroutine name, the
      body that follows is captured and stored under that name, and the name cleared. */
  function StoreSubroutine(tokens: seq<Token>, pos: nat, st: GlobalState): (r: Result<Cursor, Error>)
    requires pos <= |tokens|
    ensures st.subroutineName.None? ==> r == Success(Cursor(pos, st))
    ensures r.Success? ==> pos <= r.value.pos <= |tokens| && r.value.state.subroutineName.None?
    ensures r.Success? ==> r.value.state.keywords == st.keywords
    ensures r.Success? && st.subroutineName.Some? ==>
      && var name := st.subroutineName.value;
      && var stored := r.value.state.subroutines;
      && name in stored
      && stored.Keys == st.subroutines.Keys + {name}
      && (forall k :: k in st.subroutines && k != name ==> stored[k] == st.subroutines[k])
      && SubroutineDefinition !in r.value.state.nesting
      && (SubroutineDefinition in st.nesting ==>
            && pos < r.value.pos
            && IsKeyword(tokens[r.value.pos - 1], "end")
            && stored[name] == tokens[pos..r.value.pos - 1]
            && r.value.state.nesting == st.nesting[..FirstIndex(st.nesting, SubroutineDefinition)])
    ensures r.Success? && st.subroutineName.Some? ==>
      r.value.state == st.(nesting := r.value.state.nesting, subroutines := r.value.state.subroutines,
                           subroutineName := None)
    ensures st.subroutineName.Some? && SubroutineDefinition !in st.nesting ==>
      r == Success(Cursor(pos, st.(subroutines := st.subroutines[st.subroutineName.value := []],
                                   subroutineName := None)))
  {
    match st.subroutineName
    case None => Success(Cursor(pos, st))
    case Some(name) =>
      SubroutineBodyEnds(tokens, pos, st);
      var captured :- GetSubroutineTokens(tokens, pos, st);
      var stored := captured.state.(subroutines := captured.state.subroutines[name := captured.body]);
      Success(Cursor(captured.pos, stored.(subroutineName := None)))
  }

  /** The frames under which the next invocation must not run. */
  predicate SkipFrame(nesting: seq<NestingState>) {
    |nesting| > 0 && (Top(nesting) == Else || Top(nesting) == Ignore)
  }

  /** `main_loop` as written: until the tokens run out, take the skip step when the top
      frame is Else and an evaluation step otherwise, then store any subroutine body the
      evaluation step announced. An Ignore frame on top is not checked, so the body of an
      `if` nested inside a skipped branch is evaluated. */
  function MainLoopAsWritten(tokens: seq<Token>, pos: nat, st: GlobalState, external: ExternalKeywords)
    : (r: Result<GlobalState, Error>)
    requires pos <= |tokens|
    decreases |tokens| - pos
    ensures pos == |tokens| ==> r == Success(st)
    ensures KeepsRegistry(external) && r.Success? ==> r.value.keywords == st.keywords
  {
    if pos == |tokens| then
      Success(st)
    else if |st.nesting| > 0 && Top(st.nesting) == Else then
      var skipped :- SkipTokens(tokens, pos, st, external);
      MainLoopAsWritten(tokens, skipped.pos, skipped.state, external)
    else
      var evaluated :- RunNextExpression(tokens, pos, st, external);
      var stored :- StoreSubroutine(tokens, evaluated.pos, evaluated.state);
      MainLoopAsWritten(tokens, stored.pos, stored.state, external)
  }

  /** `main_loop` with Ignore skipping as well, as the comment at
      src/rust/control_flow.rs:51-58 describes: the skip step is taken under an Else frame
      and under an Ignore frame alike, so nothing inside a skipped branch runs except the
      `else` and `end` keywords that keep the stack balanced. */
  function MainLoop(tokens: seq<Token>, pos: nat, st: GlobalState, external: ExternalKeywords)
    : (r: Result<GlobalState, Error>)
    requires pos <= |tokens|
    decreases |tokens| - pos
    ensures pos == |tokens| ==> r == Success(st)
    ensures KeepsRegistry(external) && r.Success? ==> r.value.keywords == st.keywords
  {
    if pos == |tokens| then
      Success(st)
    else if SkipFrame(st.nesting) then
      var skipped :- SkipTokens(tokens, pos, st, external);
      MainLoop(tokens, skipped.pos, skipped.state, external)
    else
      var evaluated :- RunNextExpression(tokens, pos, st, external);
      var stored :- StoreSubroutine(tokens, evaluated.pos, evaluated.state);
      MainLoop(tokens, stored.pos, stored.state, external)
  }

  /** Under a skip frame a step never touches the bindings, the return value or the
      subroutines: a skipped keyword only moves the cursor (and a skipped `if` pushes
      Ignore), and the `else` or `end` that is evaluated instead only changes the stack. */
  lemma SkippedStepKeepsBindings(tokens: seq<Token>, pos: nat, st: GlobalState, external: ExternalKeywords)
    requires pos < |tokens| && SkipFrame(st.nesting)
    requires tokens[pos].Keyword? && tokens[pos].lexeme in st.keywords
    requires tokens[pos].lexeme == "else" ==> st.keywords["else"] == KeywordImplementation("else", ElseFn, 0)
    requires tokens[pos].lexeme == "end" ==> st.keywords["end"] == KeywordImplementation("end", EndFn, 0)
    ensures SkipTokens(tokens, pos, st, external).Success? ==>
      && var next := SkipTokens(tokens, pos, st, external).value.state;
      && next.variables == st.variables
      && next.ret == st.ret
      && next.subroutines == st.subroutines
      && next.subroutineName == st.subroutineName
  {
    var t := tokens[pos];
    if !SkipApplies(st.nesting, t) {
      var entry := st.keywords[t.lexeme];
      var inner := st.(lineNumber := t.line);
      assert RetrieveArguments(entry, t, tokens, pos + 1, inner, 0, external) == Success(Gathered([], pos + 1, inner));
      assert RunNextExpression(tokens, pos, st, external)
        == At(Dispatch(entry.implementation, inner, [], external), pos + 1);
    }
  }

  /** A state result placed at a cursor position. */
  function At(r: Result<GlobalState, Error>, pos: nat): Result<Cursor, Error> {
    match r
    case Success(s) => Success(Cursor(pos, s))
    case Failure(e) => Failure(e)
  }

  /** The whole program from the first token, through `main_loop` as written, as `main`
      calls it. */
  function Run(tokens: seq<Token>, st: GlobalState, external: ExternalKeywords): (r: Result<GlobalState, Error>)
    ensures |tokens| == 0 ==> r == Success(st)
    ensures KeepsRegistry(external) && r.Success? ==> r.value.keywords == st.keywords
  {
    MainLoopAsWritten(tokens, 0, st, external)
  }

  /** The whole program from the first token, through the corrected loop. */
  function RunCorrected(tokens: seq<Token>, st: GlobalState, external: ExternalKeywords)
    : (r: Result<GlobalState, Error>)
    ensures |tokens| == 0 ==> r == Success(st)
    ensures KeepsRegistry(external) && r.Success? ==> r.value.keywords == st.keywords
  {
    MainLoop(tokens, 0, st, external)
  }
}

=== FILE: keywords.dfy ===
/** The value and variable keywords of the newer revision (src/rust/keywords.rs):
    `println`, `+`, `let`, `tel`, `==`, `true`, `false`. Each takes the state and the
    resolved arguments and returns the next state or an error. */
module Keywords {
  import opened Results
  import opened Expression

  /** How `println` renders one argument; `show` is f64's Display. */
  function Stringify(a: Argument, show: real -> string): string {
    match a
    case NumberArg(n) => show(n)
    case StringArg(s) => s
  }

  function Stringified(args: seq<Argument>, show: real -> string): (r: seq<string>)
    ensures |r| == |args|
    ensures forall i :: 0 <= i < |args| ==> r[i] == Stringify(args[i], show)
  {
    if |args| == 0 then [] else Stringified(args[..|args| - 1], show) + [Stringify(args[|args| - 1], show)]
  }

  /** The reference reading of a printed line: the parts separated by single spaces. */
  function JoinWithSpaces(parts: seq<string>): string {
    if |parts| == 0 then ""
    else if |parts| == 1 then parts[0]
    else JoinWithSpaces(parts[..|parts| - 1]) + " " + parts[|parts| - 1]
  }

  function TotalLength(parts: seq<string>): nat {
    if |parts| == 0 then 0 else TotalLength(parts[..|parts| - 1]) + |parts[|parts| - 1]|
  }

  /** A joined line holds the parts plus exactly one separator between neighbours: no
      leading or trailing space is added. */
  lemma {:induction false} JoinLength(parts: seq<string>)
    requires |parts| > 0
    ensures |JoinWithSpaces(parts)| == TotalLength(parts) + |parts| - 1
  {
    if |parts| > 1 {
      JoinLength(parts[..|parts| - 1]);
    }
  }

  /** The line `println` builds, walking the arguments with a peek at the next one to
      decide whether a space follows. */
  method PrintLine(args: seq<Argument>, show: real -> string) returns (line: string)
    ensures line == JoinWithSpaces(Stringified(args, show))
  {
    ghost var parts := Stringified(args, show);
    line := "";
    var i := 0;
    while i < |args|
      invariant 0 <= i <= |args|
      invariant i == 0 ==> line == ""
      invariant 0 < i ==> line == JoinWithSpaces(parts[..i]) + (if i < |args| then " " else "")
    {
      line := line + Stringify(args[i], show);
      assert parts[..i + 1][..i] == parts[..i];
      if i + 1 < |args| {
        line := line + " ";
      }
      i := i + 1;
    }
    assert parts[..|args|] == parts;
  }

  /** `println` leaves the state unchanged; its only effect is the printed line. */
  function PrintlnKeyword(st: GlobalState, args: seq<Argument>): (r: Result<GlobalState, Error>)
    ensures r == Success(st)
  {
    Success(st)
  }

  /** The numbers carried by the arguments, in order; fails on the first string. */
  function CollectNumbers(args: seq<Argument>, line: nat): (r: Result<seq<real>, Error>)
    ensures r.Success? <==> forall i :: 0 <= i < |args| ==> args[i].NumberArg?
    ensures r.Failure? ==> r.error == TypeError(line)
    ensures r.Success? ==> |r.value| == |args|
    ensures r.Success? ==> forall i :: 0 <= i < |args| ==> r.value[i] == args[i].number
  {
    if |args| == 0 then
      Success([])
    else
      match args[0]
      case StringArg(_) => Failure(TypeError(line))
      case NumberArg(n) =>
        var rest :- CollectNumbers(args[1..], line);
        Success([n] + rest)
  }

  /** `Iterator::reduce` with `+`: a left fold seeded with the first element. */
  function Reduce(xs: seq<real>): (r: real)
    requires |xs| > 0
    ensures r == Sum(xs)
  {
    if |xs| == 1 then
      assert xs[1..] == [];
      xs[0]
    else
      SumAppend(xs[..|xs| - 1], xs[|xs| - 1]);
      assert xs[..|xs| - 1] + [xs[|xs| - 1]] == xs;
      Reduce(xs[..|xs| - 1]) + xs[|xs| - 1]
  }

  /** The reference sum, folded from the right. */
  function Sum(xs: seq<real>): real {
    if |xs| == 0 then 0.0 else xs[0] + Sum(xs[1..])
  }

  lemma {:induction false} SumAppend(xs: seq<real>, x: real)
    ensures Sum(xs + [x]) == Sum(xs) + x
  {
    if |xs| > 0 {
      assert (xs + [x])[1..] == xs[1..] + [x];
      SumAppend(xs[1..], x);
    }
  }

  /** The numeric values of arguments that are all numbers. */
  function Numbers(args: seq<Argument>): (r: seq<real>)
    requires forall i :: 0 <= i < |args| ==> args[i].NumberArg?
    ensures |r| == |args| && forall i :: 0 <= i < |args| ==> r[i] == args[i].number
  {
    if |args| == 0 then [] else [args[0].number] + Numbers(args[1..])
  }

  /** `+`: the sum of all arguments. A string argument is a type error; no arguments at
      all is an error too, because the reduction has no seed. */
  function AddKeyword(st: GlobalState, args: seq<Argument>): (r: Result<GlobalState, Error>)
    ensures r.Success? <==> |args| > 0 && forall i :: 0 <= i < |args| ==> args[i].NumberArg?
    ensures (exists i :: 0 <= i < |args| && args[i].StringArg?) ==> r == Failure(TypeError(st.lineNumber))
    ensures |args| == 0 ==> r == Failure(MissingArgument(st.lineNumber))
    ensures r.Success? ==> r.value == st.(ret := Some(NumberArg(Sum(Numbers(args)))))
  {
    var numbers :- CollectNumbers(args, st.lineNumber);
    if |numbers| == 0 then
      Failure(MissingArgument(st.lineNumber))
    else
      assert numbers == Numbers(args);
      Success(st.(ret := Some(NumberArg(Reduce(numbers)))))
  }

  /** `let name value`: binds the name, replacing an earlier binding, and changes nothing
      else. A number name is stored but, barring a probe-tag collision, never read back
      (see Lookup). */
  function LetKeyword(st: GlobalState, args: seq<Argument>): (r: Result<GlobalState, Error>)
    ensures r.Success? <==> |args| >= 2
    ensures r.Failure? ==> r.error == MissingArgument(st.lineNumber)
    ensures r.Success? ==>
      && r.value == st.(variables := r.value.variables)
      && Lookup(r.value.variables, args[0]) == (if args[0].StringArg? then Some(args[1]) else None)
      && forall k :: k != args[0] ==> Lookup(r.value.variables, k) == Lookup(st.variables, k)
  {
    // A missing name and a missing value raise the same error.
    if |args| < 2 then
      Failure(MissingArgument(st.lineNumber))
    else
      Success(st.(variables := Insert(st.variables, args[0], args[1])))
  }

  /** `tel name`: the bound value becomes the return value; the bindings stay as they
      were. An unbound name is an error. */
  function TelKeyword(st: GlobalState, args: seq<Argument>): (r: Result<GlobalState, Error>)
    ensures r.Success? <==> |args| > 0 && Lookup(st.variables, args[0]).Some?
    ensures |args| == 0 ==> r == Failure(MissingArgument(st.lineNumber))
    ensures |args| > 0 && Lookup(st.variables, args[0]).None? ==>
      r == Failure(VariableNotFound(args[0]))
    ensures r.Success? ==> r.value == st.(ret := Lookup(st.variables, args[0]))
  {
    if |args| == 0 then
      Failure(MissingArgument(st.lineNumber))
    else
      match Lookup(st.variables, args[0])
      case None => Failure(VariableNotFound(args[0]))
      case Some(value) =>
        var rewritten := Insert(st.variables, args[0], value);
        assert rewritten == st.variables;
        Success(st.(variables := rewritten, ret := Some(value)))
  }

  /** `let` followed by `tel` on the same string name returns the stored value. */
  lemma LetThenTel(st: GlobalState, name: string, value: Argument)
    ensures LetKeyword(st, [StringArg(name), value]).Success?
    ensures TelKeyword(LetKeyword(st, [StringArg(name), value]).value, [StringArg(name)]).Success?
    ensures TelKeyword(LetKeyword(st, [StringArg(name), value]).value, [StringArg(name)]).value.ret
      == Some(value)
  {
  }

  /** ... while a number name, stored by `let`, is not found by `tel` (barring a probe-tag
      collision, see Lookup). */
  lemma LetThenTelNumberName(st: GlobalState, name: real, value: Argument)
    ensures LetKeyword(st, [NumberArg(name), value]).Success?
    ensures TelKeyword(LetKeyword(st, [NumberArg(name), value]).value, [NumberArg(name)])
      == Failure(VariableNotFound(NumberArg(name)))
  {
  }

  /** `==`: 1.0 or 0.0 in the return value, following the argument equality: equal texts
      for strings, a difference above Epsilon for numbers (as written), never for mixed
      kinds. */
  function EqKeyword(st: GlobalState, args: seq<Argument>): (r: Result<GlobalState, Error>)
    ensures r.Success? <==> |args| >= 2
    ensures r.Failure? ==> r.error == MissingArgument(st.lineNumber)
    ensures r.Success? ==>
      r.value == st.(ret := Some(NumberArg(if ArgEq(args[0], args[1]) then 1.0 else 0.0)))
  {
    // A missing first or second argument raises the same error.
    if |args| < 2 then
      Failure(MissingArgument(st.lineNumber))
    else
      var result :=
        match (args[0], args[1])
        case (StringArg(s0), StringArg(s1)) => if s0 == s1 then 1.0 else 0.0
        case (NumberArg(n0), NumberArg(n1)) => if Abs(n0 - n1) > Epsilon then 1.0 else 0.0
        case _ => 0.0;
      Success(st.(ret := Some(NumberArg(result))))
  }

  /** Comparing a number with itself under `==` yields 0.0. */
  lemma EqOfEqualNumbersIsFalse(st: GlobalState, x: real)
    ensures EqKeyword(st, [NumberArg(x), NumberArg(x)]) == Success(st.(ret := Some(NumberArg(0.0))))
  {
    NumberArgEqIsInverted(x, x);
  }

  function TrueKeyword(st: GlobalState, args: seq<Argument>): (r: Result<GlobalState, Error>)
    ensures r == Success(st.(ret := Some(NumberArg(1.0))))
  {
    Success(st.(ret := Some(NumberArg(1.0))))
  }

  function FalseKeyword(st: GlobalState, args: seq<Argument>): (r: Result<GlobalState, Error>)
    ensures r == Success(st.(ret := Some(NumberArg(0.0))))
  {
    Success(st.(ret := Some(NumberArg(0.0))))
  }
}

=== FILE: legacy_control_flow.dfy ===
/** The control-flow keywords of the older revision (src/control_flow.rs). They are
    defined there but never registered by that revision's `main`. */
module LegacyControlFlow {
  import opened Results
  import opened Tokens
  import opened Expression
  import opened LegacyInvocation
  import ControlFlow

  /** The older truthiness: any number other than exactly zero, or a non-empty string. */
  predicate Truthy(v: Value)
    ensures Truthy(v) <==> v != StringValue("") && v != NumberValue(0.0)
  {
    match v
    case NumberValue(n) => n != 0.0
    case StringValue(s) => s != ""
  }

  /** `if`: pushes If for a truthy first argument and Else otherwise; without an argument
      the `unwrap` panics. */
  function IfKeyword(st: LegacyState, args: seq<Value>): (r: Result<LegacyState, Fault>)
    ensures r.Failure? <==> |args| == 0
    ensures r.Failure? ==> r.error == ArgumentAbsent
    ensures r.Success? ==>
      && |r.value.nesting| == |st.nesting| + 1
      && r.value.nesting[..|st.nesting|] == st.nesting
      && (Top(r.value.nesting) == If <==> Truthy(args[0]))
      && (Top(r.value.nesting) == Else <==> !Truthy(args[0]))
      && r.value == st.(nesting := r.value.nesting)
  {
    if |args| == 0 then
      Failure(ArgumentAbsent)
    else if Truthy(args[0]) then
      Success(st.(nesting := st.nesting + [If]))
    else
      Success(st.(nesting := st.nesting + [Else]))
  }

  /** The two revisions choose the same branch for every condition except a number within
      Epsilon of zero but not zero itself... */
  lemma IfRevisionsAgreeAwayFromZero(v: Value)
    requires !(v.NumberValue? && v.number != 0.0 && Abs(v.number) <= Epsilon)
    ensures Truthy(v) <==> ControlFlow.Truthy(ToArgument(v))
  {
  }

  /** ... where the older revision takes the first branch and the newer one the second. */
  lemma IfRevisionsDivergeNearZero(x: real)
    requires x != 0.0 && Abs(x) <= Epsilon
    ensures Truthy(NumberValue(x)) && !ControlFlow.Truthy(ToArgument(NumberValue(x)))
  {
  }

  /** `else`: swaps If and Else on top and leaves Ignore and SubroutineDefinition alone; on
      an empty stack `last().unwrap()` panics. */
  function ElseKeyword(st: LegacyState, args: seq<Value>): (r: Result<LegacyState, Fault>)
    ensures r.Failure? <==> |st.nesting| == 0
    ensures r.Failure? ==> r.error == EmptyNesting
    ensures r.Success? ==>
      && |r.value.nesting| == |st.nesting|
      && r.value.nesting[..|st.nesting| - 1] == st.nesting[..|st.nesting| - 1]
      && Top(r.value.nesting) == ControlFlow.Toggle(Top(st.nesting))
      && r.value == st.(nesting := r.value.nesting)
  {
    if |st.nesting| == 0 then
      Failure(EmptyNesting)
    else if Top(st.nesting) == If then
      Success(st.(nesting := st.nesting[..|st.nesting| - 1] + [Else]))
    else if Top(st.nesting) == Else then
      Success(st.(nesting := st.nesting[..|st.nesting| - 1] + [If]))
    else
      Success(st)
  }

  /** `else` twice is the identity. */
  lemma ElseTwiceRestores(st: LegacyState, args: seq<Value>)
    requires |st.nesting| > 0
    ensures ElseKeyword(st, args).Success?
    ensures ElseKeyword(ElseKeyword(st, args).value, args) == Success(st)
  {
    var once := ElseKeyword(st, args).value;
    var twice := ElseKeyword(once, args).value;
    var n := |st.nesting|;
    assert twice.nesting[..n - 1] == st.nesting[..n - 1];
    assert twice.nesting == twice.nesting[..n - 1] + [Top(twice.nesting)];
    assert st.nesting == st.nesting[..n - 1] + [Top(st.nesting)];
  }

  /** `end`: pops one frame. An empty stack panics in `pop().unwrap()`, and a popped
      SubroutineDefinition reaches the `todo!()`. */
  function EndKeyword(st: LegacyState, args: seq<Value>): (r: Result<LegacyState, Fault>)
    ensures r.Success? <==> |st.nesting| > 0 && Top(st.nesting) != SubroutineDefinition
    ensures |st.nesting| == 0 ==> r == Failure(EmptyNesting)
    ensures |st.nesting| > 0 && Top(st.nesting) == SubroutineDefinition ==> r == Failure(TodoReached)
    ensures r.Success? ==>
      && r.value.nesting + [Top(st.nesting)] == st.nesting
      && r.value == st.(nesting := r.value.nesting)
  {
    if |st.nesting| == 0 then
      Failure(EmptyNesting)
    else if Top(st.nesting) == SubroutineDefinition then
      Failure(TodoReached)
    else
      Success(st.(nesting := st.nesting[..|st.nesting| - 1]))
  }

  /** An `if` closed by its `end` leaves the state as it found it. */
  lemma IfThenEndRestores(st: LegacyState, cond: Value, args: seq<Value>)
    ensures IfKeyword(st, [cond]).Success?
    ensures EndKeyword(IfKeyword(st, [cond]).value, args) == Success(st)
  {
    var pushed := IfKeyword(st, [cond]).value;
    assert pushed.nesting[..|pushed.nesting| - 1] == st.nesting;
  }

  /** `determine_tokens_to_skip`, as in the newer revision: outside a skip (0, st); inside,
      the registered arity, pushing Ignore first for `if`; an unregistered keyword is the
      one error it returns rather than panics on. */
  function DetermineTokensToSkip(st: LegacyState, next: Token): (r: Result<(nat, LegacyState), Fault>)
    ensures !ControlFlow.SkipApplies(st.nesting, next) ==> r == Success((0, st))
    ensures ControlFlow.SkipApplies(st.nesting, next) && next.lexeme !in st.keywords ==>
      r == Failure(UnknownKeywordToSkip(next.lexeme, next.line))
    ensures ControlFlow.SkipApplies(st.nesting, next) && next.lexeme in st.keywords ==>
      && r.Success?
      && r.value.0 == st.keywords[next.lexeme].numberOfArguments
      && (next.lexeme == "if" ==> r.value.1 == st.(nesting := st.nesting + [Ignore]))
      && (next.lexeme != "if" ==> r.value.1 == st)
  {
    if ControlFlow.SkipApplies(st.nesting, next) then
      var pushed := if next.lexeme == "if" then st.(nesting := st.nesting + [Ignore]) else st;
      if next.lexeme in pushed.keywords then
        Success((pushed.keywords[next.lexeme].numberOfArguments, pushed))
      else
        Failure(UnknownKeywordToSkip(next.lexeme, next.line))
    else
      Success((0, st))
  }

  /** The Ignore frame pushed for a skipped `if` is exactly what its `end` pops. */
  lemma SkippedIfBalancedByEnd(st: LegacyState, next: Token, args: seq<Value>)
    requires ControlFlow.SkipApplies(st.nesting, next) && next.lexeme == "if" && "if" in st.keywords
    ensures DetermineTokensToSkip(st, next).Success?
    ensures EndKeyword(DetermineTokensToSkip(st, next).value.1, args) == Success(st)
  {
    var pushed := DetermineTokensToSkip(st, next).value.1;
    assert pushed.nesting[..|pushed.nesting| - 1] == st.nesting;
  }
}

=== FILE: legacy_evaluator.dfy ===
/** The evaluator of the older revision (src/main.rs): `next_invocation` with its argument
    loop, the top-level loop, and the startup state with `println` and `+` registered.
    There is no conditional skipping and no line tracking in this revision. */
module LegacyEvaluator {
  import opened Results
  import opened Tokens
  import opened LegacyInvocation
  import LegacyControlFlow
  import LegacyKeywords

  /** `println` and `+` only compute a return value. */
  predicate IsValueKeyword(implementation: LegacyBuiltin) {
    implementation == PrintlnImpl || implementation == AddImpl
  }

  /** A registry holding nothing but `println` and `+`, as the one `main` builds. */
  predicate OnlyValueKeywords(keywords: map<string, LegacyKeyword>) {
    forall name :: name in keywords ==> IsValueKeyword(keywords[name].implementation)
  }

  /** Calls the implementation a registry entry names. No implementation touches the
      registry or the current line. */
  function Dispatch(implementation: LegacyBuiltin, st: LegacyState, args: seq<Value>, show: real -> string)
    : (r: Result<LegacyState, Fault>)
    ensures r.Success? ==> r.value.keywords == st.keywords && r.value.lineNumber == st.lineNumber
    ensures IsValueKeyword(implementation) && r.Success? ==> r.value == st.(ret := r.value.ret)
  {
    match implementation
    case PrintlnImpl => LegacyKeywords.PrintlnKeyword(st, args)
    case AddImpl => LegacyKeywords.AddKeyword(st, args)
    case IfImpl => LegacyControlFlow.IfKeyword(st, args)
    case ElseImpl => LegacyControlFlow.ElseKeyword(st, args)
    case EndImpl => LegacyControlFlow.EndKeyword(st, args)
    case LetImpl => LegacyKeywords.LetKeyword(st, args, show)
    case TelImpl => LegacyKeywords.TelKeyword(st, args, show)
  }

  datatype Cursor = Cursor(pos: nat, state: LegacyState)

  datatype Collected = Collected(args: seq<Value>, pos: nat, state: LegacyState)

  /** The value a literal token stands for: its text, or its number. */
  function LiteralValue(t: Token): Value
    requires !t.Keyword?
  {
    match t
    case KfkString(text, _) => StringValue(text)
    case Number(_, n, _) => NumberValue(n)
  }

  /** `next_invocation`: consumes one keyword and its arguments and applies the keyword.
      An exhausted cursor, a literal, or an unregistered keyword panics. On success the
      cursor has moved past the keyword and at least one token per argument, and neither
      the registry nor the current line has changed. */
  function NextInvocation(tokens: seq<Token>, pos: nat, st: LegacyState, show: real -> string)
    : (r: Result<Cursor, Fault>)
    requires pos <= |tokens|
    decreases |tokens| - pos, 0
    ensures pos == |tokens| ==> r == Failure(OutOfTokens)
    ensures pos < |tokens| && tokens[pos].KfkString? ==> r == Failure(StringInsteadOfKeyword)
    ensures pos < |tokens| && tokens[pos].Number? ==> r == Failure(NumberInsteadOfKeyword)
    ensures pos < |tokens| && tokens[pos].Keyword? && tokens[pos].lexeme !in st.keywords ==>
      r == Failure(UnregisteredKeyword(tokens[pos].lexeme))
    ensures r.Success? ==>
      && tokens[pos].Keyword?
      && tokens[pos].lexeme in st.keywords
      && pos + 1 + st.keywords[tokens[pos].lexeme].numberOfArguments <= r.value.pos <= |tokens|
      && r.value.state.keywords == st.keywords
      && r.value.state.lineNumber == st.lineNumber
    ensures OnlyValueKeywords(st.keywords) && r.Success? ==> r.value.state == st.(ret := r.value.state.ret)
  {
    if pos == |tokens| then
      Failure(OutOfTokens)
    else
      match tokens[pos]
      case KfkString(_, _) => Failure(StringInsteadOfKeyword)
      case Number(_, _, _) => Failure(NumberInsteadOfKeyword)
      case Keyword(name, _) =>
        if name !in st.keywords then
          Failure(UnregisteredKeyword(name))
        else
          var entry := st.keywords[name];
          var gathered :- GatherArguments(tokens, pos + 1, st, entry.numberOfArguments, show);
          var next :- Dispatch(entry.implementation, gathered.state, gathered.args, show);
          Success(Cursor(gathered.pos, next))
  }

  /** The argument loop of `next_invocation`: `count` arguments left to right. A literal
      is consumed as its value; a keyword is evaluated recursively, its state adopted and
      its return value taken, panicking when there is none. */
  function GatherArguments(tokens: seq<Token>, pos: nat, st: LegacyState, count: nat, show: real -> string)
    : (r: Result<Collected, Fault>)
    requires pos <= |tokens|
    decreases |tokens| - pos, count
    ensures count == 0 ==> r == Success(Collected([], pos, st))
    ensures count > 0 && pos == |tokens| ==> r == Failure(OutOfTokens)
    ensures r.Success? ==>
      && |r.value.args| == count
      && pos + count <= r.value.pos <= |tokens|
      && r.value.state.keywords == st.keywords
      && r.value.state.lineNumber == st.lineNumber
    ensures OnlyValueKeywords(st.keywords) && r.Success? ==> r.value.state == st.(ret := r.value.state.ret)
  {
    if count == 0 then
      Success(Collected([], pos, st))
    else if pos == |tokens| then
      Failure(OutOfTokens)
    else if tokens[pos].Keyword? then
      var callee :- NextInvocation(tokens, pos, st, show);
      if callee.state.ret.None? then
        Failure(NoReturnValue)
      else
        var rest :- GatherArguments(tokens, callee.pos, callee.state, count - 1, show);
        Success(Collected([callee.state.ret.value] + rest.args, rest.pos, rest.state))
    else
      var rest :- GatherArguments(tokens, pos + 1, st, count - 1, show);
      Success(Collected([LiteralValue(tokens[pos])] + rest.args, rest.pos, rest.state))
  }

  function LiteralValues(literals: seq<Token>): (r: seq<Value>)
    requires forall i :: 0 <= i < |literals| ==> !literals[i].Keyword?
    ensures |r| == |literals| && forall i :: 0 <= i < |literals| ==> r[i] == LiteralValue(literals[i])
  {
    if |literals| == 0 then [] else [LiteralValue(literals[0])] + LiteralValues(literals[1..])
  }

  /** Literal arguments take one token each and give their values in order; unlike the
      newer revision, the state is left exactly as it was. */
  lemma {:induction false} GatherLiterals(tokens: seq<Token>, pos: nat, st: LegacyState, count: nat,
                                          show: real -> string)
    requires pos + count <= |tokens|
    requires forall i :: pos <= i < pos + count ==> !tokens[i].Keyword?
    decreases count
    ensures GatherArguments(tokens, pos, st, count, show)
      == Success(Collected(LiteralValues(tokens[pos..pos + count]), pos + count, st))
  {
    if count > 0 {
      GatherLiterals(tokens, pos + 1, st, count - 1, show);
      assert tokens[pos..pos + count][1..] == tokens[pos + 1..pos + count];
    }
  }

  /** The loop in `main`: one invocation after another while tokens remain. */
  function TopLevel(tokens: seq<Token>, pos: nat, st: LegacyState, show: real -> string)
    : (r: Result<LegacyState, Fault>)
    requires pos <= |tokens|
    decreases |tokens| - pos
    ensures pos == |tokens| ==> r == Success(st)
    ensures r.Success? ==> r.value.keywords == st.keywords && r.value.lineNumber == st.lineNumber
    ensures OnlyValueKeywords(st.keywords) && r.Success? ==> r.value == st.(ret := r.value.ret)
  {
    if pos == |tokens| then
      Success(st)
    else
      var step :- NextInvocation(tokens, pos, st, show);
      TopLevel(tokens, step.pos, step.state, show)
  }

  /** The state `main` builds: no bindings, `println` with one argument and `+` with two,
      and the placeholder return value "käse". The initializer leaves the current line
      and the nesting stack out; they are taken as 0 and empty. */
  const InitialState: LegacyState := LegacyState(
    map[],
    map["println" := LegacyKeyword("println", PrintlnImpl, 1), "+" := LegacyKeyword("+", AddImpl, 2)],
    0,
    [],
    Some(StringValue("käse")))

  /** A whole program: with only `println` and `+` registered, a run that finishes has
      changed nothing but the return value. */
  function Run(tokens: seq<Token>, show: real -> string): (r: Result<LegacyState, Fault>)
    ensures r.Success? ==> r.value == InitialState.(ret := r.value.ret)
  {
    TopLevel(tokens, 0, InitialState, show)
  }
}

=== FILE: legacy_invocation.dfy ===
/** Runtime values, keyword registry entries and the interpreter state of the older
    revision (src/invocation.rs), together with the ways that revision stops: it has no
    error values, so every `unwrap`, `panic!` and `todo!` becomes a Fault. */
module LegacyInvocation {
  import opened Results
  import opened Expression

  /** `InvocationArgument`: a string or a number. */
  datatype Value = StringValue(text: string) | NumberValue(number: real)

  /** The newer revision's value for an older-revision value. */
  function ToArgument(v: Value): (r: Argument)
    ensures r.StringArg? <==> v.StringValue?
    ensures v.StringValue? ==> r.text == v.text
    ensures v.NumberValue? ==> r.number == v.number
  {
    match v
    case StringValue(s) => StringArg(s)
    case NumberValue(n) => NumberArg(n)
  }

  function ToArguments(vs: seq<Value>): (r: seq<Argument>)
    ensures |r| == |vs|
    ensures forall i :: 0 <= i < |vs| ==> r[i] == ToArgument(vs[i])
  {
    if |vs| == 0 then [] else [ToArgument(vs[0])] + ToArguments(vs[1..])
  }

  /** The hand-written `PartialEq`: strings by text, numbers by their printed form
      (`show` is f64's Display), mixed kinds never. */
  predicate ValueEq(a: Value, b: Value, show: real -> string)
    ensures ValueEq(a, b, show) ==> (a.StringValue? <==> b.StringValue?)
    ensures a == b ==> ValueEq(a, b, show)
  {
    match (a, b)
    case (StringValue(l), StringValue(r)) => l == r
    case (NumberValue(l), NumberValue(r)) => show(l) == show(r)
    case _ => false
  }

  /** The text the hand-written `Hash` feeds to the hasher. */
  function HashText(a: Value, show: real -> string): (r: string)
    ensures |r| > 0 && (r[0] == 'K' <==> a.StringValue?)
    ensures a.StringValue? ==> |r| >= 10 && r[10..] == a.text
  {
    match a
    case StringValue(s) => "KfkString:" + s
    case NumberValue(n) => "Number:" + show(n)
  }

  /** Unlike the newer revision's comparison, this one is an equivalence relation, so the
      `impl Eq` marker is justified. */
  lemma ValueEqIsEquivalence(a: Value, b: Value, c: Value, show: real -> string)
    ensures ValueEq(a, a, show)
    ensures ValueEq(a, b, show) ==> ValueEq(b, a, show)
    ensures ValueEq(a, b, show) && ValueEq(b, c, show) ==> ValueEq(a, c, show)
  {
  }

  lemma HashPrefixCancels(p: string, s: string, t: string)
    requires p + s == p + t
    ensures s == t
  {
    assert s == (p + s)[|p|..];
    assert t == (p + t)[|p|..];
  }

  /** Equal values hash alike and, conversely, equal hashed texts mean equal values: the
      hashed text identifies the equivalence class exactly. */
  lemma HashTextMatchesEquality(a: Value, b: Value, show: real -> string)
    ensures ValueEq(a, b, show) <==> HashText(a, show) == HashText(b, show)
  {
    assert HashText(a, show)[0] == (if a.StringValue? then 'K' else 'N');
    assert HashText(b, show)[0] == (if b.StringValue? then 'K' else 'N');
    if HashText(a, show) == HashText(b, show) {
      match (a, b)
      case (StringValue(s), StringValue(t)) =>
        HashPrefixCancels("KfkString:", s, t);
      case (NumberValue(m), NumberValue(n)) =>
        HashPrefixCancels("Number:", show(m), show(n));
      case _ =>
    }
  }

  /** The variable bindings, `HashMap<InvocationArgument, InvocationArgument>`. Since
      equality and hashing agree, an entry is addressed by the hashed text of its key. */
  type Bindings = map<string, Value>

  function Lookup(m: Bindings, key: Value, show: real -> string): (r: Option<Value>)
    ensures r.Some? <==> HashText(key, show) in m
    ensures r.Some? ==> r.value == m[HashText(key, show)]
  {
    if HashText(key, show) in m then Some(m[HashText(key, show)]) else None
  }

  /** `HashMap::insert`: every key equal to `key` now finds `value`; every other key
      finds what it found before. */
  function Insert(m: Bindings, key: Value, value: Value, show: real -> string): (r: Bindings)
    ensures forall k :: ValueEq(k, key, show) ==> Lookup(r, k, show) == Some(value)
    ensures forall k :: !ValueEq(k, key, show) ==> Lookup(r, k, show) == Lookup(m, k, show)
  {
    var r := m[HashText(key, show) := value];
    forall k
      ensures ValueEq(k, key, show) <==> HashText(k, show) == HashText(key, show)
    {
      HashTextMatchesEquality(k, key, show);
    }
    r
  }

  /** The implementations the older revision defines. */
  datatype LegacyBuiltin = PrintlnImpl | AddImpl | IfImpl | ElseImpl | EndImpl | LetImpl | TelImpl

  datatype LegacyKeyword = LegacyKeyword(name: string, implementation: LegacyBuiltin, numberOfArguments: nat)

  /** `GlobalState` of the older revision. */
  datatype LegacyState = LegacyState(
    variables: Bindings,
    keywords: map<string, LegacyKeyword>,
    lineNumber: nat,
    nesting: seq<NestingState>,
    ret: Option<Value>)

  /** Why the older revision stops: a panic, or the one error value the lexer and
      `determine_tokens_to_skip` return. */
  datatype Fault =
    | OutOfTokens                                    // `next().unwrap()` / `peek().unwrap()`
    | StringInsteadOfKeyword                         // "didn't want a string here"
    | NumberInsteadOfKeyword                         // "didn't want a number here"
    | UnregisteredKeyword(name: string)              // `keywords.get(..).unwrap()`
    | NoReturnValue                                  // `ret.clone().unwrap()`
    | ArgumentAbsent                                 // `ok_or_eyre(..).unwrap()` on an argument
    | EmptyNesting                                   // `nesting.last()/pop().unwrap()`
    | TodoReached                                    // the `todo!()` in `end`
    | CannotAddStrings                               // "can't add strings"
    | NoSuchVariable(variable: Value)
    | UnknownKeywordToSkip(name: string, line: nat)  // the error `determine_tokens_to_skip` returns
    | BadNumber(lexeme: string)                      // the lexer's failed `parse()`
}

=== FILE: legacy_keywords.dfy ===
/** The value and variable keywords of the older revision (src/keywords.rs): `println`,
    `+`, `let`, `tel`. Every failure is a panic. */
module LegacyKeywords {
  import opened Results
  import Expression
  import opened LegacyInvocation
  import Keywords

  /** The line `println` prints. The loop is the newer revision's, word for word, so the
      line is the newer revision's line for the same values. */
  method PrintLine(args: seq<Value>, show: real -> string) returns (line: string)
    ensures line == Keywords.JoinWithSpaces(Keywords.Stringified(ToArguments(args), show))
    ensures |args| > 0 ==>
      |line| == Keywords.TotalLength(Keywords.Stringified(ToArguments(args), show)) + |args| - 1
  {
    line := Keywords.PrintLine(ToArguments(args), show);
    if |args| > 0 {
      Keywords.JoinLength(Keywords.Stringified(ToArguments(args), show));
    }
  }

  /** `println` returns the state it was given. */
  function PrintlnKeyword(st: LegacyState, args: seq<Value>): (r: Result<LegacyState, Fault>)
    ensures r == Success(st)
  {
    Success(st)
  }

  /** The `for` loop of `add`: adds each argument to the running sum, panicking at the
      first string. */
  function AddFrom(sum: real, args: seq<Value>): (r: Result<real, Fault>)
    ensures r.Success? <==> forall i :: 0 <= i < |args| ==> args[i].NumberValue?
    ensures r.Failure? ==> r.error == CannotAddStrings
    decreases |args|
  {
    if |args| == 0 then
      Success(sum)
    else
      match args[0]
      case StringValue(_) => Failure(CannotAddStrings)
      case NumberValue(n) => AddFrom(sum + n, args[1..])
  }

  predicate AllNumbers(args: seq<Expression.Argument>) {
    forall i :: 0 <= i < |args| ==> args[i].NumberArg?
  }

  /** The loop computes the seed plus the sum of the arguments. */
  lemma {:induction false} AddFromIsSum(sum: real, args: seq<Value>)
    requires forall i :: 0 <= i < |args| ==> args[i].NumberValue?
    ensures AllNumbers(ToArguments(args))
    ensures AddFrom(sum, args).Success?
    ensures AddFrom(sum, args).value == sum + Keywords.Sum(Keywords.Numbers(ToArguments(args)))
    decreases |args|
  {
    if |args| > 0 {
      AddFromIsSum(sum + args[0].number, args[1..]);
      assert ToArguments(args)[1..] == ToArguments(args[1..]);
      assert Keywords.Numbers(ToArguments(args))[1..] == Keywords.Numbers(ToArguments(args[1..]));
    }
  }

  /** `+`: the sum of all arguments, seeded with 0.0, so no arguments at all give 0.0; a
      string argument panics. */
  function AddKeyword(st: LegacyState, args: seq<Value>): (r: Result<LegacyState, Fault>)
    ensures r.Success? <==> forall i :: 0 <= i < |args| ==> args[i].NumberValue?
    ensures r.Failure? ==> r.error == CannotAddStrings
    ensures |args| == 0 ==> r == Success(st.(ret := Some(NumberValue(0.0))))
    ensures r.Success? ==> r.value == st.(ret := r.value.ret) && r.value.ret.Some?
  {
    var sum :- AddFrom(0.0, args);
    Success(st.(ret := Some(NumberValue(sum))))
  }

  /** On a non-empty list of numbers both revisions' `+` return the same sum; on the empty
      list the older one returns 0.0 where the newer one reports a missing argument. */
  lemma AddRevisionsAgree(st: LegacyState, newer: Expression.GlobalState, args: seq<Value>)
    requires forall i :: 0 <= i < |args| ==> args[i].NumberValue?
    ensures AddKeyword(st, args).Success?
    ensures |args| > 0 ==>
      && Keywords.AddKeyword(newer, ToArguments(args)).Success?
      && Keywords.AddKeyword(newer, ToArguments(args)).value.ret
         == Some(ToArgument(AddKeyword(st, args).value.ret.value))
    ensures |args| == 0 ==>
      && AddKeyword(st, args).value.ret == Some(NumberValue(0.0))
      && Keywords.AddKeyword(newer, ToArguments(args)).Failure?
  {
    OlderAddIsSum(st, args);
    if |args| > 0 {
      assert Keywords.AddKeyword(newer, ToArguments(args)).value.ret
        == Some(Expression.NumberArg(Keywords.Sum(Keywords.Numbers(ToArguments(args)))));
    } else {
      assert Keywords.AddKeyword(newer, ToArguments(args))
        == Failure(Expression.MissingArgument(newer.lineNumber));
    }
  }

  /** The older `+` on numbers returns the newer revision's sum of the same numbers. */
  lemma OlderAddIsSum(st: LegacyState, args: seq<Value>)
    requires forall i :: 0 <= i < |args| ==> args[i].NumberValue?
    ensures AllNumbers(ToArguments(args))
    ensures AddKeyword(st, args)
      == Success(st.(ret := Some(NumberValue(Keywords.Sum(Keywords.Numbers(ToArguments(args)))))))
  {
    AddFromIsSum(0.0, args);
    var s := Keywords.Sum(Keywords.Numbers(ToArguments(args)));
    assert AddFrom(0.0, args).Success?;
    assert AddFrom(0.0, args).value == 0.0 + s;
    assert 0.0 + s == s;
    assert AddFrom(0.0, args) == Success(s);
  }

  /** `let name value`: binds the name, replacing the value of every key equal to it, and
      changes nothing else; fewer than two arguments panic. */
  function LetKeyword(st: LegacyState, args: seq<Value>, show: real -> string): (r: Result<LegacyState, Fault>)
    ensures r.Success? <==> |args| >= 2
    ensures r.Failure? ==> r.error == ArgumentAbsent
    ensures r.Success? ==>
      && r.value == st.(variables := r.value.variables)
      && (forall k :: ValueEq(k, args[0], show) ==> Lookup(r.value.variables, k, show) == Some(args[1]))
      && (forall k :: !ValueEq(k, args[0], show) ==>
            Lookup(r.value.variables, k, show) == Lookup(st.variables, k, show))
  {
    // A missing name and a missing value raise the same panic.
    if |args| < 2 then
      Failure(ArgumentAbsent)
    else
      Success(st.(variables := Insert(st.variables, args[0], args[1], show)))
  }

  /** `tel name`: the bound value becomes the return value; the bindings stay as they were.
      No argument, or an unbound name, panics. */
  function TelKeyword(st: LegacyState, args: seq<Value>, show: real -> string): (r: Result<LegacyState, Fault>)
    ensures r.Success? <==> |args| > 0 && Lookup(st.variables, args[0], show).Some?
    ensures |args| == 0 ==> r == Failure(ArgumentAbsent)
    ensures |args| > 0 && Lookup(st.variables, args[0], show).None? ==> r == Failure(NoSuchVariable(args[0]))
    ensures r.Success? ==> r.value == st.(ret := Lookup(st.variables, args[0], show))
  {
    if |args| == 0 then
      Failure(ArgumentAbsent)
    else
      match Lookup(st.variables, args[0], show)
      case None => Failure(NoSuchVariable(args[0]))
      case Some(value) =>
        var key := HashText(args[0], show);
        var rewritten := st.variables[key := value];
        assert rewritten == st.variables;
        Success(st.(variables := rewritten, ret := Some(value)))
  }

  /** `let` then `tel` on the same name returns the stored value, for string and number
      names alike (the newer revision loses number names). */
  lemma LetThenTel(st: LegacyState, name: Value, value: Value, show: real -> string)
    ensures LetKeyword(st, [name, value], show).Success?
    ensures TelKeyword(LetKeyword(st, [name, value], show).value, [name], show).Success?
    ensures TelKeyword(LetKeyword(st, [name, value], show).value, [name], show).value.ret == Some(value)
  {
    ValueEqIsEquivalence(name, name, name, show);
  }

  /** A number name is found again under any number that prints the same way. */
  lemma LetThenTelSamePrintedNumber(st: LegacyState, x: real, y: real, value: Value, show: real -> string)
    requires show(x) == show(y)
    ensures LetKeyword(st, [NumberValue(x), value], show).Success?
    ensures TelKeyword(LetKeyword(st, [NumberValue(x), value], show).value, [NumberValue(y)], show).Success?
    ensures TelKeyword(LetKeyword(st, [NumberValue(x), value], show).value, [NumberValue(y)], show).value.ret
      == Some(value)
  {
    assert ValueEq(NumberValue(y), NumberValue(x), show);
  }
}

=== FILE: legacy_parser.dfy ===
/** The lexer of the older revision (src/parser.rs). It is the newer lexer without
    comments: `#` is an ordinary character, and keywords and numbers end only at
    whitespace. On every input without `#` the two lexers give the same tokens. */
module LegacyParser {
  import opened Results
  import opened Tokens
  import opened LegacyInvocation
  import Parser

  datatype LegacyLexer = LegacyLexer(tokens: seq<Token>, line: nat, prelim: string, tokenType: TokenType)

  const Start: LegacyLexer := LegacyLexer([], 1, "", KeywordType)

  /** The closing character of the open token, without the `#` rule. */
  predicate Closes(t: TokenType, c: char) {
    match t
    case ApostropheString => c == '"'
    case DollarString => c == ' ' || c == '\n'
    case KeywordType => IsWhitespace(c)
    case NumberType => IsWhitespace(c)
    case NoToken => false
  }

  /** One iteration of the loop in `parse`. Outside a token the kind of the next token is
      chosen inline, appending its first character to the open text. */
  function Step(lx: LegacyLexer, c: char, next: Option<char>, parseNumber: Parser.NumberParser)
    : (r: Result<LegacyLexer, Fault>)
    ensures r.Success? ==> r.value.line == lx.line + (if c == '\n' then 1 else 0)
    ensures r.Success? ==>
      || r.value.tokens == lx.tokens
      || (|r.value.tokens| == |lx.tokens| + 1 && r.value.tokens[..|lx.tokens|] == lx.tokens)
    ensures r.Failure? <==>
      lx.tokenType == NumberType && IsWhitespace(c) && parseNumber(lx.prelim).None?
    ensures r.Failure? ==> r.error == BadNumber(lx.prelim)
  {
    var newline := if c == '\n' then 1 else 0;
    if lx.tokenType == NoToken then
      var (tokenType, prelim) :=
        if c == '-' then
          (if next.Some? && IsAsciiDigit(next.value) then NumberType else KeywordType, lx.prelim + [c])
        else if IsAsciiDigit(c) then (NumberType, lx.prelim + [c])
        else if c == '$' then (DollarString, lx.prelim)
        else if c == '\'' then (ApostropheString, lx.prelim)
        else if IsWhitespace(c) then (NoToken, lx.prelim)
        else (KeywordType, lx.prelim + [c]);
      Success(lx.(tokenType := tokenType, prelim := prelim, line := lx.line + newline))
    else if !Closes(lx.tokenType, c) then
      Success(lx.(prelim := lx.prelim + [c], line := lx.line + newline))
    else if lx.tokenType == NumberType then
      match parseNumber(lx.prelim)
      case None => Failure(BadNumber(lx.prelim))
      case Some(n) => Success(LegacyLexer(lx.tokens + [Number(lx.prelim, n, lx.line)], lx.line + newline, "", NoToken))
    else
      var token := if lx.tokenType == KeywordType then Keyword(lx.prelim, lx.line) else KfkString(lx.prelim, lx.line);
      Success(LegacyLexer(lx.tokens + [token], lx.line + newline, "", NoToken))
  }

  function ScanFrom(src: string, i: nat, lx: LegacyLexer, parseNumber: Parser.NumberParser)
    : (r: Result<LegacyLexer, Fault>)
    requires i <= |src|
    decreases |src| - i
    ensures r.Success? ==> r.value.line == lx.line + CountNewlines(src[i..])
    ensures r.Success? ==> |lx.tokens| <= |r.value.tokens| <= |lx.tokens| + (|src| - i)
    ensures r.Success? ==> r.value.tokens[..|lx.tokens|] == lx.tokens
    ensures r.Failure? ==> r.error.BadNumber?
  {
    if i == |src| then
      Success(lx)
    else
      var next :- Step(lx, src[i], Parser.Peek(src, i), parseNumber);
      assert src[i..][1..] == src[i + 1..];
      ScanFrom(src, i + 1, next, parseNumber)
  }

  /** `parse`; the token still open at the end is dropped here too. */
  function Parse(src: string, parseNumber: Parser.NumberParser): (r: Result<seq<Token>, Fault>)
    ensures r.Failure? ==> r.error.BadNumber?
    ensures r.Success? ==> |r.value| <= |src|
  {
    var lx :- ScanFrom(src, 0, Start, parseNumber);
    Success(lx.tokens)
  }

  /** A newer lexer and an older one in step: same tokens, line and kind, no comment
      open, the same open text inside a token, and the older one's text empty outside. */
  predicate InStep(newer: Parser.Lexer, older: LegacyLexer) {
    && newer.tokens == older.tokens
    && newer.line == older.line
    && newer.tokenType == older.tokenType
    && !newer.isComment
    && (older.tokenType != NoToken ==> newer.prelim == older.prelim)
    && (older.tokenType == NoToken ==> older.prelim == "")
  }

  lemma StepsAgree(newer: Parser.Lexer, older: LegacyLexer, c: char, next: Option<char>,
                   parseNumber: Parser.NumberParser)
    requires InStep(newer, older) && c != '#'
    ensures Parser.Step(newer, c, next, parseNumber).Success? <==> Step(older, c, next, parseNumber).Success?
    ensures Parser.Step(newer, c, next, parseNumber).Success? ==>
      InStep(Parser.Step(newer, c, next, parseNumber).value, Step(older, c, next, parseNumber).value)
    ensures Parser.Step(newer, c, next, parseNumber).Failure? ==>
      Parser.Step(newer, c, next, parseNumber).error.lexeme == Step(older, c, next, parseNumber).error.lexeme
  {
    if older.tokenType == NoToken {
      var (t, p) := Parser.DetermineNextTokenType(c, next);
      assert t != NoToken ==> p == older.prelim + [c] || (p == "" && older.prelim == "");
    }
  }

  lemma {:induction false} ScansAgree(src: string, i: nat, newer: Parser.Lexer, older: LegacyLexer,
                                      parseNumber: Parser.NumberParser)
    requires i <= |src| && InStep(newer, older)
    requires forall k :: i <= k < |src| ==> src[k] != '#'
    decreases |src| - i
    ensures Parser.ScanFrom(src, i, newer, parseNumber).Success? <==> ScanFrom(src, i, older, parseNumber).Success?
    ensures Parser.ScanFrom(src, i, newer, parseNumber).Success? ==>
      InStep(Parser.ScanFrom(src, i, newer, parseNumber).value, ScanFrom(src, i, older, parseNumber).value)
    ensures Parser.ScanFrom(src, i, newer, parseNumber).Failure? ==>
      Parser.ScanFrom(src, i, newer, parseNumber).error.lexeme == ScanFrom(src, i, older, parseNumber).error.lexeme
  {
    if i < |src| {
      StepsAgree(newer, older, src[i], Parser.Peek(src, i), parseNumber);
      var n := Parser.Step(newer, src[i], Parser.Peek(src, i), parseNumber);
      var o := Step(older, src[i], Parser.Peek(src, i), parseNumber);
      if n.Success? {
        ScansAgree(src, i + 1, n.value, o.value, parseNumber);
      }
    }
  }

  /** Without `#` in the input the two revisions' lexers agree: both fail on the same
      number text, or both give the same tokens. */
  lemma ParsersAgreeWithoutHash(src: string, parseNumber: Parser.NumberParser)
    requires forall k :: 0 <= k < |src| ==> src[k] != '#'
    ensures Parser.Parse(src, parseNumber).Success? <==> Parse(src, parseNumber).Success?
    ensures Parser.Parse(src, parseNumber).Success? ==> Parser.Parse(src, parseNumber).value == Parse(src, parseNumber).value
    ensures Parser.Parse(src, parseNumber).Failure? ==>
      Parser.Parse(src, parseNumber).error.lexeme == Parse(src, parseNumber).error.lexeme
  {
    ScansAgree(src, 0, Parser.Start, Start, parseNumber);
  }

  /** With `#` they part: in `a#b ` the newer lexer ends the keyword at `#` and reads the
      rest as a comment... */
  lemma NewerLexerEndsKeywordAtHash(parseNumber: Parser.NumberParser)
    ensures Parser.Parse("a#b ", parseNumber) == Success([Keyword("a", 1)])
  {
    var src := "a#b ";
    assert "" + ['a'] == "a";
    var n1 := Parser.Start.(prelim := "a");
    var n2 := Parser.Lexer([Keyword("a", 1)], 1, "", NoToken, true);
    assert Parser.Step(Parser.Start, 'a', Some('#'), parseNumber) == Success(n1);
    assert Parser.Step(n1, '#', Some('b'), parseNumber) == Success(n2);
    Parser.CommentIgnored(src, 2, 4, n2, parseNumber);
    assert Parser.ScanFrom(src, 0, Parser.Start, parseNumber) == Parser.ScanFrom(src, 2, n2, parseNumber);
  }

  /** ... while the older one keeps `#` inside the keyword. */
  lemma OlderLexerKeepsHashInKeyword(parseNumber: Parser.NumberParser)
    ensures Parse("a#b ", parseNumber) == Success([Keyword("a#b", 1)])
  {
    assert "" + ['a'] == "a" && "a" + ['#'] == "a#" && "a#" + ['b'] == "a#b";
    var o1 := Start.(prelim := "a");
    var o2 := Start.(prelim := "a#");
    var o3 := Start.(prelim := "a#b");
    var o4 := LegacyLexer([Keyword("a#b", 1)], 1, "", NoToken);
    assert Step(Start, 'a', Some('#'), parseNumber) == Success(o1);
    assert Step(o1, '#', Some('b'), parseNumber) == Success(o2);
    assert Step(o2, 'b', Some(' '), parseNumber) == Success(o3);
    assert Step(o3, ' ', None, parseNumber) == Success(o4);
  }
}

=== FILE: legacy_programs.dfy ===
/** Whole programs run by the older revision's `main`. */
module LegacyPrograms {
  import opened Results
  import opened Tokens
  import opened LegacyInvocation
  import opened LegacyEvaluator
  import LegacyKeywords
  import Programs

  /** `+ a b` with two number literals. */
  predicate SumShape(p: seq<Token>, a: real, b: real) {
    && |p| == 3
    && IsKeyword(p[0], "+")
    && p[1].Number? && p[1].number == a
    && p[2].Number? && p[2].number == b
  }

  lemma AddTwoNumbers(st: LegacyState, a: real, b: real)
    ensures LegacyKeywords.AddKeyword(st, [NumberValue(a), NumberValue(b)])
      == Success(st.(ret := Some(NumberValue(a + b))))
  {
    var args := [NumberValue(a), NumberValue(b)];
    assert args[1..] == [NumberValue(b)];
    assert args[1..][1..] == [];
    assert LegacyKeywords.AddFrom(0.0 + a + b, args[1..][1..]) == Success(0.0 + a + b);
    assert LegacyKeywords.AddFrom(0.0 + a, args[1..]) == LegacyKeywords.AddFrom(0.0 + a + b, args[1..][1..]);
    assert LegacyKeywords.AddFrom(0.0, args) == LegacyKeywords.AddFrom(0.0 + a, args[1..]);
  }

  /** `+ a b` prints nothing and leaves a + b as the return value. */
  lemma {:induction false} SumOfTwoRun(p: seq<Token>, a: real, b: real, show: real -> string)
    requires SumShape(p, a, b)
    ensures Run(p, show) == Success(InitialState.(ret := Some(NumberValue(a + b))))
  {
    GatherLiterals(p, 1, InitialState, 2, show);
    var literals := p[1..3];
    assert LiteralValues(literals) == [NumberValue(a), NumberValue(b)] by {
      assert LiteralValues(literals)[0] == LiteralValue(p[1]);
      assert LiteralValues(literals)[1] == LiteralValue(p[2]);
    }
    AddTwoNumbers(InitialState, a, b);
    var after := InitialState.(ret := Some(NumberValue(a + b)));
    assert NextInvocation(p, 0, InitialState, show) == Success(Cursor(3, after));
  }

  /** `+ 1 2` evaluates to 3. */
  lemma OnePlusTwo(show: real -> string)
    ensures Run([Programs.K("+"), Programs.Num(1.0), Programs.Num(2.0)], show)
      == Success(InitialState.(ret := Some(NumberValue(3.0))))
  {
    SumOfTwoRun([Programs.K("+"), Programs.Num(1.0), Programs.Num(2.0)], 1.0, 2.0, show);
  }

  /** `+ a + b c`: the inner invocation's return value is the outer one's second argument. */
  predicate NestedSumShape(p: seq<Token>, a: real, b: real, c: real) {
    && |p| == 5
    && IsKeyword(p[0], "+")
    && p[1].Number? && p[1].number == a
    && IsKeyword(p[2], "+")
    && p[3].Number? && p[3].number == b
    && p[4].Number? && p[4].number == c
  }

  lemma {:induction false} InnerSum(p: seq<Token>, a: real, b: real, c: real, show: real -> string)
    requires NestedSumShape(p, a, b, c)
    ensures NextInvocation(p, 2, InitialState, show)
      == Success(Cursor(5, InitialState.(ret := Some(NumberValue(b + c)))))
  {
    GatherLiterals(p, 3, InitialState, 2, show);
    var literals := p[3..5];
    assert LiteralValues(literals) == [NumberValue(b), NumberValue(c)] by {
      assert LiteralValues(literals)[0] == LiteralValue(p[3]);
      assert LiteralValues(literals)[1] == LiteralValue(p[4]);
    }
    AddTwoNumbers(InitialState, b, c);
  }

  lemma {:induction false} NestedSumRun(p: seq<Token>, a: real, b: real, c: real, show: real -> string)
    requires NestedSumShape(p, a, b, c)
    ensures Run(p, show) == Success(InitialState.(ret := Some(NumberValue(a + (b + c)))))
  {
    InnerSum(p, a, b, c, show);
    var inner := InitialState.(ret := Some(NumberValue(b + c)));
    assert GatherArguments(p, 5, inner, 0, show) == Success(Collected([], 5, inner));
    var none: seq<Value> := [];
    assert [NumberValue(b + c)] + none == [NumberValue(b + c)];
    assert p[2].Keyword? && !p[1].Keyword? && LiteralValue(p[1]) == NumberValue(a);
    assert GatherArguments(p, 2, InitialState, 1, show)
      == Success(Collected([NumberValue(b + c)], 5, inner));
    assert [NumberValue(a)] + [NumberValue(b + c)] == [NumberValue(a), NumberValue(b + c)];
    assert GatherArguments(p, 1, InitialState, 2, show)
      == Success(Collected([NumberValue(a), NumberValue(b + c)], 5, inner));
    AddTwoNumbers(inner, a, b + c);
    var after := InitialState.(ret := Some(NumberValue(a + (b + c))));
    assert NextInvocation(p, 0, InitialState, show) == Success(Cursor(5, after));
  }

  /** `+ 1 + 2 3` evaluates to 6. */
  lemma NestedSumIsSix(show: real -> string)
    ensures Run([Programs.K("+"), Programs.Num(1.0), Programs.K("+"), Programs.Num(2.0), Programs.Num(3.0)], show)
      == Success(InitialState.(ret := Some(NumberValue(6.0))))
  {
    NestedSumRun([Programs.K("+"), Programs.Num(1.0), Programs.K("+"), Programs.Num(2.0), Programs.Num(3.0)],
                 1.0, 2.0, 3.0, show);
  }

  /** The control-flow and variable keywords exist in this revision but are never
      registered: a program that starts with one of them panics at once. */
  lemma UnregisteredKeywordsPanic(p: seq<Token>, show: real -> string)
    requires |p| > 0 && p[0].Keyword?
    requires p[0].lexeme in {"if", "else", "end", "let", "tel"}
    ensures Run(p, show) == Failure(UnregisteredKeyword(p[0].lexeme))
  {
  }
}

=== FILE: legacy_tree.dfy ===
/** A reference semantics for the older evaluator: the same syntax trees as
    TreeSemantics, evaluated by walking the tree with the older revision's keywords and
    panics. `next_invocation`, which only moves a cursor, is proved to agree with it on
    every well-formed invocation: same result or same panic, and the cursor lands exactly
    after the invocation's tokens. */
module LegacyTreeSemantics {
  import opened Results
  import opened Tokens
  import opened LegacyInvocation
  import opened LegacyEvaluator
  import TreeSemantics

  type Expr = TreeSemantics.Expr

  /** Literals are literal tokens; every invocation names a keyword of the older registry
      and has exactly as many arguments as its arity. */
  predicate WellFormed(e: Expr, keywords: map<string, LegacyKeyword>)
    decreases e
  {
    match e
    case Literal(t) => !t.Keyword?
    case Invocation(k, args) =>
      && k.Keyword?
      && k.lexeme in keywords
      && keywords[k.lexeme].numberOfArguments == |args|
      && AllWellFormed(args, keywords)
  }

  predicate AllWellFormed(es: seq<Expr>, keywords: map<string, LegacyKeyword>)
    decreases es
  {
    |es| == 0 || (WellFormed(es[0], keywords) && AllWellFormed(es[1..], keywords))
  }

  /** The panic for a literal where a keyword is due. */
  function NotAKeyword(t: Token): Fault {
    if t.Number? then NumberInsteadOfKeyword else StringInsteadOfKeyword
  }

  /** Tree evaluation of one invocation: evaluate the arguments in order, then apply the
      keyword's implementation to the state they leave and to their values. */
  function Eval(e: Expr, st: LegacyState, show: real -> string): Result<LegacyState, Fault>
    decreases e
  {
    match e
    case Literal(t) => Failure(NotAKeyword(t))
    case Invocation(k, args) =>
      if !k.Keyword? then
        Failure(NotAKeyword(k))
      else if k.lexeme !in st.keywords then
        Failure(UnregisteredKeyword(k.lexeme))
      else
        var values :- EvalArgs(args, st, show);
        Dispatch(st.keywords[k.lexeme].implementation, values.state, values.args, show)
  }

  datatype Values = Values(args: seq<Value>, state: LegacyState)

  /** A literal gives its value and leaves the state alone; an invocation hands its state
      on and gives its return value, panicking when there is none. A keyword token used
      as a literal is not well formed and is refused as unregistered. */
  function EvalArgs(es: seq<Expr>, st: LegacyState, show: real -> string): Result<Values, Fault>
    decreases es
  {
    if |es| == 0 then
      Success(Values([], st))
    else
      match es[0]
      case Literal(t) =>
        if t.Keyword? then
          Failure(UnregisteredKeyword(t.lexeme))
        else
          var rest :- EvalArgs(es[1..], st, show);
          Success(Values([LiteralValue(t)] + rest.args, rest.state))
      case Invocation(_, _) =>
        var callee :- Eval(es[0], st, show);
        if callee.ret.None? then
          Failure(NoReturnValue)
        else
          var rest :- EvalArgs(es[1..], callee, show);
          Success(Values([callee.ret.value] + rest.args, rest.state))
  }

  function StateAt(r: Result<LegacyState, Fault>, pos: nat): Result<Cursor, Fault> {
    match r
    case Success(st) => Success(Cursor(pos, st))
    case Failure(e) => Failure(e)
  }

  function ValuesAt(r: Result<Values, Fault>, pos: nat): Result<Collected, Fault> {
    match r
    case Success(v) => Success(Collected(v.args, pos, v.state))
    case Failure(e) => Failure(e)
  }

  /** Applies a keyword to gathered arguments, the cursor staying where they ended. */
  function Apply(implementation: LegacyBuiltin, r: Result<Collected, Fault>, show: real -> string)
    : Result<Cursor, Fault>
  {
    match r
    case Failure(e) => Failure(e)
    case Success(g) =>
      match Dispatch(implementation, g.state, g.args, show)
      case Success(next) => Success(Cursor(g.pos, next))
      case Failure(e) => Failure(e)
  }

  /** `next_invocation` at `pos` has the outcome of the tree evaluation of `e`, and its
      cursor lands at `end`. */
  predicate InvocationAgrees(tokens: seq<Token>, pos: nat, e: Expr, st: LegacyState, show: real -> string,
                             end: nat)
    requires pos <= |tokens|
  {
    NextInvocation(tokens, pos, st, show) == StateAt(Eval(e, st, show), end)
  }

  /** The argument loop at `pos` gathers what the tree evaluation of `es` gives, or panics
      the same way, and its cursor lands at `end`. */
  predicate ArgumentsAgree(tokens: seq<Token>, pos: nat, es: seq<Expr>, st: LegacyState, show: real -> string,
                           end: nat)
    requires pos <= |tokens|
  {
    GatherArguments(tokens, pos, st, |es|, show) == ValuesAt(EvalArgs(es, st, show), end)
  }

  /** A registered keyword at the cursor: gather its arguments, then apply it. */
  lemma NextInvocationStep(tokens: seq<Token>, pos: nat, st: LegacyState, show: real -> string,
                           entry: LegacyKeyword, gathered: Result<Collected, Fault>)
    requires pos < |tokens| && tokens[pos].Keyword? && tokens[pos].lexeme in st.keywords
    requires entry == st.keywords[tokens[pos].lexeme]
    requires gathered == GatherArguments(tokens, pos + 1, st, entry.numberOfArguments, show)
    ensures NextInvocation(tokens, pos, st, show) == Apply(entry.implementation, gathered, show)
  {
  }

  /** Tree evaluation of a registered invocation, laid out like NextInvocationStep. */
  lemma EvalStep(e: Expr, st: LegacyState, show: real -> string, end: nat,
                 entry: LegacyKeyword, values: Result<Collected, Fault>)
    requires e.Invocation? && e.keyword.Keyword? && e.keyword.lexeme in st.keywords
    requires entry == st.keywords[e.keyword.lexeme]
    requires values == ValuesAt(EvalArgs(e.args, st, show), end)
    ensures StateAt(Eval(e, st, show), end) == Apply(entry.implementation, values, show)
  {
  }

  /** Once the arguments agree, so does the invocation: both apply the same implementation
      to the same outcome. */
  lemma InvocationStep(tokens: seq<Token>, pos: nat, e: Expr, st: LegacyState, show: real -> string, end: nat)
    requires e.Invocation? && e.keyword.Keyword? && e.keyword.lexeme in st.keywords
    requires st.keywords[e.keyword.lexeme].numberOfArguments == |e.args|
    requires pos < |tokens| && tokens[pos] == e.keyword
    requires ArgumentsAgree(tokens, pos + 1, e.args, st, show, end)
    ensures InvocationAgrees(tokens, pos, e, st, show, end)
  {
    var entry := st.keywords[e.keyword.lexeme];
    var gathered := GatherArguments(tokens, pos + 1, st, |e.args|, show);
    NextInvocationStep(tokens, pos, st, show, entry, gathered);
    EvalStep(e, st, show, end, entry, gathered);
  }

  /** The tokens of an invocation: its keyword, then its arguments' tokens. */
  lemma InvocationLayout(tokens: seq<Token>, pos: nat, e: Expr, end: nat)
    requires e.Invocation?
    requires end == pos + |TreeSemantics.Flatten(e)| && end <= |tokens|
    requires tokens[pos..end] == TreeSemantics.Flatten(e)
    ensures end == pos + 1 + |TreeSemantics.FlattenAll(e.args)|
    ensures tokens[pos] == e.keyword
    ensures tokens[pos + 1..end] == TreeSemantics.FlattenAll(e.args)
  {
    assert TreeSemantics.Flatten(e) == [e.keyword] + TreeSemantics.FlattenAll(e.args);
    TreeSemantics.SplitSlice(tokens, pos, [e.keyword], TreeSemantics.FlattenAll(e.args));
  }

  /** `next_invocation` agrees with the tree evaluator on a well-formed invocation laid
      out in prefix notation anywhere in the token sequence: same outcome, and the cursor
      lands at `end`, right after the invocation's tokens. */
  lemma {:induction false} InvocationFollowsTree(tokens: seq<Token>, pos: nat, e: Expr, st: LegacyState,
                                                 show: real -> string, end: nat)
    requires e.Invocation? && WellFormed(e, st.keywords)
    requires end == pos + |TreeSemantics.Flatten(e)| && end <= |tokens|
    requires tokens[pos..end] == TreeSemantics.Flatten(e)
    decreases e
    ensures InvocationAgrees(tokens, pos, e, st, show, end)
  {
    InvocationLayout(tokens, pos, e, end);
    ArgumentsFollowTree(tokens, pos + 1, e.args, st, show, end);
    InvocationStep(tokens, pos, e, st, show, end);
  }

  function Prepend(v: Value, r: Result<Collected, Fault>): Result<Collected, Fault> {
    match r
    case Success(c) => Success(Collected([v] + c.args, c.pos, c.state))
    case Failure(e) => Failure(e)
  }

  /** A literal argument of `next_invocation`: one token, its value first. */
  lemma GatherLiteralStep(tokens: seq<Token>, pos: nat, st: LegacyState, count: nat, show: real -> string)
    requires pos < |tokens| && !tokens[pos].Keyword? && count > 0
    ensures GatherArguments(tokens, pos, st, count, show)
      == Prepend(LiteralValue(tokens[pos]), GatherArguments(tokens, pos + 1, st, count - 1, show))
  {
  }

  /** A literal argument of the tree evaluator, laid out like GatherLiteralStep. */
  lemma EvalLiteralStep(es: seq<Expr>, st: LegacyState, show: real -> string, end: nat)
    requires |es| > 0 && es[0].Literal? && !es[0].token.Keyword?
    ensures ValuesAt(EvalArgs(es, st, show), end)
      == Prepend(LiteralValue(es[0].token), ValuesAt(EvalArgs(es[1..], st, show), end))
  {
  }

  /** A literal argument puts its value before the remaining arguments, on both sides. */
  lemma LiteralArgumentStep(tokens: seq<Token>, pos: nat, es: seq<Expr>, st: LegacyState, show: real -> string,
                            end: nat)
    requires |es| > 0 && es[0].Literal? && !es[0].token.Keyword?
    requires pos < |tokens| && tokens[pos] == es[0].token
    requires ArgumentsAgree(tokens, pos + 1, es[1..], st, show, end)
    ensures ArgumentsAgree(tokens, pos, es, st, show, end)
  {
    GatherLiteralStep(tokens, pos, st, |es|, show);
    EvalLiteralStep(es, st, show, end);
  }

  /** The argument loop of `next_invocation` agrees with the tree evaluation of the
      arguments laid out from `pos` to `end`, including the panic for a callee without a
      return value. */
  lemma {:induction false} ArgumentsFollowTree(tokens: seq<Token>, pos: nat, es: seq<Expr>, st: LegacyState,
                                               show: real -> string, end: nat)
    requires AllWellFormed(es, st.keywords)
    requires end == pos + |TreeSemantics.FlattenAll(es)| && end <= |tokens|
    requires tokens[pos..end] == TreeSemantics.FlattenAll(es)
    decreases es, 2
    ensures ArgumentsAgree(tokens, pos, es, st, show, end)
  {
    if |es| > 0 {
      var first := TreeSemantics.Flatten(es[0]);
      var others := TreeSemantics.FlattenAll(es[1..]);
      assert TreeSemantics.FlattenAll(es) == first + others;
      TreeSemantics.SplitSlice(tokens, pos, first, others);
      var mid := pos + |first|;
      if es[0].Literal? {
        LiteralArgumentFollowsTree(tokens, pos, es, st, show, end);
      } else {
        InvocationArgumentFollowsTree(tokens, pos, es, st, show, mid, end);
      }
    }
  }

  lemma {:induction false} LiteralArgumentFollowsTree(tokens: seq<Token>, pos: nat, es: seq<Expr>, st: LegacyState,
                                                      show: real -> string, end: nat)
    requires |es| > 0 && es[0].Literal? && AllWellFormed(es, st.keywords)
    requires end == pos + 1 + |TreeSemantics.FlattenAll(es[1..])| && end <= |tokens|
    requires tokens[pos] == es[0].token
    requires tokens[pos + 1..end] == TreeSemantics.FlattenAll(es[1..])
    decreases es, 1
    ensures ArgumentsAgree(tokens, pos, es, st, show, end)
  {
    ArgumentsFollowTree(tokens, pos + 1, es[1..], st, show, end);
    LiteralArgumentStep(tokens, pos, es, st, show, end);
  }

  /** An invocation argument of `next_invocation`, given the callee's outcome `stepped`:
      the callee's panic, the missing return value, or the return value followed by the
      remaining arguments read from the callee's cursor and state. */
  lemma GatherInvocationStep(tokens: seq<Token>, pos: nat, st: LegacyState, count: nat, show: real -> string,
                             stepped: Result<Cursor, Fault>)
    requires pos < |tokens| && tokens[pos].Keyword? && count > 0
    requires stepped == NextInvocation(tokens, pos, st, show)
    ensures stepped.Failure? ==> GatherArguments(tokens, pos, st, count, show) == Failure(stepped.error)
    ensures stepped.Success? && stepped.value.state.ret.None? ==>
      GatherArguments(tokens, pos, st, count, show) == Failure(NoReturnValue)
    ensures stepped.Success? && stepped.value.state.ret.Some? ==>
      GatherArguments(tokens, pos, st, count, show)
        == Prepend(stepped.value.state.ret.value,
                   GatherArguments(tokens, stepped.value.pos, stepped.value.state, count - 1, show))
  {
  }

  /** An invocation argument of the tree evaluator, given the callee's outcome, in the
      same three cases. */
  lemma EvalInvocationStep(es: seq<Expr>, st: LegacyState, show: real -> string, end: nat,
                           callee: Result<LegacyState, Fault>)
    requires |es| > 0 && es[0].Invocation?
    requires callee == Eval(es[0], st, show)
    ensures callee.Failure? ==> ValuesAt(EvalArgs(es, st, show), end) == Failure(callee.error)
    ensures callee.Success? && callee.value.ret.None? ==>
      ValuesAt(EvalArgs(es, st, show), end) == Failure(NoReturnValue)
    ensures callee.Success? && callee.value.ret.Some? ==>
      ValuesAt(EvalArgs(es, st, show), end)
        == Prepend(callee.value.ret.value, ValuesAt(EvalArgs(es[1..], callee.value, show), end))
  {
  }

  lemma {:induction false} InvocationArgumentFollowsTree(tokens: seq<Token>, pos: nat, es: seq<Expr>,
                                                         st: LegacyState, show: real -> string, mid: nat, end: nat)
    requires |es| > 0 && es[0].Invocation? && AllWellFormed(es, st.keywords)
    requires mid == pos + |TreeSemantics.Flatten(es[0])|
    requires end == mid + |TreeSemantics.FlattenAll(es[1..])| && end <= |tokens|
    requires tokens[pos..mid] == TreeSemantics.Flatten(es[0])
    requires tokens[mid..end] == TreeSemantics.FlattenAll(es[1..])
    decreases es, 1
    ensures ArgumentsAgree(tokens, pos, es, st, show, end)
  {
    InvocationLayout(tokens, pos, es[0], mid);
    InvocationFollowsTree(tokens, pos, es[0], st, show, mid);
    CalleeFollowsTree(tokens, pos, es, st, show, mid, end);
  }

  /** The three outcomes of an invocation argument, once its callee is known to agree. */
  lemma {:induction false} CalleeFollowsTree(tokens: seq<Token>, pos: nat, es: seq<Expr>, st: LegacyState,
                                             show: real -> string, mid: nat, end: nat)
    requires |es| > 0 && es[0].Invocation? && AllWellFormed(es[1..], st.keywords)
    requires pos < |tokens| && tokens[pos].Keyword? && mid <= |tokens|
    requires end == mid + |TreeSemantics.FlattenAll(es[1..])| && end <= |tokens|
    requires tokens[mid..end] == TreeSemantics.FlattenAll(es[1..])
    requires InvocationAgrees(tokens, pos, es[0], st, show, mid)
    decreases es, 0
    ensures ArgumentsAgree(tokens, pos, es, st, show, end)
  {
    var callee := Eval(es[0], st, show);
    if callee.Success? && callee.value.ret.Some? {
      ArgumentsFollowTree(tokens, mid, es[1..], callee.value, show, end);
      ReturnedArgumentStep(tokens, pos, es, st, show, mid, end, callee.value);
    } else {
      FailedArgumentStep(tokens, pos, es, st, show, mid, end);
    }
  }

  /** A callee that returns a value puts it before the remaining arguments, on both sides. */
  lemma ReturnedArgumentStep(tokens: seq<Token>, pos: nat, es: seq<Expr>, st: LegacyState, show: real -> string,
                             mid: nat, end: nat, next: LegacyState)
    requires |es| > 0 && es[0].Invocation?
    requires pos < |tokens| && tokens[pos].Keyword? && mid <= |tokens|
    requires InvocationAgrees(tokens, pos, es[0], st, show, mid)
    requires Eval(es[0], st, show) == Success(next) && next.ret.Some?
    requires ArgumentsAgree(tokens, mid, es[1..], next, show, end)
    ensures ArgumentsAgree(tokens, pos, es, st, show, end)
  {
    GatherInvocationStep(tokens, pos, st, |es|, show, NextInvocation(tokens, pos, st, show));
    EvalInvocationStep(es, st, show, end, Eval(es[0], st, show));
  }

  /** A callee that panics, or returns nothing, fails the same way on both sides. */
  lemma FailedArgumentStep(tokens: seq<Token>, pos: nat, es: seq<Expr>, st: LegacyState, show: real -> string,
                           mid: nat, end: nat)
    requires |es| > 0 && es[0].Invocation?
    requires pos < |tokens| && tokens[pos].Keyword?
    requires InvocationAgrees(tokens, pos, es[0], st, show, mid)
    requires Eval(es[0], st, show).Failure? || Eval(es[0], st, show).value.ret.None?
    ensures ArgumentsAgree(tokens, pos, es, st, show, end)
  {
    GatherInvocationStep(tokens, pos, st, |es|, show, NextInvocation(tokens, pos, st, show));
    EvalInvocationStep(es, st, show, end, Eval(es[0], st, show));
  }

  /** A whole program that is one well-formed invocation runs to the tree's result. */
  lemma RunFollowsTree(e: Expr, show: real -> string)
    requires e.Invocation? && WellFormed(e, InitialState.keywords)
    ensures Run(TreeSemantics.Flatten(e), show) == Eval(e, InitialState, show)
  {
    var tokens := TreeSemantics.Flatten(e);
    assert tokens[0..|tokens|] == tokens;
    InvocationFollowsTree(tokens, 0, e, InitialState, show, |tokens|);
  }
}

=== FILE: parser.dfy ===
/** The lexer of the newer revision (src/rust/parser.rs): one pass over the characters
    with a one-character look-ahead, a current token kind, the text read so far, a line
    counter and a comment flag. Reading a number's text is f64 parsing, a parameter
    here. */
module Parser {
  import opened Results
  import opened Tokens
  import opened Expression

  /** `str::parse::<f64>`: the value a number's text denotes, if it is one. */
  type NumberParser = string -> Option<real>

  /** `determine_next_token_type`: the kind of token a character starts outside a token,
      and the text that token begins with. A digit, or a minus directly followed by a
      digit, starts a number; `$` and `'` start a string without being part of it;
      whitespace starts nothing; anything else starts a keyword. */
  function DetermineNextTokenType(c: char, next: Option<char>): (r: (TokenType, string))
    ensures r.0 == NoToken <==> IsWhitespace(c)
    ensures r.0 == NumberType <==> IsAsciiDigit(c) || (c == '-' && next.Some? && IsAsciiDigit(next.value))
    ensures r.0 == DollarString <==> c == '$'
    ensures r.0 == ApostropheString <==> c == '\''
    ensures r.0 == KeywordType || r.0 == NumberType ==> r.1 == [c]
    ensures r.0 == DollarString || r.0 == ApostropheString ==> r.1 == ""
  {
    if c == '-' then
      if next.Some? && IsAsciiDigit(next.value) then (NumberType, [c]) else (KeywordType, [c])
    else if IsAsciiDigit(c) then
      (NumberType, [c])
    else if c == '$' then
      (DollarString, "")
    else if c == '\'' then
      (ApostropheString, "")
    else if IsWhitespace(c) then
      (NoToken, [c])
    else
      (KeywordType, [c])
  }

  /** The lexer between two characters. */
  datatype Lexer = Lexer(tokens: seq<Token>, line: nat, prelim: string, tokenType: TokenType, isComment: bool)

  /** Before the first character: line 1, and a keyword already open. */
  const Start: Lexer := Lexer([], 1, "", KeywordType, false)

  /** The character that closes the open token: `"` for an apostrophe string, a space or
      line feed for a dollar string, whitespace or `#` for a keyword or number. */
  predicate Closes(t: TokenType, c: char) {
    match t
    case ApostropheString => c == '"'
    case DollarString => c == ' ' || c == '\n'
    case KeywordType => IsWhitespace(c) || c == '#'
    case NumberType => IsWhitespace(c) || c == '#'
    case NoToken => false
  }

  /** The token the open text makes; a number whose text does not parse is an error. */
  function Finish(lx: Lexer, parseNumber: NumberParser): (r: Result<Token, Error>)
    requires lx.tokenType != NoToken
    ensures r.Failure? <==> lx.tokenType == NumberType && parseNumber(lx.prelim).None?
    ensures r.Failure? ==> r.error == InvalidNumber(lx.prelim, lx.line)
    ensures r.Success? ==> r.value.lexeme == lx.prelim && r.value.line == lx.line
    ensures r.Success? ==> (r.value.Keyword? <==> lx.tokenType == KeywordType)
    ensures r.Success? ==> (r.value.Number? <==> lx.tokenType == NumberType)
    ensures r.Success? && r.value.Number? ==> parseNumber(lx.prelim) == Some(r.value.number)
  {
    match lx.tokenType
    case KeywordType => Success(Keyword(lx.prelim, lx.line))
    case ApostropheString => Success(KfkString(lx.prelim, lx.line))
    case DollarString => Success(KfkString(lx.prelim, lx.line))
    case NumberType =>
      match parseNumber(lx.prelim)
      case None => Failure(InvalidNumber(lx.prelim, lx.line))
      case Some(n) => Success(Number(lx.prelim, n, lx.line))
  }

  /** One iteration of the loop in `parse`. Every step advances the line counter exactly
      on a line feed and adds at most one token at the end. Outside a token, a `#` starts
      a comment that swallows everything up to the line feed. */
  function Step(lx: Lexer, c: char, next: Option<char>, parseNumber: NumberParser): (r: Result<Lexer, Error>)
    ensures r.Success? ==> r.value.line == lx.line + (if c == '\n' then 1 else 0)
    ensures r.Success? ==>
      || r.value.tokens == lx.tokens
      || (|r.value.tokens| == |lx.tokens| + 1 && r.value.tokens[..|lx.tokens|] == lx.tokens)
    ensures r.Failure? ==> lx.tokenType == NumberType && Closes(NumberType, c) && r.error.InvalidNumber?
    ensures lx.tokenType == NoToken && (lx.isComment || c == '#') && c != '\n' ==>
      r == Success(lx.(isComment := true))
  {
    var newline := if c == '\n' then 1 else 0;
    if lx.tokenType == NoToken then
      if lx.isComment || c == '#' then
        if c == '\n' then Success(lx.(line := lx.line + 1, isComment := false))
        else Success(lx.(isComment := true))
      else
        var (tokenType, prelim) := DetermineNextTokenType(c, next);
        Success(lx.(tokenType := tokenType, prelim := prelim, line := lx.line + newline, isComment := false))
    else if !Closes(lx.tokenType, c) then
      Success(lx.(prelim := lx.prelim + [c], line := lx.line + newline))
    else
      var token :- Finish(lx, parseNumber);
      var comment := if lx.tokenType == KeywordType || lx.tokenType == NumberType then c == '#' else lx.isComment;
      Success(Lexer(lx.tokens + [token], lx.line + newline, "", NoToken, comment))
  }

  /** The character after position `i`, if any: the iterator's `peek`. */
  function Peek(src: string, i: nat): Option<char> {
    if i + 1 < |src| then Some(src[i + 1]) else None
  }

  /** The loop of `parse` from position `i` on. On success the tokens read so far are
      kept as a prefix, at most one token is added per character, and the line counter
      has advanced once per line feed. The only error is a number that does not parse. */
  function ScanFrom(src: string, i: nat, lx: Lexer, parseNumber: NumberParser): (r: Result<Lexer, Error>)
    requires i <= |src|
    decreases |src| - i
    ensures r.Success? ==> r.value.line == lx.line + CountNewlines(src[i..])
    ensures r.Success? ==> |lx.tokens| <= |r.value.tokens| <= |lx.tokens| + (|src| - i)
    ensures r.Success? ==> r.value.tokens[..|lx.tokens|] == lx.tokens
    ensures r.Failure? ==> r.error.InvalidNumber?
  {
    if i == |src| then
      Success(lx)
    else
      var next :- Step(lx, src[i], Peek(src, i), parseNumber);
      assert src[i..][1..] == src[i + 1..];
      ScanFrom(src, i + 1, next, parseNumber)
  }

  /** No whitespace and no `#`: the text of a keyword or a number. */
  predicate Plain(s: string) {
    forall k :: 0 <= k < |s| ==> !IsWhitespace(s[k]) && s[k] != '#'
  }

  /** What the open text can hold, given the kind of token it belongs to. */
  predicate Fits(t: TokenType, s: string) {
    match t
    case KeywordType => Plain(s)
    case NumberType => Plain(s)
    case DollarString => ' ' !in s && '\n' !in s
    case ApostropheString => '"' !in s
    case NoToken => true
  }

  /** A token the lexer can emit: keyword and number texts are plain, a number carries
      the value its text parses to, and a string is either free of `"` (apostrophe
      string) or free of spaces and line feeds (dollar string). */
  predicate GoodToken(t: Token, parseNumber: NumberParser) {
    match t
    case Keyword(text, _) => Plain(text)
    case Number(text, n, _) => Plain(text) && parseNumber(text) == Some(n)
    case KfkString(text, _) => '"' !in text || (' ' !in text && '\n' !in text)
  }

  predicate LinesSorted(tokens: seq<Token>) {
    forall a, b :: 0 <= a < b < |tokens| ==> tokens[a].line <= tokens[b].line
  }

  /** The lexer invariant. */
  predicate Sound(lx: Lexer, parseNumber: NumberParser) {
    && lx.line >= 1
    && (lx.isComment ==> lx.tokenType == NoToken)
    && Fits(lx.tokenType, lx.prelim)
    && (|lx.tokens| == 0 ==> lx.tokenType == KeywordType)
    && (|lx.tokens| > 0 ==> lx.tokens[0].Keyword?)
    && (forall k :: 0 <= k < |lx.tokens| ==> GoodToken(lx.tokens[k], parseNumber))
    && (forall k :: 0 <= k < |lx.tokens| ==> 1 <= lx.tokens[k].line <= lx.line)
    && LinesSorted(lx.tokens)
  }

  lemma StepKeepsSound(lx: Lexer, c: char, next: Option<char>, parseNumber: NumberParser)
    requires Sound(lx, parseNumber)
    requires Step(lx, c, next, parseNumber).Success?
    ensures Sound(Step(lx, c, next, parseNumber).value, parseNumber)
  {
    var r := Step(lx, c, next, parseNumber).value;
    if lx.tokenType == NoToken {
      if !(lx.isComment || c == '#') {
        var (t, p) := DetermineNextTokenType(c, next);
        assert r.tokenType == t && r.prelim == p;
        assert Fits(t, p);
      }
    } else if !Closes(lx.tokenType, c) {
      var s := lx.prelim + [c];
      assert forall k :: 0 <= k < |lx.prelim| ==> s[k] == lx.prelim[k];
      assert Fits(lx.tokenType, s);
    } else {
      CloseKeepsSound(lx, c, next, parseNumber);
    }
  }

  /** Closing the open token appends a good token on the current line, so the token list
      stays good and sorted by line. */
  lemma CloseKeepsSound(lx: Lexer, c: char, next: Option<char>, parseNumber: NumberParser)
    requires Sound(lx, parseNumber) && lx.tokenType != NoToken && Closes(lx.tokenType, c)
    requires Step(lx, c, next, parseNumber).Success?
    ensures Sound(Step(lx, c, next, parseNumber).value, parseNumber)
  {
    var r := Step(lx, c, next, parseNumber).value;
    var token := Finish(lx, parseNumber).value;
    assert r.tokens == lx.tokens + [token];
    assert GoodToken(token, parseNumber);
  }

  lemma {:induction false} ScanKeepsSound(src: string, i: nat, lx: Lexer, parseNumber: NumberParser)
    requires i <= |src| && Sound(lx, parseNumber)
    requires ScanFrom(src, i, lx, parseNumber).Success?
    decreases |src| - i
    ensures Sound(ScanFrom(src, i, lx, parseNumber).value, parseNumber)
  {
    if i < |src| {
      StepKeepsSound(lx, src[i], Peek(src, i), parseNumber);
      ScanKeepsSound(src, i + 1, Step(lx, src[i], Peek(src, i), parseNumber).value, parseNumber);
    }
  }

  /** `parse`. The token still open when the input ends is dropped. */
  function Parse(src: string, parseNumber: NumberParser): (r: Result<seq<Token>, Error>)
    ensures r.Failure? ==> r.error.InvalidNumber?
    ensures r.Success? ==>
      && |r.value| <= |src|
      && (|r.value| > 0 ==> r.value[0].Keyword?)
      && (forall k :: 0 <= k < |r.value| ==> GoodToken(r.value[k], parseNumber))
      && (forall k :: 0 <= k < |r.value| ==> 1 <= r.value[k].line <= 1 + CountNewlines(src))
      && LinesSorted(r.value)
  {
    var lx :- ScanFrom(src, 0, Start, parseNumber);
    ScanKeepsSound(src, 0, Start, parseNumber);
    assert src[0..] == src;
    Success(lx.tokens)
  }

  /** Inside a comment every character up to the line feed is read and forgotten. */
  lemma {:induction false} CommentIgnored(src: string, i: nat, j: nat, lx: Lexer, parseNumber: NumberParser)
    requires i <= j <= |src|
    requires lx.tokenType == NoToken && lx.isComment
    requires forall k :: i <= k < j ==> src[k] != '\n'
    decreases j - i
    ensures ScanFrom(src, i, lx, parseNumber) == ScanFrom(src, j, lx, parseNumber)
  {
    if i < j {
      assert Step(lx, src[i], Peek(src, i), parseNumber) == Success(lx);
      CommentIgnored(src, i + 1, j, lx, parseNumber);
    }
  }

  /** Text with no whitespace and no `#` never closes the open keyword, so it produces
      no token; in particular such an input as a whole parses to no tokens at all. */
  lemma {:induction false} OpenKeywordNeverEmitted(src: string, i: nat, lx: Lexer, parseNumber: NumberParser)
    requires i <= |src| && lx.tokenType == KeywordType
    requires forall k :: i <= k < |src| ==> !IsWhitespace(src[k]) && src[k] != '#'
    decreases |src| - i
    ensures ScanFrom(src, i, lx, parseNumber).Success?
    ensures ScanFrom(src, i, lx, parseNumber).value.tokens == lx.tokens
  {
    if i < |src| {
      OpenKeywordNeverEmitted(src, i + 1, Step(lx, src[i], Peek(src, i), parseNumber).value, parseNumber);
    }
  }

  lemma UnterminatedInputHasNoTokens(src: string, parseNumber: NumberParser)
    requires forall k :: 0 <= k < |src| ==> !IsWhitespace(src[k]) && src[k] != '#'
    ensures Parse(src, parseNumber) == Success([])
  {
    OpenKeywordNeverEmitted(src, 0, Start, parseNumber);
  }

  /** Leading whitespace closes the keyword that is open from the start: the first token
      is an empty keyword on line 1. */
  lemma LeadingWhitespaceGivesEmptyKeyword(src: string, parseNumber: NumberParser)
    requires |src| > 0 && IsWhitespace(src[0])
    ensures Parse(src, parseNumber).Success? ==>
      |Parse(src, parseNumber).value| > 0 && Parse(src, parseNumber).value[0] == Keyword("", 1)
  {
    var first := Step(Start, src[0], Peek(src, 0), parseNumber);
    assert first.Success? && first.value.tokens == [Keyword("", 1)];
  }

  /** The open token after reading `s`: the text grows by `s` and the line counter by the
      line feeds in it. */
  function Grown(lx: Lexer, s: string): Lexer {
    lx.(prelim := lx.prelim + s, line := lx.line + CountNewlines(s))
  }

  /** While the open token is not closed, every character is added to its text and only
      the line counter moves, once per line feed; no token is emitted. */
  lemma {:induction false} OpenTextGrows(src: string, i: nat, j: nat, lx: Lexer, parseNumber: NumberParser)
    requires i <= j <= |src| && lx.tokenType != NoToken
    requires forall k :: i <= k < j ==> !Closes(lx.tokenType, src[k])
    decreases j - i
    ensures ScanFrom(src, i, lx, parseNumber) == ScanFrom(src, j, Grown(lx, src[i..j]), parseNumber)
  {
    if i < j {
      var grown := lx.(prelim := lx.prelim + [src[i]], line := lx.line + (if src[i] == '\n' then 1 else 0));
      var after := Grown(lx, src[i..j]);
      TextAndLinesGrow(src, i, j, lx.prelim, lx.line);
      assert Grown(grown, src[i + 1..j]) == after;
      calc {
        ScanFrom(src, i, lx, parseNumber);
        { GrowStep(src, i, lx, parseNumber); }
        ScanFrom(src, i + 1, grown, parseNumber);
        { OpenTextGrows(src, i + 1, j, grown, parseNumber); }
        ScanFrom(src, j, after, parseNumber);
      }
    } else {
      assert src[i..j] == [];
      assert Grown(lx, src[i..j]) == lx;
    }
  }

  /** One character that does not close the open token. */
  lemma GrowStep(src: string, i: nat, lx: Lexer, parseNumber: NumberParser)
    requires i < |src| && lx.tokenType != NoToken && !Closes(lx.tokenType, src[i])
    ensures ScanFrom(src, i, lx, parseNumber)
      == ScanFrom(src, i + 1, lx.(prelim := lx.prelim + [src[i]], line := lx.line + (if src[i] == '\n' then 1 else 0)),
                  parseNumber)
  {
    assert Step(lx, src[i], Peek(src, i), parseNumber).Success?;
  }

  lemma TextAndLinesGrow(src: string, i: nat, j: nat, prelim: string, line: nat)
    requires i < j <= |src|
    ensures prelim + [src[i]] + src[i + 1..j] == prelim + src[i..j]
    ensures line + (if src[i] == '\n' then 1 else 0) + CountNewlines(src[i + 1..j]) == line + CountNewlines(src[i..j])
  {
    assert src[i..j][1..] == src[i + 1..j];
  }

  /** At the end of the input the open token is never emitted, whatever its kind: the
      scan ends with the text read so far still pending and the tokens unchanged. */
  lemma OpenTokenDropped(src: string, i: nat, lx: Lexer, parseNumber: NumberParser)
    requires i <= |src| && lx.tokenType != NoToken
    requires forall k :: i <= k < |src| ==> !Closes(lx.tokenType, src[k])
    ensures ScanFrom(src, i, lx, parseNumber) == Success(Grown(lx, src[i..]))
    ensures ScanFrom(src, i, lx, parseNumber).value.tokens == lx.tokens
  {
    assert src[i..|src|] == src[i..];
    OpenTextGrows(src, i, |src|, lx, parseNumber);
  }

  /** The character that closes the open token emits the token its text makes. */
  lemma CloseStep(src: string, j: nat, lx: Lexer, parseNumber: NumberParser)
    requires j < |src| && lx.tokenType != NoToken && Closes(lx.tokenType, src[j])
    ensures Finish(lx, parseNumber).Failure? ==> ScanFrom(src, j, lx, parseNumber) == Failure(Finish(lx, parseNumber).error)
    ensures Finish(lx, parseNumber).Success? ==>
      ScanFrom(src, j, lx, parseNumber)
        == ScanFrom(src, j + 1, Lexer(lx.tokens + [Finish(lx, parseNumber).value], lx.line + (if src[j] == '\n' then 1 else 0),
                                      "", NoToken,
                                      if lx.tokenType == KeywordType || lx.tokenType == NumberType then src[j] == '#'
                                      else lx.isComment),
                    parseNumber)
  {
  }

  lemma {:induction false} PlainHasNoNewlines(s: string)
    requires Plain(s)
    ensures CountNewlines(s) == 0
  {
    if |s| > 0 {
      assert Plain(s[1..]) by {
        forall k | 0 <= k < |s[1..]| ensures !IsWhitespace(s[1..][k]) && s[1..][k] != '#' {
          assert s[1..][k] == s[k + 1];
        }
      }
      PlainHasNoNewlines(s[1..]);
    }
  }

  lemma {:induction false} NoLineFeedNoNewlines(s: string)
    requires '\n' !in s
    ensures CountNewlines(s) == 0
  {
    if |s| > 0 {
      assert s == [s[0]] + s[1..];
      NoLineFeedNoNewlines(s[1..]);
    }
  }

  /** A run that does not close the open token, then the character that does: the scan
      goes on after that character with the token the whole text makes. */
  lemma RunThenClose(src: string, i: nat, j: nat, lx: Lexer, parseNumber: NumberParser, token: Token, after: Lexer)
    requires i <= j < |src| && lx.tokenType != NoToken
    requires forall k :: i <= k < j ==> !Closes(lx.tokenType, src[k])
    requires Closes(lx.tokenType, src[j])
    requires Finish(Grown(lx, src[i..j]), parseNumber) == Success(token)
    requires after == Lexer(lx.tokens + [token], Grown(lx, src[i..j]).line + (if src[j] == '\n' then 1 else 0),
                            "", NoToken,
                            if lx.tokenType == KeywordType || lx.tokenType == NumberType then src[j] == '#'
                            else lx.isComment)
    ensures ScanFrom(src, i, lx, parseNumber) == ScanFrom(src, j + 1, after, parseNumber)
  {
    var open := Grown(lx, src[i..j]);
    calc {
      ScanFrom(src, i, lx, parseNumber);
      { OpenTextGrows(src, i, j, lx, parseNumber); }
      ScanFrom(src, j, open, parseNumber);
      { CloseStep(src, j, open, parseNumber); }
      ScanFrom(src, j + 1, after, parseNumber);
    }
  }

  /** The same when the text of the open token is refused. */
  lemma RunThenFail(src: string, i: nat, j: nat, lx: Lexer, parseNumber: NumberParser)
    requires i <= j < |src| && lx.tokenType != NoToken
    requires forall k :: i <= k < j ==> !Closes(lx.tokenType, src[k])
    requires Closes(lx.tokenType, src[j])
    requires Finish(Grown(lx, src[i..j]), parseNumber).Failure?
    ensures ScanFrom(src, i, lx, parseNumber) == Failure(Finish(Grown(lx, src[i..j]), parseNumber).error)
  {
    OpenTextGrows(src, i, j, lx, parseNumber);
    CloseStep(src, j, Grown(lx, src[i..j]), parseNumber);
  }

  /** A plain run never closes a keyword or a number, and holds no line feed. */
  lemma PlainRun(src: string, i: nat, j: nat, t: TokenType)
    requires i <= j <= |src| && (t == KeywordType || t == NumberType) && Plain(src[i..j])
    ensures forall k :: i <= k < j ==> !Closes(t, src[k])
    ensures CountNewlines(src[i..j]) == 0
  {
    forall k | i <= k < j ensures !Closes(t, src[k]) {
      assert src[k] == src[i..j][k - i];
    }
    PlainHasNoNewlines(src[i..j]);
  }

  /** A run that fits a string never closes it. */
  lemma StringRun(src: string, i: nat, j: nat, t: TokenType)
    requires i <= j <= |src| && (t == DollarString || t == ApostropheString) && Fits(t, src[i..j])
    ensures forall k :: i <= k < j ==> !Closes(t, src[k])
  {
    forall k | i <= k < j ensures !Closes(t, src[k]) {
      assert src[k] == src[i..j][k - i];
    }
  }

  /** A keyword is a run of plain characters ended by whitespace or `#`: the lexer emits
      exactly one keyword holding the open text and the run, on the current line, and a
      `#` opens a comment. */
  lemma KeywordClosesAt(src: string, i: nat, j: nat, lx: Lexer, parseNumber: NumberParser)
    requires i <= j < |src| && lx.tokenType == KeywordType
    requires Plain(src[i..j]) && (IsWhitespace(src[j]) || src[j] == '#')
    ensures ScanFrom(src, i, lx, parseNumber)
      == ScanFrom(src, j + 1, Lexer(lx.tokens + [Keyword(lx.prelim + src[i..j], lx.line)],
                                    lx.line + (if src[j] == '\n' then 1 else 0), "", NoToken, src[j] == '#'),
                  parseNumber)
  {
    PlainRun(src, i, j, KeywordType);
    var open := Grown(lx, src[i..j]);
    assert open.line == lx.line;
    var token := Keyword(lx.prelim + src[i..j], lx.line);
    assert Finish(open, parseNumber) == Success(token);
    RunThenClose(src, i, j, lx, parseNumber, token,
                 Lexer(lx.tokens + [token], lx.line + (if src[j] == '\n' then 1 else 0), "", NoToken, src[j] == '#'));
  }

  /** A number is a run of plain characters ended by whitespace or `#`: the lexer emits
      exactly one number carrying the value its text parses to, or fails on that text. */
  lemma NumberClosesAt(src: string, i: nat, j: nat, lx: Lexer, parseNumber: NumberParser)
    requires i <= j < |src| && lx.tokenType == NumberType
    requires Plain(src[i..j]) && (IsWhitespace(src[j]) || src[j] == '#')
    ensures var text := lx.prelim + src[i..j];
      parseNumber(text).None? ==> ScanFrom(src, i, lx, parseNumber) == Failure(InvalidNumber(text, lx.line))
    ensures var text := lx.prelim + src[i..j];
      parseNumber(text).Some? ==>
        ScanFrom(src, i, lx, parseNumber)
          == ScanFrom(src, j + 1, Lexer(lx.tokens + [Number(text, parseNumber(text).value, lx.line)],
                                        lx.line + (if src[j] == '\n' then 1 else 0), "", NoToken, src[j] == '#'),
                      parseNumber)
  {
    PlainRun(src, i, j, NumberType);
    var open := Grown(lx, src[i..j]);
    assert open.line == lx.line;
    var text := lx.prelim + src[i..j];
    match parseNumber(text)
    case None =>
      assert Finish(open, parseNumber) == Failure(InvalidNumber(text, lx.line));
      RunThenFail(src, i, j, lx, parseNumber);
    case Some(n) =>
      var token := Number(text, n, lx.line);
      assert Finish(open, parseNumber) == Success(token);
      RunThenClose(src, i, j, lx, parseNumber, token,
                   Lexer(lx.tokens + [token], lx.line + (if src[j] == '\n' then 1 else 0), "", NoToken, src[j] == '#'));
  }

  /** A `$` string runs to the next space or line feed; other whitespace belongs to it. */
  lemma DollarStringClosesAt(src: string, i: nat, j: nat, lx: Lexer, parseNumber: NumberParser)
    requires i <= j < |src| && lx.tokenType == DollarString
    requires ' ' !in src[i..j] && '\n' !in src[i..j] && (src[j] == ' ' || src[j] == '\n')
    ensures ScanFrom(src, i, lx, parseNumber)
      == ScanFrom(src, j + 1, Lexer(lx.tokens + [KfkString(lx.prelim + src[i..j], lx.line)],
                                    lx.line + (if src[j] == '\n' then 1 else 0), "", NoToken, lx.isComment),
                  parseNumber)
  {
    StringRun(src, i, j, DollarString);
    NoLineFeedNoNewlines(src[i..j]);
    var open := Grown(lx, src[i..j]);
    assert open.line == lx.line;
    var token := KfkString(lx.prelim + src[i..j], lx.line);
    assert Finish(open, parseNumber) == Success(token);
    RunThenClose(src, i, j, lx, parseNumber, token,
                 Lexer(lx.tokens + [token], lx.line + (if src[j] == '\n' then 1 else 0), "", NoToken, lx.isComment));
  }

  /** A `'` string runs to the next `"` and may hold whitespace and line feeds; the string
      is emitted on the line where it closes. */
  lemma ApostropheStringClosesAt(src: string, i: nat, j: nat, lx: Lexer, parseNumber: NumberParser)
    requires i <= j < |src| && lx.tokenType == ApostropheString
    requires '"' !in src[i..j] && src[j] == '"'
    ensures var line := lx.line + CountNewlines(src[i..j]);
      ScanFrom(src, i, lx, parseNumber)
        == ScanFrom(src, j + 1, Lexer(lx.tokens + [KfkString(lx.prelim + src[i..j], line)], line, "", NoToken,
                                      lx.isComment),
                    parseNumber)
  {
    StringRun(src, i, j, ApostropheString);
    var line := lx.line + CountNewlines(src[i..j]);
    var open := Grown(lx, src[i..j]);
    assert open.line == line;
    var token := KfkString(lx.prelim + src[i..j], line);
    assert Finish(open, parseNumber) == Success(token);
    var after := Lexer(lx.tokens + [token], line, "", NoToken, lx.isComment);
    RunThenClose(src, i, j, lx, parseNumber, token, after);
    assert ScanFrom(src, i, lx, parseNumber) == ScanFrom(src, j + 1, after, parseNumber);
  }

  /** A text that opens with a plain run ended by whitespace or `#` has that run as its
      first token: a keyword on line 1. */
  lemma ParseFirstKeyword(src: string, j: nat, parseNumber: NumberParser)
    requires j < |src| && Plain(src[..j]) && (IsWhitespace(src[j]) || src[j] == '#')
    ensures Parse(src, parseNumber).Success? ==>
      |Parse(src, parseNumber).value| > 0 && Parse(src, parseNumber).value[0] == Keyword(src[..j], 1)
  {
    var first := Keyword(src[..j], 1);
    var after := Lexer([first], 1 + (if src[j] == '\n' then 1 else 0), "", NoToken, src[j] == '#');
    assert Start.prelim + src[0..j] == src[..j];
    assert Start.tokens + [first] == [first];
    KeywordClosesAt(src, 0, j, Start, parseNumber);
    assert ScanFrom(src, 0, Start, parseNumber) == ScanFrom(src, j + 1, after, parseNumber);
    FirstTokenKept(src, j + 1, after, parseNumber);
    ParseIsScan(src, parseNumber);
  }

  /** A token already emitted stays first. */
  lemma FirstTokenKept(src: string, i: nat, lx: Lexer, parseNumber: NumberParser)
    requires i <= |src| && |lx.tokens| > 0
    ensures ScanFrom(src, i, lx, parseNumber).Success? ==>
      |ScanFrom(src, i, lx, parseNumber).value.tokens| > 0
      && ScanFrom(src, i, lx, parseNumber).value.tokens[0] == lx.tokens[0]
  {
    var r := ScanFrom(src, i, lx, parseNumber);
    if r.Success? {
      assert r.value.tokens[..|lx.tokens|][0] == r.value.tokens[0];
    }
  }

  /** `parse` returns the tokens of the whole scan from the start state. */
  lemma ParseIsScan(src: string, parseNumber: NumberParser)
    ensures ScanFrom(src, 0, Start, parseNumber).Success? ==>
      Parse(src, parseNumber) == Success(ScanFrom(src, 0, Start, parseNumber).value.tokens)
    ensures ScanFrom(src, 0, Start, parseNumber).Failure? ==> Parse(src, parseNumber).Failure?
  {
  }
}

=== FILE: programs.dfy ===
/** Small kfkscript programs run through the newer revision's evaluator: nested argument
    resolution, and the conditional skipping of `main_loop`. */
module Programs {
  import opened Results
  import opened Tokens
  import opened Expression
  import opened ControlFlow
  import opened Interpreter
  import opened TreeSemantics
  import opened Registry
  import opened Keywords

  /** The registry entries the programs below rely on, as `main` registers them. */
  predicate BasicKeywords(keywords: map<string, KeywordImplementation>) {
    && "+" in keywords && keywords["+"] == KeywordImplementation("+", AddFn, 2)
    && "if" in keywords && keywords["if"] == KeywordImplementation("if", IfFn, 1)
    && "else" in keywords && keywords["else"] == KeywordImplementation("else", ElseFn, 0)
    && "end" in keywords && keywords["end"] == KeywordImplementation("end", EndFn, 0)
    && "let" in keywords && keywords["let"] == KeywordImplementation("let", LetFn, 2)
  }

  /** The registry built at startup provides them. */
  lemma StartupHasBasicKeywords()
    ensures InitialState().Success? && BasicKeywords(InitialState().value.keywords)
  {
    StartupProvides("+", AddFn, 2);
    StartupProvides("if", IfFn, 1);
    StartupProvides("else", ElseFn, 0);
    StartupProvides("end", EndFn, 0);
    StartupProvides("let", LetFn, 2);
  }

  /** The startup registry holds every row of the table under its name. */
  lemma StartupProvides(name: string, implementation: Builtin, arity: nat)
    requires Registration(name, implementation, arity) in StartupTable
    ensures InitialState().Success? && name in InitialState().value.keywords
    ensures InitialState().value.keywords[name] == KeywordImplementation(name, implementation, arity)
  {
    var i :| 0 <= i < |StartupTable| && StartupTable[i] == Registration(name, implementation, arity);
    StartupEntry(i);
  }

  /** A number literal on line 1. Its lexeme is an arbitrary placeholder: the evaluator
      reads only the parsed value of a Number token, never its text. */
  const NumberText: string := "0"

  function Num(x: real): Token {
    Number(NumberText, x, 1)
  }

  /** `+ 1 + 2 3` as a tree. */
  const NestedSum: Expr :=
    Invocation(Keyword("+", 1), [
      Literal(Num(1.0)),
      Invocation(Keyword("+", 1), [Literal(Num(2.0)), Literal(Num(3.0))])])

  lemma SumOfTwo(a: real, b: real)
    ensures Sum([a, b]) == a + b
  {
    assert [a, b][1..] == [b];
    assert [b][1..] == [];
    assert Sum([b]) == b;
  }

  /** Two literal arguments on the current line give their values and leave the state as
      it was. */
  lemma TwoLiteralArguments(a: real, b: real, st: GlobalState, external: ExternalKeywords)
    requires st.lineNumber == 1
    ensures EvalArgs([Literal(Num(a)), Literal(Num(b))], st, external)
      == Success(Values([NumberArg(a), NumberArg(b)], st))
  {
    var es := [Literal(Num(a)), Literal(Num(b))];
    var last := [Literal(Num(b))];
    assert st.(lineNumber := 1) == st;
    assert es[1..] == last;
    assert last[1..] == [];
    var none: seq<Expr> := [];
    assert EvalArgs(none, st, external) == Success(Values([], st));
    assert last[0].Literal? && !last[0].token.Keyword? && last[0].token.line == 1;
    assert LiteralValue(last[0].token) == NumberArg(b);
    var t := last[0].token;
    var r := EvalArgs(last[1..], st.(lineNumber := t.line), external);
    assert r == Success(Values([], st));
    assert !r.IsFailure();
    assert r.Extract() == Values([], st);
    assert [LiteralValue(t)] + r.Extract().args == [NumberArg(b)];
    assert EvalArgs(last, st, external) == Success(Values([NumberArg(b)], st));
    var t0 := es[0].token;
    var r0 := EvalArgs(es[1..], st.(lineNumber := t0.line), external);
    assert r0 == Success(Values([NumberArg(b)], st));
    assert [LiteralValue(t0)] + r0.Extract().args == [NumberArg(a), NumberArg(b)];
  }

  /** `+ a b` on line 1 sets the return value to `a + b` and nothing else. */
  lemma InnerAddition(a: real, b: real, st: GlobalState, external: ExternalKeywords)
    requires BasicKeywords(st.keywords) && st.lineNumber == 1
    ensures Eval(Invocation(Keyword("+", 1), [Literal(Num(a)), Literal(Num(b))]), st, external)
      == Success(st.(ret := Some(NumberArg(a + b))))
  {
    var e := Invocation(Keyword("+", 1), [Literal(Num(a)), Literal(Num(b))]);
    TwoLiteralArguments(a, b, st, external);
    assert st.(lineNumber := e.keyword.line) == st;
    AddOfTwo(a, b, st);
    assert Eval(e, st, external) == Dispatch(AddFn, st, [NumberArg(a), NumberArg(b)], external);
  }

  /** `+` applied to two numbers returns their sum. */
  lemma AddOfTwo(a: real, b: real, st: GlobalState)
    ensures AddKeyword(st, [NumberArg(a), NumberArg(b)]) == Success(st.(ret := Some(NumberArg(a + b))))
  {
    assert Numbers([NumberArg(a), NumberArg(b)]) == [a, b];
    SumOfTwo(a, b);
  }

  /** The tree of `+ 1 + 2 3` evaluates to 6: the inner sum is the outer one's second
      argument. */
  lemma NestedSumIsSix(st: GlobalState, external: ExternalKeywords)
    requires BasicKeywords(st.keywords)
    ensures Eval(NestedSum, st, external) == Success(st.(lineNumber := 1, ret := Some(NumberArg(6.0))))
  {
    var s1 := st.(lineNumber := 1);
    var s5 := s1.(ret := Some(NumberArg(5.0)));
    InnerSumArgument(s1, external);
    var t0 := NestedSum.args[0].token;
    assert s1.(lineNumber := t0.line) == s1;
    var r0 := EvalArgs(NestedSum.args[1..], s1.(lineNumber := t0.line), external);
    assert r0 == Success(Values([NumberArg(5.0)], s5));
    assert [LiteralValue(t0)] + r0.Extract().args == [NumberArg(1.0), NumberArg(5.0)];
    assert EvalArgs(NestedSum.args, s1, external) == Success(Values([NumberArg(1.0), NumberArg(5.0)], s5));
    AddOfTwo(1.0, 5.0, s5);
  }

  /** The second argument of `+ 1 + 2 3`, the inner sum, gives 5 as its value and as the
      state's return value. */
  lemma InnerSumArgument(s1: GlobalState, external: ExternalKeywords)
    requires BasicKeywords(s1.keywords) && s1.lineNumber == 1
    ensures EvalArgs(NestedSum.args[1..], s1, external)
      == Success(Values([NumberArg(5.0)], s1.(ret := Some(NumberArg(5.0)))))
  {
    var inner := NestedSum.args[1];
    var s5 := s1.(ret := Some(NumberArg(5.0)));
    InnerAddition(2.0, 3.0, s1, external);
    var tail := NestedSum.args[1..];
    assert tail == [inner];
    assert tail[1..] == [];
    var none: seq<Expr> := [];
    assert EvalArgs(none, s5, external) == Success(Values([], s5));
    var callee := Eval(tail[0], s1, external);
    assert callee == Success(s5);
    var r1 := EvalArgs(tail[1..], callee.value, external);
    assert r1 == Success(Values([], s5));
    assert [callee.value.ret.value] + r1.Extract().args == [NumberArg(5.0)];
  }

  lemma NestedSumLayout(keywords: map<string, KeywordImplementation>)
    requires BasicKeywords(keywords)
    ensures Flatten(NestedSum) == [Keyword("+", 1), Num(1.0), Keyword("+", 1), Num(2.0), Num(3.0)]
    ensures WellFormed(NestedSum, keywords)
  {
    var inner := NestedSum.args[1];
    assert Flatten(inner) == [Keyword("+", 1), Num(2.0), Num(3.0)];
    assert WellFormed(inner, keywords) by {
      assert AllWellFormed(inner.args[2..], keywords);
    }
    assert AllWellFormed(NestedSum.args[2..], keywords);
  }

  /** `+ 1 + 2 3` run by the cursor evaluator: all five tokens are consumed and the
      result is 6. */
  lemma NestedAdditionYieldsSix(st: GlobalState, external: ExternalKeywords)
    requires KeepsRegistry(external) && BasicKeywords(st.keywords)
    ensures Flatten(NestedSum) == [Keyword("+", 1), Num(1.0), Keyword("+", 1), Num(2.0), Num(3.0)]
    ensures RunNextExpression(Flatten(NestedSum), 0, st, external)
      == Success(Cursor(5, st.(lineNumber := 1, ret := Some(NumberArg(6.0)))))
  {
    NestedSumLayout(st.keywords);
    var tokens := Flatten(NestedSum);
    assert tokens[0..|tokens|] == tokens;
    EvaluationFollowsTree(tokens, 0, NestedSum, st, external, |tokens|);
    NestedSumIsSix(st, external);
  }

  function K(name: string): Token {
    Keyword(name, 1)
  }

  function S(text: string): Token {
    KfkString(text, 1)
  }

  /** A keyword followed by literal arguments only: the arguments are the literals'
      values, the current line is the last literal's, and the cursor lands right after. */
  lemma FlatInvocation(tokens: seq<Token>, pos: nat, st: GlobalState, external: ExternalKeywords)
    requires pos < |tokens| && tokens[pos].Keyword? && tokens[pos].lexeme in st.keywords
    requires pos + 1 + st.keywords[tokens[pos].lexeme].numberOfArguments <= |tokens|
    requires forall i :: pos < i <= pos + st.keywords[tokens[pos].lexeme].numberOfArguments ==> !tokens[i].Keyword?
    ensures var entry := st.keywords[tokens[pos].lexeme];
      var n := entry.numberOfArguments;
      RunNextExpression(tokens, pos, st, external)
        == At(Dispatch(entry.implementation, st.(lineNumber := tokens[pos + n].line),
                       LiteralValues(tokens[pos + 1..pos + 1 + n]), external), pos + 1 + n)
  {
    var entry := st.keywords[tokens[pos].lexeme];
    FlatArguments(entry, tokens, pos, st, entry.numberOfArguments, external);
    InvocationStep(tokens, pos, st, external);
  }

  /** The arguments of FlatInvocation: `n` literals after the keyword at `pos`, resolved
      with the keyword's line as the starting line. */
  lemma FlatArguments(entry: KeywordImplementation, tokens: seq<Token>, pos: nat, st: GlobalState, n: nat,
                      external: ExternalKeywords)
    requires pos + 1 + n <= |tokens|
    requires forall i :: pos < i <= pos + n ==> !tokens[i].Keyword?
    ensures RetrieveArguments(entry, tokens[pos], tokens, pos + 1, st.(lineNumber := tokens[pos].line), n, external)
      == Success(Gathered(LiteralValues(tokens[pos + 1..pos + 1 + n]), pos + 1 + n,
                          st.(lineNumber := tokens[pos + n].line)))
  {
    var inner := st.(lineNumber := tokens[pos].line);
    if n > 0 {
      RetrieveLiterals(entry, tokens[pos], tokens, pos + 1, inner, n, external);
      assert LiteralsRetrieved(entry, tokens[pos], tokens, pos + 1, inner, n, external);
    } else {
      assert LiteralValues(tokens[pos + 1..pos + 1]) == [];
    }
  }

  lemma EvalStep(tokens: seq<Token>, pos: nat, st: GlobalState, external: ExternalKeywords, c: Cursor)
    requires pos < |tokens| && !SkipFrame(st.nesting)
    requires RunNextExpression(tokens, pos, st, external) == Success(c) && c.state.subroutineName.None?
    ensures c.pos <= |tokens|
    ensures MainLoop(tokens, pos, st, external) == MainLoop(tokens, c.pos, c.state, external)
  {
  }

  lemma SkipStep(tokens: seq<Token>, pos: nat, st: GlobalState, external: ExternalKeywords, c: Cursor)
    requires pos < |tokens| && SkipFrame(st.nesting)
    requires SkipTokens(tokens, pos, st, external) == Success(c)
    ensures c.pos <= |tokens|
    ensures MainLoop(tokens, pos, st, external) == MainLoop(tokens, c.pos, c.state, external)
  {
  }

  lemma AsWrittenEvalStep(tokens: seq<Token>, pos: nat, st: GlobalState, external: ExternalKeywords, c: Cursor)
    requires pos < |tokens| && !(|st.nesting| > 0 && Top(st.nesting) == Else)
    requires RunNextExpression(tokens, pos, st, external) == Success(c) && c.state.subroutineName.None?
    ensures c.pos <= |tokens|
    ensures MainLoopAsWritten(tokens, pos, st, external) == MainLoopAsWritten(tokens, c.pos, c.state, external)
  {
  }

  lemma AsWrittenSkipStep(tokens: seq<Token>, pos: nat, st: GlobalState, external: ExternalKeywords, c: Cursor)
    requires pos < |tokens| && |st.nesting| > 0 && Top(st.nesting) == Else
    requires SkipTokens(tokens, pos, st, external) == Success(c)
    ensures c.pos <= |tokens|
    ensures MainLoopAsWritten(tokens, pos, st, external) == MainLoopAsWritten(tokens, c.pos, c.state, external)
  {
  }

  /** `if 0 let $x 1 else let $x 2 end` */
  const IfFalseElse: seq<Token> :=
    [K("if"), Num(0.0), K("let"), S("x"), Num(1.0), K("else"), K("let"), S("x"), Num(2.0), K("end")]

  /** `if 1 let $x 1 else let $x 2 end` */
  const IfTrueElse: seq<Token> :=
    [K("if"), Num(1.0), K("let"), S("x"), Num(1.0), K("else"), K("let"), S("x"), Num(2.0), K("end")]

  /** `if 0 if 1 let $x 1 end end`: an `if` inside a branch that is not taken. */
  const NestedIfInSkippedBranch: seq<Token> :=
    [K("if"), Num(0.0), K("if"), Num(1.0), K("let"), S("x"), Num(1.0), K("end"), K("end")]

  lemma IfStep(tokens: seq<Token>, pos: nat, st: GlobalState, external: ExternalKeywords, cond: real)
    requires BasicKeywords(st.keywords)
    requires pos + 2 <= |tokens| && tokens[pos] == K("if") && tokens[pos + 1] == Num(cond)
    ensures RunNextExpression(tokens, pos, st, external)
      == Success(Cursor(pos + 2, st.(lineNumber := 1,
                                     nesting := st.nesting + [if Truthy(NumberArg(cond)) then If else Else])))
  {
    FlatInvocation(tokens, pos, st, external);
    assert tokens[pos + 1..pos + 2] == [Num(cond)];
  }

  lemma LetStep(tokens: seq<Token>, pos: nat, st: GlobalState, external: ExternalKeywords, name: string, v: real)
    requires BasicKeywords(st.keywords)
    requires pos + 3 <= |tokens| && tokens[pos] == K("let") && tokens[pos + 1] == S(name) && tokens[pos + 2] == Num(v)
    ensures RunNextExpression(tokens, pos, st, external)
      == Success(Cursor(pos + 3, st.(lineNumber := 1, variables := Insert(st.variables, StringArg(name), NumberArg(v)))))
  {
    FlatInvocation(tokens, pos, st, external);
    assert tokens[pos + 1..pos + 3] == [S(name), Num(v)];
  }

  lemma ElseStep(tokens: seq<Token>, pos: nat, st: GlobalState, external: ExternalKeywords)
    requires BasicKeywords(st.keywords) && |st.nesting| > 0
    requires pos < |tokens| && tokens[pos] == K("else")
    ensures RunNextExpression(tokens, pos, st, external)
      == Success(Cursor(pos + 1, st.(lineNumber := 1,
                                     nesting := st.nesting[..|st.nesting| - 1] + [Toggle(Top(st.nesting))])))
  {
    FlatInvocation(tokens, pos, st, external);
    var after := ElseKeyword(st.(lineNumber := 1), []).value;
    assert after.nesting == st.nesting[..|st.nesting| - 1] + [Toggle(Top(st.nesting))];
  }

  lemma EndStep(tokens: seq<Token>, pos: nat, st: GlobalState, external: ExternalKeywords)
    requires BasicKeywords(st.keywords) && |st.nesting| > 0 && Top(st.nesting) != SubroutineDefinition
    requires pos < |tokens| && tokens[pos] == K("end")
    ensures RunNextExpression(tokens, pos, st, external)
      == Success(Cursor(pos + 1, st.(lineNumber := 1, nesting := st.nesting[..|st.nesting| - 1])))
  {
    FlatInvocation(tokens, pos, st, external);
  }

  /** One turn of the corrected loop for each kind of token the programs below use. The
      position and state the turn leads to are passed in, so that a caller names them in
      its own terms. */
  lemma LoopIf(tokens: seq<Token>, pos: nat, st: GlobalState, external: ExternalKeywords, cond: real,
               next: nat, after: GlobalState)
    requires BasicKeywords(st.keywords) && !SkipFrame(st.nesting) && st.subroutineName.None?
    requires pos + 2 <= |tokens| && tokens[pos] == K("if") && tokens[pos + 1] == Num(cond)
    requires next == pos + 2
    requires after == st.(lineNumber := 1, nesting := st.nesting + [if Truthy(NumberArg(cond)) then If else Else])
    ensures next <= |tokens| && MainLoop(tokens, pos, st, external) == MainLoop(tokens, next, after, external)
  {
    IfStep(tokens, pos, st, external, cond);
  }

  lemma LoopLet(tokens: seq<Token>, pos: nat, st: GlobalState, external: ExternalKeywords, name: string, v: real,
                next: nat, after: GlobalState)
    requires BasicKeywords(st.keywords) && !SkipFrame(st.nesting) && st.subroutineName.None?
    requires pos + 3 <= |tokens| && tokens[pos] == K("let") && tokens[pos + 1] == S(name) && tokens[pos + 2] == Num(v)
    requires next == pos + 3
    requires after == st.(lineNumber := 1, variables := Insert(st.variables, StringArg(name), NumberArg(v)))
    ensures next <= |tokens| && MainLoop(tokens, pos, st, external) == MainLoop(tokens, next, after, external)
  {
    LetStep(tokens, pos, st, external, name, v);
  }

  /** `else` and `end` are evaluated whether or not the top frame is a skip frame. */
  lemma LoopElse(tokens: seq<Token>, pos: nat, st: GlobalState, external: ExternalKeywords,
                 next: nat, after: GlobalState)
    requires BasicKeywords(st.keywords) && |st.nesting| > 0 && st.subroutineName.None?
    requires pos < |tokens| && tokens[pos] == K("else")
    requires next == pos + 1
    requires after == st.(lineNumber := 1, nesting := st.nesting[..|st.nesting| - 1] + [Toggle(Top(st.nesting))])
    ensures next <= |tokens| && MainLoop(tokens, pos, st, external) == MainLoop(tokens, next, after, external)
  {
    ElseStep(tokens, pos, st, external);
  }

  lemma LoopEnd(tokens: seq<Token>, pos: nat, st: GlobalState, external: ExternalKeywords,
                next: nat, after: GlobalState)
    requires BasicKeywords(st.keywords) && |st.nesting| > 0 && Top(st.nesting) != SubroutineDefinition
    requires st.subroutineName.None?
    requires pos < |tokens| && tokens[pos] == K("end")
    requires next == pos + 1
    requires after == st.(lineNumber := 1, nesting := st.nesting[..|st.nesting| - 1])
    ensures next <= |tokens| && MainLoop(tokens, pos, st, external) == MainLoop(tokens, next, after, external)
  {
    EndStep(tokens, pos, st, external);
  }

  /** Under a skip frame any other registered keyword is passed over together with as many
      tokens as its arity; a skipped `if` also pushes Ignore. */
  lemma LoopSkip(tokens: seq<Token>, pos: nat, st: GlobalState, external: ExternalKeywords,
                 next: nat, after: GlobalState)
    requires SkipFrame(st.nesting) && pos < |tokens| && tokens[pos].Keyword?
    requires tokens[pos].lexeme in st.keywords && tokens[pos].lexeme != "else" && tokens[pos].lexeme != "end"
    requires next == Min(pos + 1 + st.keywords[tokens[pos].lexeme].numberOfArguments, |tokens|)
    requires after == if tokens[pos].lexeme == "if" then st.(nesting := st.nesting + [Ignore]) else st
    ensures next <= |tokens| && MainLoop(tokens, pos, st, external) == MainLoop(tokens, next, after, external)
  {
  }

  /** The same turns of the loop as written, where only an Else frame is a skip frame. */
  lemma AsWrittenLoopIf(tokens: seq<Token>, pos: nat, st: GlobalState, external: ExternalKeywords, cond: real,
                        next: nat, after: GlobalState)
    requires BasicKeywords(st.keywords) && !(|st.nesting| > 0 && Top(st.nesting) == Else) && st.subroutineName.None?
    requires pos + 2 <= |tokens| && tokens[pos] == K("if") && tokens[pos + 1] == Num(cond)
    requires next == pos + 2
    requires after == st.(lineNumber := 1, nesting := st.nesting + [if Truthy(NumberArg(cond)) then If else Else])
    ensures next <= |tokens|
    ensures MainLoopAsWritten(tokens, pos, st, external) == MainLoopAsWritten(tokens, next, after, external)
  {
    IfStep(tokens, pos, st, external, cond);
  }

  lemma AsWrittenLoopLet(tokens: seq<Token>, pos: nat, st: GlobalState, external: ExternalKeywords, name: string,
                         v: real, next: nat, after: GlobalState)
    requires BasicKeywords(st.keywords) && !(|st.nesting| > 0 && Top(st.nesting) == Else) && st.subroutineName.None?
    requires pos + 3 <= |tokens| && tokens[pos] == K("let") && tokens[pos + 1] == S(name) && tokens[pos + 2] == Num(v)
    requires next == pos + 3
    requires after == st.(lineNumber := 1, variables := Insert(st.variables, StringArg(name), NumberArg(v)))
    ensures next <= |tokens|
    ensures MainLoopAsWritten(tokens, pos, st, external) == MainLoopAsWritten(tokens, next, after, external)
  {
    LetStep(tokens, pos, st, external, name, v);
  }

  lemma AsWrittenLoopEnd(tokens: seq<Token>, pos: nat, st: GlobalState, external: ExternalKeywords,
                         next: nat, after: GlobalState)
    requires BasicKeywords(st.keywords) && |st.nesting| > 0 && Top(st.nesting) != SubroutineDefinition
    requires st.subroutineName.None?
    requires pos < |tokens| && tokens[pos] == K("end")
    requires next == pos + 1
    requires after == st.(lineNumber := 1, nesting := st.nesting[..|st.nesting| - 1])
    ensures next <= |tokens|
    ensures MainLoopAsWritten(tokens, pos, st, external) == MainLoopAsWritten(tokens, next, after, external)
  {
    EndStep(tokens, pos, st, external);
  }

  /** As written, an `else` under an Else frame reaches the skip step, which evaluates it
      because the skip rule never applies to `else`. */
  lemma AsWrittenLoopElse(tokens: seq<Token>, pos: nat, st: GlobalState, external: ExternalKeywords,
                          next: nat, after: GlobalState)
    requires BasicKeywords(st.keywords) && |st.nesting| > 0 && st.subroutineName.None?
    requires pos < |tokens| && tokens[pos] == K("else")
    requires next == pos + 1
    requires after == st.(lineNumber := 1, nesting := st.nesting[..|st.nesting| - 1] + [Toggle(Top(st.nesting))])
    ensures next <= |tokens|
    ensures MainLoopAsWritten(tokens, pos, st, external) == MainLoopAsWritten(tokens, next, after, external)
  {
    ElseStep(tokens, pos, st, external);
  }

  lemma AsWrittenLoopSkip(tokens: seq<Token>, pos: nat, st: GlobalState, external: ExternalKeywords,
                          next: nat, after: GlobalState)
    requires |st.nesting| > 0 && Top(st.nesting) == Else && pos < |tokens| && tokens[pos].Keyword?
    requires tokens[pos].lexeme in st.keywords && tokens[pos].lexeme != "else" && tokens[pos].lexeme != "end"
    requires next == Min(pos + 1 + st.keywords[tokens[pos].lexeme].numberOfArguments, |tokens|)
    requires after == if tokens[pos].lexeme == "if" then st.(nesting := st.nesting + [Ignore]) else st
    ensures next <= |tokens|
    ensures MainLoopAsWritten(tokens, pos, st, external) == MainLoopAsWritten(tokens, next, after, external)
  {
  }

  /** The tokens of `if c let $x 1 else let $x 2 end`. */
  predicate IfElseShape(p: seq<Token>, c: real) {
    && |p| == 10
    && p[0] == K("if") && p[1] == Num(c)
    && p[2] == K("let") && p[3] == S("x") && p[4] == Num(1.0)
    && p[5] == K("else")
    && p[6] == K("let") && p[7] == S("x") && p[8] == Num(2.0)
    && p[9] == K("end")
  }

  lemma FalseConditionRun(p: seq<Token>, st: GlobalState, external: ExternalKeywords)
    requires IfElseShape(p, 0.0)
    requires BasicKeywords(st.keywords) && st.nesting == [] && st.subroutineName.None?
    ensures MainLoop(p, 0, st, external)
      == Success(st.(lineNumber := 1, variables := Insert(st.variables, StringArg("x"), NumberArg(2.0))))
  {
    var s3 := st.(lineNumber := 1, nesting := [If], variables := Insert(st.variables, StringArg("x"), NumberArg(2.0)));
    var s4 := st.(lineNumber := 1, variables := Insert(st.variables, StringArg("x"), NumberArg(2.0)));
    FalseConditionSkipsFirstBranch(p, st, external);
    FalseConditionRunsElseBranch(p, st, external);
    LoopEnd(p, 9, s3, external, 10, s4);
  }

  /** `if 0` pushes an Else frame and the first `let` is skipped. */
  lemma FalseConditionSkipsFirstBranch(p: seq<Token>, st: GlobalState, external: ExternalKeywords)
    requires IfElseShape(p, 0.0)
    requires BasicKeywords(st.keywords) && st.nesting == [] && st.subroutineName.None?
    ensures MainLoop(p, 0, st, external) == MainLoop(p, 5, st.(lineNumber := 1, nesting := [Else]), external)
  {
    var s1 := st.(lineNumber := 1, nesting := [Else]);
    NumberTruthiness(0.0);
    LoopIf(p, 0, st, external, 0.0, 2, s1);
    LoopSkip(p, 2, s1, external, 5, s1);
  }

  /** Under the Else frame, `else` turns it into If and the second `let` runs. */
  lemma FalseConditionRunsElseBranch(p: seq<Token>, st: GlobalState, external: ExternalKeywords)
    requires IfElseShape(p, 0.0)
    requires BasicKeywords(st.keywords) && st.nesting == [] && st.subroutineName.None?
    ensures MainLoop(p, 5, st.(lineNumber := 1, nesting := [Else]), external)
      == MainLoop(p, 9, st.(lineNumber := 1, nesting := [If],
                            variables := Insert(st.variables, StringArg("x"), NumberArg(2.0))), external)
  {
    var s1 := st.(lineNumber := 1, nesting := [Else]);
    var s2 := st.(lineNumber := 1, nesting := [If]);
    var s3 := st.(lineNumber := 1, nesting := [If], variables := Insert(st.variables, StringArg("x"), NumberArg(2.0)));
    assert s1.nesting[..|s1.nesting| - 1] + [Toggle(Top(s1.nesting))] == [If];
    assert p[6] == K("let") && p[7] == S("x") && p[8] == Num(2.0);
    LoopElse(p, 5, s1, external, 6, s2);
    LoopLet(p, 6, s2, external, "x", 2.0, 9, s3);
  }

  lemma FalseConditionRunAsWritten(p: seq<Token>, st: GlobalState, external: ExternalKeywords)
    requires IfElseShape(p, 0.0)
    requires BasicKeywords(st.keywords) && st.nesting == [] && st.subroutineName.None?
    ensures MainLoopAsWritten(p, 0, st, external)
      == Success(st.(lineNumber := 1, variables := Insert(st.variables, StringArg("x"), NumberArg(2.0))))
  {
    var s3 := st.(lineNumber := 1, nesting := [If], variables := Insert(st.variables, StringArg("x"), NumberArg(2.0)));
    var s4 := st.(lineNumber := 1, variables := Insert(st.variables, StringArg("x"), NumberArg(2.0)));
    FalseConditionSkipsFirstBranchAsWritten(p, st, external);
    FalseConditionRunsElseBranchAsWritten(p, st, external);
    AsWrittenLoopEnd(p, 9, s3, external, 10, s4);
  }

  /** As written, `if 0` pushes an Else frame and the first `let` is skipped. */
  lemma FalseConditionSkipsFirstBranchAsWritten(p: seq<Token>, st: GlobalState, external: ExternalKeywords)
    requires IfElseShape(p, 0.0)
    requires BasicKeywords(st.keywords) && st.nesting == [] && st.subroutineName.None?
    ensures MainLoopAsWritten(p, 0, st, external)
      == MainLoopAsWritten(p, 5, st.(lineNumber := 1, nesting := [Else]), external)
  {
    var s1 := st.(lineNumber := 1, nesting := [Else]);
    NumberTruthiness(0.0);
    AsWrittenLoopIf(p, 0, st, external, 0.0, 2, s1);
    AsWrittenLoopSkip(p, 2, s1, external, 5, s1);
  }

  /** As written, under the Else frame `else` turns it into If and the second `let` runs. */
  lemma FalseConditionRunsElseBranchAsWritten(p: seq<Token>, st: GlobalState, external: ExternalKeywords)
    requires IfElseShape(p, 0.0)
    requires BasicKeywords(st.keywords) && st.nesting == [] && st.subroutineName.None?
    ensures MainLoopAsWritten(p, 5, st.(lineNumber := 1, nesting := [Else]), external)
      == MainLoopAsWritten(p, 9, st.(lineNumber := 1, nesting := [If],
                                     variables := Insert(st.variables, StringArg("x"), NumberArg(2.0))), external)
  {
    var s1 := st.(lineNumber := 1, nesting := [Else]);
    var s2 := st.(lineNumber := 1, nesting := [If]);
    var s3 := st.(lineNumber := 1, nesting := [If], variables := Insert(st.variables, StringArg("x"), NumberArg(2.0)));
    assert s1.nesting[..|s1.nesting| - 1] + [Toggle(Top(s1.nesting))] == [If];
    assert p[6] == K("let") && p[7] == S("x") && p[8] == Num(2.0);
    AsWrittenLoopElse(p, 5, s1, external, 6, s2);
    AsWrittenLoopLet(p, 6, s2, external, "x", 2.0, 9, s3);
  }

  /** A false condition skips the first branch and runs the `else` branch, both as written
      and in the corrected loop; the stack is balanced again at the end and nothing but
      the binding and the line changed. */
  lemma FalseConditionTakesElseBranch(st: GlobalState, external: ExternalKeywords)
    requires BasicKeywords(st.keywords) && st.nesting == [] && st.subroutineName.None?
    ensures Run(IfFalseElse, st, external)
      == Success(st.(lineNumber := 1, variables := Insert(st.variables, StringArg("x"), NumberArg(2.0))))
    ensures RunCorrected(IfFalseElse, st, external) == Run(IfFalseElse, st, external)
  {
    FalseConditionRunAsWritten(IfFalseElse, st, external);
    FalseConditionRun(IfFalseElse, st, external);
  }

  lemma TrueConditionRun(p: seq<Token>, st: GlobalState, external: ExternalKeywords)
    requires IfElseShape(p, 1.0)
    requires BasicKeywords(st.keywords) && st.nesting == [] && st.subroutineName.None?
    ensures MainLoop(p, 0, st, external)
      == Success(st.(lineNumber := 1, variables := Insert(st.variables, StringArg("x"), NumberArg(1.0))))
  {
    var bound := Insert(st.variables, StringArg("x"), NumberArg(1.0));
    var s3 := st.(lineNumber := 1, nesting := [Else], variables := bound);
    TrueConditionRunsFirstBranch(p, st, external);
    TrueConditionSkipsElseBranch(p, st, external);
    LoopEnd(p, 9, s3, external, 10, st.(lineNumber := 1, variables := bound));
  }

  /** `if 1` pushes an If frame and the first `let` runs. */
  lemma TrueConditionRunsFirstBranch(p: seq<Token>, st: GlobalState, external: ExternalKeywords)
    requires IfElseShape(p, 1.0)
    requires BasicKeywords(st.keywords) && st.nesting == [] && st.subroutineName.None?
    ensures MainLoop(p, 0, st, external)
      == MainLoop(p, 5, st.(lineNumber := 1, nesting := [If],
                            variables := Insert(st.variables, StringArg("x"), NumberArg(1.0))), external)
  {
    var s1 := st.(lineNumber := 1, nesting := [If]);
    var s2 := st.(lineNumber := 1, nesting := [If], variables := Insert(st.variables, StringArg("x"), NumberArg(1.0)));
    NumberTruthiness(1.0);
    LoopIf(p, 0, st, external, 1.0, 2, s1);
    LoopLet(p, 2, s1, external, "x", 1.0, 5, s2);
  }

  /** `else` turns the If frame into Else and the second `let` is skipped. */
  lemma TrueConditionSkipsElseBranch(p: seq<Token>, st: GlobalState, external: ExternalKeywords)
    requires IfElseShape(p, 1.0)
    requires BasicKeywords(st.keywords) && st.nesting == [] && st.subroutineName.None?
    ensures var bound := Insert(st.variables, StringArg("x"), NumberArg(1.0));
      MainLoop(p, 5, st.(lineNumber := 1, nesting := [If], variables := bound), external)
        == MainLoop(p, 9, st.(lineNumber := 1, nesting := [Else], variables := bound), external)
  {
    var bound := Insert(st.variables, StringArg("x"), NumberArg(1.0));
    var s2 := st.(lineNumber := 1, nesting := [If], variables := bound);
    var s3 := st.(lineNumber := 1, nesting := [Else], variables := bound);
    LoopElse(p, 5, s2, external, 6, s3);
    LoopSkip(p, 6, s3, external, 9, s3);
  }

  lemma TrueConditionRunAsWritten(p: seq<Token>, st: GlobalState, external: ExternalKeywords)
    requires IfElseShape(p, 1.0)
    requires BasicKeywords(st.keywords) && st.nesting == [] && st.subroutineName.None?
    ensures MainLoopAsWritten(p, 0, st, external)
      == Success(st.(lineNumber := 1, variables := Insert(st.variables, StringArg("x"), NumberArg(1.0))))
  {
    var bound := Insert(st.variables, StringArg("x"), NumberArg(1.0));
    var s3 := st.(lineNumber := 1, nesting := [Else], variables := bound);
    TrueConditionRunsFirstBranchAsWritten(p, st, external);
    TrueConditionSkipsElseBranchAsWritten(p, st, external);
    AsWrittenLoopEnd(p, 9, s3, external, 10, st.(lineNumber := 1, variables := bound));
  }

  /** As written, `if 1` pushes an If frame and the first `let` runs. */
  lemma TrueConditionRunsFirstBranchAsWritten(p: seq<Token>, st: GlobalState, external: ExternalKeywords)
    requires IfElseShape(p, 1.0)
    requires BasicKeywords(st.keywords) && st.nesting == [] && st.subroutineName.None?
    ensures MainLoopAsWritten(p, 0, st, external)
      == MainLoopAsWritten(p, 5, st.(lineNumber := 1, nesting := [If],
                                     variables := Insert(st.variables, StringArg("x"), NumberArg(1.0))), external)
  {
    var s1 := st.(lineNumber := 1, nesting := [If]);
    var s2 := st.(lineNumber := 1, nesting := [If], variables := Insert(st.variables, StringArg("x"), NumberArg(1.0)));
    NumberTruthiness(1.0);
    AsWrittenLoopIf(p, 0, st, external, 1.0, 2, s1);
    AsWrittenLoopLet(p, 2, s1, external, "x", 1.0, 5, s2);
  }

  /** As written, `else` turns the If frame into Else and the second `let` is skipped. */
  lemma TrueConditionSkipsElseBranchAsWritten(p: seq<Token>, st: GlobalState, external: ExternalKeywords)
    requires IfElseShape(p, 1.0)
    requires BasicKeywords(st.keywords) && st.nesting == [] && st.subroutineName.None?
    ensures var bound := Insert(st.variables, StringArg("x"), NumberArg(1.0));
      MainLoopAsWritten(p, 5, st.(lineNumber := 1, nesting := [If], variables := bound), external)
        == MainLoopAsWritten(p, 9, st.(lineNumber := 1, nesting := [Else], variables := bound), external)
  {
    var bound := Insert(st.variables, StringArg("x"), NumberArg(1.0));
    var s2 := st.(lineNumber := 1, nesting := [If], variables := bound);
    var s3 := st.(lineNumber := 1, nesting := [Else], variables := bound);
    AsWrittenLoopElse(p, 5, s2, external, 6, s3);
    AsWrittenLoopSkip(p, 6, s3, external, 9, s3);
  }

  /** A true condition runs the first branch and skips the `else` branch, both as written
      and in the corrected loop. */
  lemma TrueConditionTakesFirstBranch(st: GlobalState, external: ExternalKeywords)
    requires BasicKeywords(st.keywords) && st.nesting == [] && st.subroutineName.None?
    ensures Run(IfTrueElse, st, external)
      == Success(st.(lineNumber := 1, variables := Insert(st.variables, StringArg("x"), NumberArg(1.0))))
    ensures RunCorrected(IfTrueElse, st, external) == Run(IfTrueElse, st, external)
  {
    TrueConditionRunAsWritten(IfTrueElse, st, external);
    TrueConditionRun(IfTrueElse, st, external);
  }

  /** The tokens of `if 0 if 1 let $x 1 end end`. */
  predicate NestedIfShape(p: seq<Token>) {
    && |p| == 9
    && p[0] == K("if") && p[1] == Num(0.0)
    && p[2] == K("if") && p[3] == Num(1.0)
    && p[4] == K("let") && p[5] == S("x") && p[6] == Num(1.0)
    && p[7] == K("end") && p[8] == K("end")
  }

  lemma NestedIfRunAsWritten(p: seq<Token>, st: GlobalState, external: ExternalKeywords)
    requires NestedIfShape(p)
    requires BasicKeywords(st.keywords) && st.nesting == [] && st.subroutineName.None?
    ensures MainLoopAsWritten(p, 0, st, external)
      == Success(st.(lineNumber := 1, variables := Insert(st.variables, StringArg("x"), NumberArg(1.0))))
  {
    var bound := Insert(st.variables, StringArg("x"), NumberArg(1.0));
    var s4 := st.(lineNumber := 1, nesting := [Else], variables := bound);
    NestedIfEntersAsWritten(p, st, external);
    NestedIfBodyRunsAsWritten(p, st, external);
    AsWrittenLoopEnd(p, 8, s4, external, 9, st.(lineNumber := 1, variables := bound));
  }

  /** As written, `if 0` pushes Else and the inner `if` is skipped, pushing Ignore. */
  lemma NestedIfEntersAsWritten(p: seq<Token>, st: GlobalState, external: ExternalKeywords)
    requires NestedIfShape(p)
    requires BasicKeywords(st.keywords) && st.nesting == [] && st.subroutineName.None?
    ensures MainLoopAsWritten(p, 0, st, external)
      == MainLoopAsWritten(p, 4, st.(lineNumber := 1, nesting := [Else, Ignore]), external)
  {
    var s1 := st.(lineNumber := 1, nesting := [Else]);
    NumberTruthiness(0.0);
    AsWrittenLoopIf(p, 0, st, external, 0.0, 2, s1);
    AsWrittenLoopSkip(p, 2, s1, external, 4, st.(lineNumber := 1, nesting := [Else, Ignore]));
  }

  /** As written, under the Ignore frame the `let` runs and the inner `end` pops. */
  lemma NestedIfBodyRunsAsWritten(p: seq<Token>, st: GlobalState, external: ExternalKeywords)
    requires NestedIfShape(p)
    requires BasicKeywords(st.keywords) && st.nesting == [] && st.subroutineName.None?
    ensures var bound := Insert(st.variables, StringArg("x"), NumberArg(1.0));
      MainLoopAsWritten(p, 4, st.(lineNumber := 1, nesting := [Else, Ignore]), external)
        == MainLoopAsWritten(p, 8, st.(lineNumber := 1, nesting := [Else], variables := bound), external)
  {
    var bound := Insert(st.variables, StringArg("x"), NumberArg(1.0));
    var s2 := st.(lineNumber := 1, nesting := [Else, Ignore]);
    var s3 := st.(lineNumber := 1, nesting := [Else, Ignore], variables := bound);
    AsWrittenLoopLet(p, 4, s2, external, "x", 1.0, 7, s3);
    AsWrittenLoopEnd(p, 7, s3, external, 8, st.(lineNumber := 1, nesting := [Else], variables := bound));
  }

  /** As written, the `let` inside the inner `if` runs although the outer condition is
      false: the skipped inner `if` leaves an Ignore frame on top, and the loop only
      skips under an Else frame. */
  lemma NestedIfInSkippedBranchRunsAsWritten(st: GlobalState, external: ExternalKeywords)
    requires BasicKeywords(st.keywords) && st.nesting == [] && st.subroutineName.None?
    ensures Run(NestedIfInSkippedBranch, st, external).Success?
    ensures Lookup(Run(NestedIfInSkippedBranch, st, external).value.variables, StringArg("x"))
      == Some(NumberArg(1.0))
  {
    NestedIfRunAsWritten(NestedIfInSkippedBranch, st, external);
  }

  lemma NestedIfRun(p: seq<Token>, st: GlobalState, external: ExternalKeywords)
    requires NestedIfShape(p)
    requires BasicKeywords(st.keywords) && st.nesting == [] && st.subroutineName.None?
    ensures MainLoop(p, 0, st, external) == Success(st.(lineNumber := 1))
  {
    var s1 := st.(lineNumber := 1, nesting := [Else]);
    NestedIfEnters(p, st, external);
    NestedIfBodySkipped(p, st, external);
    LoopEnd(p, 8, s1, external, 9, st.(lineNumber := 1));
  }

  /** `if 0` pushes Else and the inner `if` is skipped, pushing Ignore. */
  lemma NestedIfEnters(p: seq<Token>, st: GlobalState, external: ExternalKeywords)
    requires NestedIfShape(p)
    requires BasicKeywords(st.keywords) && st.nesting == [] && st.subroutineName.None?
    ensures MainLoop(p, 0, st, external) == MainLoop(p, 4, st.(lineNumber := 1, nesting := [Else, Ignore]), external)
  {
    var s1 := st.(lineNumber := 1, nesting := [Else]);
    NumberTruthiness(0.0);
    LoopIf(p, 0, st, external, 0.0, 2, s1);
    LoopSkip(p, 2, s1, external, 4, st.(lineNumber := 1, nesting := [Else, Ignore]));
  }

  /** Under the Ignore frame the `let` is skipped and the inner `end` pops. */
  lemma NestedIfBodySkipped(p: seq<Token>, st: GlobalState, external: ExternalKeywords)
    requires NestedIfShape(p)
    requires BasicKeywords(st.keywords) && st.nesting == [] && st.subroutineName.None?
    ensures MainLoop(p, 4, st.(lineNumber := 1, nesting := [Else, Ignore]), external)
      == MainLoop(p, 8, st.(lineNumber := 1, nesting := [Else]), external)
  {
    var s2 := st.(lineNumber := 1, nesting := [Else, Ignore]);
    LoopSkip(p, 4, s2, external, 7, s2);
    LoopEnd(p, 7, s2, external, 8, st.(lineNumber := 1, nesting := [Else]));
  }

  /** With the corrected loop nothing inside the skipped branch runs: the Ignore frame
      skips the `let`, the two `end`s rebalance the stack, and the bindings are exactly
      as before. */
  lemma NestedIfInSkippedBranchIsSkipped(st: GlobalState, external: ExternalKeywords)
    requires BasicKeywords(st.keywords) && st.nesting == [] && st.subroutineName.None?
    ensures RunCorrected(NestedIfInSkippedBranch, st, external) == Success(st.(lineNumber := 1))
  {
    NestedIfRun(NestedIfInSkippedBranch, st, external);
  }
}

=== FILE: registry.dfy ===
/** Keyword registration and the startup state of the newer revision (src/rust/main.rs). */
module Registry {
  import opened Results
  import opened Expression

  /** `register_keyword`: adds `name` with its implementation and arity. Registering a
      name twice is refused; nothing but the registry changes. */
  function RegisterKeyword(st: GlobalState, name: string, implementation: Builtin, arity: nat)
    : (r: Result<GlobalState, Error>)
    ensures r.Failure? <==> name in st.keywords
    ensures r.Failure? ==> r.error == DuplicateKeywordRegistration(name)
    ensures r.Success? ==>
      && r.value == st.(keywords := r.value.keywords)
      && r.value.keywords.Keys == st.keywords.Keys + {name}
      && r.value.keywords[name] == KeywordImplementation(name, implementation, arity)
      && forall k :: k in st.keywords ==> r.value.keywords[k] == st.keywords[k]
  {
    if name in st.keywords then
      Failure(DuplicateKeywordRegistration(name))
    else
      Success(st.(keywords := st.keywords[name := KeywordImplementation(name, implementation, arity)]))
  }

  datatype Registration = Registration(name: string, implementation: Builtin, arity: nat)

  /** The registrations `main` performs, in order. */
  const StartupTable: seq<Registration> := [
    Registration("println", PrintlnFn, 1),
    Registration("+", AddFn, 2),
    Registration("-", External("-"), 2),
    Registration("if", IfFn, 1),
    Registration("else", ElseFn, 0),
    Registration("end", EndFn, 0),
    Registration("let", LetFn, 2),
    Registration("tel", TelFn, 1),
    Registration("==", EqFn, 2),
    Registration("<", External("<"), 2),
    Registration("!", External("!"), 1),
    Registration("true", TrueFn, 0),
    Registration("false", FalseFn, 0),
    Registration("scope::push", External("scope::push"), 0),
    Registration("scope::pop", External("scope::pop"), 0),
    Registration("scope::outer::let", External("scope::outer::let"), 2),
    Registration("scope::outer::tel", External("scope::outer::tel"), 1),
    Registration("return", External("return"), 1),
    Registration("subroutine", External("subroutine"), 1),
    Registration("run", External("run"), 1)
  ]

  /** Registers every entry in order, stopping at the first refusal. */
  function RegisterAll(st: GlobalState, table: seq<Registration>): (r: Result<GlobalState, Error>)
    decreases |table|
    ensures r.Success? ==> r.value == st.(keywords := r.value.keywords)
    ensures r.Success? ==> r.value.keywords.Keys == st.keywords.Keys + Names(table)
    ensures r.Success? ==> forall k :: k in st.keywords ==> r.value.keywords[k] == st.keywords[k]
    ensures r.Failure? ==>
      r.error.DuplicateKeywordRegistration? && r.error.name in st.keywords.Keys + Names(table)
  {
    if |table| == 0 then
      Success(st)
    else
      var next :- RegisterKeyword(st, table[0].name, table[0].implementation, table[0].arity);
      NamesCons(table);
      RegisterAll(next, table[1..])
  }

  lemma NamesCons(table: seq<Registration>)
    requires |table| > 0
    ensures Names(table) == {table[0].name} + Names(table[1..])
  {
    var rest := table[1..];
    forall x | x in Names(table) ensures x in {table[0].name} + Names(rest) {
      var i :| 0 <= i < |table| && table[i].name == x;
      if i > 0 { assert rest[i - 1].name == x; }
    }
    forall x | x in Names(rest) ensures x in Names(table) {
      var i :| 0 <= i < |rest| && rest[i].name == x;
      assert table[i + 1].name == x;
    }
  }

  predicate DistinctNames(table: seq<Registration>) {
    forall i, j :: 0 <= i < j < |table| ==> table[i].name != table[j].name
  }

  function Names(table: seq<Registration>): set<string> {
    set i | 0 <= i < |table| :: table[i].name
  }

  /** Registering pairwise distinct, fresh names always succeeds; afterwards each name
      maps to its own entry and the rest of the state is untouched. */
  lemma {:induction false} RegisterAllDistinct(st: GlobalState, table: seq<Registration>)
    requires DistinctNames(table)
    requires forall i :: 0 <= i < |table| ==> table[i].name !in st.keywords
    decreases |table|
    ensures RegisterAll(st, table).Success?
    ensures RegisterAll(st, table).value == st.(keywords := RegisterAll(st, table).value.keywords)
    ensures RegisterAll(st, table).value.keywords.Keys == st.keywords.Keys + Names(table)
    ensures forall k :: k in st.keywords ==> RegisterAll(st, table).value.keywords[k] == st.keywords[k]
    ensures forall i :: 0 <= i < |table| ==>
      RegisterAll(st, table).value.keywords[table[i].name]
        == KeywordImplementation(table[i].name, table[i].implementation, table[i].arity)
  {
    if |table| > 0 {
      var next := RegisterKeyword(st, table[0].name, table[0].implementation, table[0].arity).value;
      var rest := table[1..];
      assert forall i :: 0 <= i < |rest| ==> rest[i] == table[i + 1];
      RegisterAllDistinct(next, rest);
    }
  }

  /** Bindings, registry, nesting, scopes and subroutines all empty; `ret` is 0.0. */
  const EmptyState: GlobalState :=
    GlobalState(map[], map[], 0, [], Some(NumberArg(0.0)), [], map[], None)

  function InitialState(): (r: Result<GlobalState, Error>)
    ensures r.Success? ==> r.value == EmptyState.(keywords := r.value.keywords)
  {
    RegisterAll(EmptyState, StartupTable)
  }

  /** No later entry repeats the name of entry `i`. */
  predicate FreshAfter(table: seq<Registration>, i: nat) {
    forall j :: i < j < |table| ==> table[i].name != table[j].name
  }

  lemma StartupRowsFresh(lo: nat, hi: nat)
    requires lo <= hi <= |StartupTable| && hi - lo <= 5
    ensures forall i :: lo <= i < hi ==> FreshAfter(StartupTable, i)
  {
    var table := StartupTable;
    forall i | lo <= i < hi
      ensures FreshAfter(table, i)
    {
    }
  }

  lemma StartupNamesDistinct()
    ensures DistinctNames(StartupTable)
  {
    StartupRowsFresh(0, 5);
    StartupRowsFresh(5, 10);
    StartupRowsFresh(10, 15);
    StartupRowsFresh(15, 20);
    forall i, j | 0 <= i < j < |StartupTable|
      ensures StartupTable[i].name != StartupTable[j].name
    {
      assert FreshAfter(StartupTable, i);
    }
  }

  /** Startup succeeds: every built-in is registered under its own name with its arity,
      the nesting stack is empty and the return value is 0.0. */
  lemma StartupSucceeds()
    ensures InitialState().Success?
    ensures InitialState().value.nesting == []
    ensures InitialState().value.ret == Some(NumberArg(0.0))
    ensures InitialState().value.subroutineName == None
    ensures InitialState().value.keywords.Keys == Names(StartupTable)
    ensures forall i :: 0 <= i < |StartupTable| ==>
      InitialState().value.keywords[StartupTable[i].name]
        == KeywordImplementation(StartupTable[i].name, StartupTable[i].implementation, StartupTable[i].arity)
  {
    StartupNamesDistinct();
    RegisterAllDistinct(EmptyState, StartupTable);
  }

  /** One row of the startup table, as registered. */
  lemma StartupEntry(i: nat)
    requires i < |StartupTable|
    ensures InitialState().Success?
    ensures StartupTable[i].name in InitialState().value.keywords
    ensures InitialState().value.keywords[StartupTable[i].name]
      == KeywordImplementation(StartupTable[i].name, StartupTable[i].implementation, StartupTable[i].arity)
  {
    StartupSucceeds();
    assert StartupTable[i].name in Names(StartupTable);
  }
}

=== FILE: results.dfy ===
/** Failure-compatible wrappers shared by every module of the interpreter model.
    `Result` stands for eyre's `Result` in the newer revision and for a panic in the
    older one; both abort the whole run, which is all the model needs of them. */
module Results {

  datatype Option<+T> = None | Some(value: T)

  datatype Result<+T, +E> = Success(value: T) | Failure(error: E) {

    predicate IsFailure() {
      Failure?
    }

    function PropagateFailure<U>(): Result<U, E>
      requires Failure?
    {
      Failure(error)
    }

    function Extract(): T
      requires Success?
    {
      value
    }
  }
}

=== FILE: tokens.dfy ===
/** The token stream shared by both revisions of the interpreter (src/rust/token.rs and
    src/token.rs declare the same plain data). Source line numbers are `nat`; the
    `u32` of the source never comes near its bound for a file that fits in memory. */
module Tokens {

  /** What the lexer is currently reading; `NoToken` is the source's `TokenType::None`. */
  datatype TokenType = KeywordType | ApostropheString | DollarString | NumberType | NoToken

  datatype Token =
    | Keyword(lexeme: string, line: nat)
    | KfkString(lexeme: string, line: nat)
    | Number(lexeme: string, number: real, line: nat)

  /** A keyword token spelled `name`. */
  predicate IsKeyword(t: Token, name: string) {
    t.Keyword? && t.lexeme == name
  }

  /** `char::is_ascii_digit`. */
  predicate IsAsciiDigit(c: char) {
    '0' <= c <= '9'
  }

  /** `char::is_whitespace`: the characters with the Unicode White_Space property. */
  predicate IsWhitespace(c: char) {
    || '\t' <= c <= '\r'
    || c == ' '
    || c == '\U{0085}'
    || c == '\U{00A0}'
    || c == '\U{1680}'
    || '\U{2000}' <= c <= '\U{200A}'
    || c == '\U{2028}'
    || c == '\U{2029}'
    || c == '\U{202F}'
    || c == '\U{205F}'
    || c == '\U{3000}'
  }

  /** Number of line feeds in `s`: the lexers' line counter advances once per `\n`. */
  function CountNewlines(s: string): nat {
    if |s| == 0 then 0 else (if s[0] == '\n' then 1 else 0) + CountNewlines(s[1..])
  }
}

=== FILE: tree.dfy ===
/** A reference semantics for the evaluator: programs read as syntax trees and evaluated
    by walking the tree. The prefix-notation evaluator of the newer revision, which never
    builds a tree and only moves a cursor, is proved to agree with it on every
    well-formed invocation: same result or same error, and the cursor lands exactly
    after the invocation's tokens. */
module TreeSemantics {
  import opened Results
  import opened Tokens
  import opened Expression
  import opened Interpreter

  /** A literal, or a keyword applied to argument expressions. */
  datatype Expr = Literal(token: Token) | Invocation(keyword: Token, args: seq<Expr>)

  /** Prefix notation: the keyword, then each argument's tokens in order. */
  function Flatten(e: Expr): seq<Token>
    decreases e
  {
    match e
    case Literal(t) => [t]
    case Invocation(k, args) => [k] + FlattenAll(args)
  }

  function FlattenAll(es: seq<Expr>): seq<Token>
    decreases es
  {
    if |es| == 0 then [] else Flatten(es[0]) + FlattenAll(es[1..])
  }

  /** Literals are literal tokens; every invocation names a registered keyword and has
      exactly as many arguments as the keyword's arity. */
  predicate WellFormed(e: Expr, keywords: map<string, KeywordImplementation>)
    decreases e
  {
    match e
    case Literal(t) => !t.Keyword?
    case Invocation(k, args) =>
      && k.Keyword?
      && k.lexeme in keywords
      && keywords[k.lexeme].numberOfArguments == |args|
      && AllWellFormed(args, keywords)
  }

  predicate AllWellFormed(es: seq<Expr>, keywords: map<string, KeywordImplementation>)
    decreases es
  {
    |es| == 0 || (WellFormed(es[0], keywords) && AllWellFormed(es[1..], keywords))
  }

  /** Tree evaluation of one invocation: record the keyword's line, evaluate the
      arguments in order, apply the keyword. */
  function Eval(e: Expr, st: GlobalState, external: ExternalKeywords): Result<GlobalState, Error>
    decreases e
  {
    match e
    case Literal(t) => Failure(UnexpectedToken(t.line))
    case Invocation(k, args) =>
      if !k.Keyword? then
        Failure(UnexpectedToken(k.line))
      else if k.lexeme !in st.keywords then
        Failure(UnknownKeyword(k.lexeme, k.line))
      else
        var values :- EvalArgs(args, st.(lineNumber := k.line), external);
        Dispatch(st.keywords[k.lexeme].implementation, values.state, values.args, external)
  }

  datatype Values = Values(args: seq<Argument>, state: GlobalState)

  /** A literal gives its value and its line; an invocation gives its return value. */
  function EvalArgs(es: seq<Expr>, st: GlobalState, external: ExternalKeywords): Result<Values, Error>
    decreases es
  {
    if |es| == 0 then
      Success(Values([], st))
    else
      match es[0]
      case Literal(t) =>
        if t.Keyword? then
          Failure(UnexpectedToken(t.line))
        else
          var rest :- EvalArgs(es[1..], st.(lineNumber := t.line), external);
          Success(Values([LiteralValue(t)] + rest.args, rest.state))
      case Invocation(_, _) =>
        var callee :- Eval(es[0], st, external);
        if callee.ret.None? then
          Failure(MissingReturnValue(callee.lineNumber))
        else
          var rest :- EvalArgs(es[1..], callee, external);
          Success(Values([callee.ret.value] + rest.args, rest.state))
  }

  function ValuesAt(r: Result<Values, Error>, pos: nat): Result<Gathered, Error> {
    match r
    case Success(v) => Success(Gathered(v.args, pos, v.state))
    case Failure(e) => Failure(e)
  }

  lemma SplitSlice(tokens: seq<Token>, pos: nat, a: seq<Token>, b: seq<Token>)
    requires pos + |a + b| <= |tokens| && tokens[pos..pos + |a + b|] == a + b
    ensures tokens[pos..pos + |a|] == a
    ensures tokens[pos + |a|..pos + |a| + |b|] == b
  {
    assert tokens[pos..pos + |a|] == (a + b)[..|a|];
    assert tokens[pos + |a|..pos + |a| + |b|] == (a + b)[|a|..];
  }

  /** The cursor evaluator at `pos` has the outcome of the tree evaluation of `e`, and its
      cursor lands at `end`. */
  predicate ExpressionAgrees(tokens: seq<Token>, pos: nat, e: Expr, st: GlobalState, external: ExternalKeywords,
                             end: nat)
    requires pos < |tokens|
  {
    RunNextExpression(tokens, pos, st, external) == At(Eval(e, st, external), end)
  }

  /** Argument resolution at `pos` resolves what the tree evaluation of `es` gives, or
      fails the same way, and its cursor lands at `end`. */
  predicate ArgumentsAgree(entry: KeywordImplementation, keyword: Token, tokens: seq<Token>, pos: nat,
                           es: seq<Expr>, st: GlobalState, external: ExternalKeywords, end: nat)
    requires pos <= |tokens|
  {
    RetrieveArguments(entry, keyword, tokens, pos, st, |es|, external) == ValuesAt(EvalArgs(es, st, external), end)
  }

  /** Tree evaluation of a registered invocation, laid out like InvocationStep. */
  lemma EvalInvocationStep(e: Expr, st: GlobalState, external: ExternalKeywords, end: nat)
    requires e.Invocation? && e.keyword.Keyword? && e.keyword.lexeme in st.keywords
    ensures At(Eval(e, st, external), end)
      == Apply(st.keywords[e.keyword.lexeme].implementation,
               ValuesAt(EvalArgs(e.args, st.(lineNumber := e.keyword.line), external), end), external)
  {
  }

  /** Once the arguments agree, so does the invocation: both apply the same implementation
      to the same outcome. */
  lemma ExpressionStep(tokens: seq<Token>, pos: nat, e: Expr, st: GlobalState, external: ExternalKeywords,
                       end: nat)
    requires e.Invocation? && e.keyword.Keyword? && e.keyword.lexeme in st.keywords
    requires st.keywords[e.keyword.lexeme].numberOfArguments == |e.args|
    requires pos < |tokens| && tokens[pos] == e.keyword
    requires ArgumentsAgree(st.keywords[e.keyword.lexeme], e.keyword, tokens, pos + 1, e.args,
                            st.(lineNumber := e.keyword.line), external, end)
    ensures ExpressionAgrees(tokens, pos, e, st, external, end)
  {
    InvocationStep(tokens, pos, st, external);
    EvalInvocationStep(e, st, external, end);
  }

  /** The tokens of an invocation: its keyword, then its arguments' tokens. */
  lemma InvocationLayout(tokens: seq<Token>, pos: nat, e: Expr, end: nat)
    requires e.Invocation?
    requires end == pos + |Flatten(e)| && end <= |tokens|
    requires tokens[pos..end] == Flatten(e)
    ensures end == pos + 1 + |FlattenAll(e.args)|
    ensures tokens[pos] == e.keyword
    ensures tokens[pos + 1..end] == FlattenAll(e.args)
  {
    assert Flatten(e) == [e.keyword] + FlattenAll(e.args);
    SplitSlice(tokens, pos, [e.keyword], FlattenAll(e.args));
  }

  /** The cursor evaluator agrees with the tree evaluator on a well-formed invocation
      laid out in prefix notation anywhere in the token sequence: same outcome, and the
      cursor lands at `end`, right after the invocation's tokens. */
  lemma {:induction false} EvaluationFollowsTree(tokens: seq<Token>, pos: nat, e: Expr, st: GlobalState,
                                                 external: ExternalKeywords, end: nat)
    requires KeepsRegistry(external)
    requires e.Invocation? && WellFormed(e, st.keywords)
    requires end == pos + |Flatten(e)| && end <= |tokens|
    requires tokens[pos..end] == Flatten(e)
    decreases e
    ensures ExpressionAgrees(tokens, pos, e, st, external, end)
  {
    var k := e.keyword;
    InvocationLayout(tokens, pos, e, end);
    ArgumentsFollowTree(st.keywords[k.lexeme], k, tokens, pos + 1, e.args, st.(lineNumber := k.line), external, end);
    ExpressionStep(tokens, pos, e, st, external, end);
  }

  lemma {:induction false} ArgumentsFollowTree(entry: KeywordImplementation, keyword: Token, tokens: seq<Token>,
                                               pos: nat, es: seq<Expr>, st: GlobalState, external: ExternalKeywords,
                                               end: nat)
    requires KeepsRegistry(external)
    requires AllWellFormed(es, st.keywords)
    requires end == pos + |FlattenAll(es)| && end <= |tokens|
    requires tokens[pos..end] == FlattenAll(es)
    decreases es, 2
    ensures ArgumentsAgree(entry, keyword, tokens, pos, es, st, external, end)
  {
    if |es| > 0 {
      var first := Flatten(es[0]);
      var others := FlattenAll(es[1..]);
      assert FlattenAll(es) == first + others;
      SplitSlice(tokens, pos, first, others);
      var mid := pos + |first|;
      if es[0].Literal? {
        LiteralArgumentFollowsTree(entry, keyword, tokens, pos, es, st, external, end);
      } else {
        InvocationArgumentFollowsTree(entry, keyword, tokens, pos, es, st, external, mid, end);
      }
    }
  }

  /** One literal argument of the tree evaluator, laid out like LiteralArgumentStep. */
  lemma LiteralArgumentTreeStep(es: seq<Expr>, st: GlobalState, external: ExternalKeywords, end: nat)
    requires |es| > 0 && es[0].Literal? && !es[0].token.Keyword?
    ensures ValuesAt(EvalArgs(es, st, external), end)
      == Prepend(LiteralValue(es[0].token), ValuesAt(EvalArgs(es[1..], st.(lineNumber := es[0].token.line), external), end))
  {
  }

  /** A literal argument puts its value before the remaining arguments, on both sides,
      and both move the current line to the literal's. */
  lemma LiteralArgumentAgrees(entry: KeywordImplementation, keyword: Token, tokens: seq<Token>, pos: nat,
                              es: seq<Expr>, st: GlobalState, external: ExternalKeywords, end: nat)
    requires |es| > 0 && es[0].Literal? && !es[0].token.Keyword?
    requires pos < |tokens| && tokens[pos] == es[0].token
    requires ArgumentsAgree(entry, keyword, tokens, pos + 1, es[1..], st.(lineNumber := es[0].token.line), external, end)
    ensures ArgumentsAgree(entry, keyword, tokens, pos, es, st, external, end)
  {
    LiteralArgumentStep(entry, keyword, tokens, pos, st, |es|, external);
    LiteralArgumentTreeStep(es, st, external, end);
  }

  lemma {:induction false} LiteralArgumentFollowsTree(entry: KeywordImplementation, keyword: Token, tokens: seq<Token>,
                                                      pos: nat, es: seq<Expr>, st: GlobalState, external: ExternalKeywords,
                                                      end: nat)
    requires KeepsRegistry(external)
    requires |es| > 0 && es[0].Literal? && AllWellFormed(es, st.keywords)
    requires end == pos + 1 + |FlattenAll(es[1..])| && end <= |tokens|
    requires tokens[pos] == es[0].token
    requires tokens[pos + 1..end] == FlattenAll(es[1..])
    decreases es, 1
    ensures ArgumentsAgree(entry, keyword, tokens, pos, es, st, external, end)
  {
    ArgumentsFollowTree(entry, keyword, tokens, pos + 1, es[1..], st.(lineNumber := es[0].token.line), external, end);
    LiteralArgumentAgrees(entry, keyword, tokens, pos, es, st, external, end);
  }

  /** One invocation argument of the tree evaluator, in the same three cases as
      KeywordArgumentStep. */
  lemma InvocationArgumentStep(es: seq<Expr>, st: GlobalState, external: ExternalKeywords, end: nat)
    requires |es| > 0 && es[0].Invocation?
    ensures Eval(es[0], st, external).Failure? ==>
      ValuesAt(EvalArgs(es, st, external), end) == Failure(Eval(es[0], st, external).error)
    ensures Eval(es[0], st, external).Success? && Eval(es[0], st, external).value.ret.None? ==>
      ValuesAt(EvalArgs(es, st, external), end)
        == Failure(MissingReturnValue(Eval(es[0], st, external).value.lineNumber))
    ensures Eval(es[0], st, external).Success? && Eval(es[0], st, external).value.ret.Some? ==>
      var callee := Eval(es[0], st, external).value;
      ValuesAt(EvalArgs(es, st, external), end)
        == Prepend(callee.ret.value, ValuesAt(EvalArgs(es[1..], callee, external), end))
  {
  }

  lemma {:induction false} InvocationArgumentFollowsTree(entry: KeywordImplementation, keyword: Token, tokens: seq<Token>,
                                                         pos: nat, es: seq<Expr>, st: GlobalState, external: ExternalKeywords,
                                                         mid: nat, end: nat)
    requires KeepsRegistry(external)
    requires |es| > 0 && es[0].Invocation? && AllWellFormed(es, st.keywords)
    requires mid == pos + |Flatten(es[0])|
    requires end == mid + |FlattenAll(es[1..])| && end <= |tokens|
    requires tokens[pos..mid] == Flatten(es[0])
    requires tokens[mid..end] == FlattenAll(es[1..])
    decreases es, 1
    ensures ArgumentsAgree(entry, keyword, tokens, pos, es, st, external, end)
  {
    InvocationLayout(tokens, pos, es[0], mid);
    EvaluationFollowsTree(tokens, pos, es[0], st, external, mid);
    CalleeFollowsTree(entry, keyword, tokens, pos, es, st, external, mid, end);
  }

  /** The three outcomes of an invocation argument, once its callee is known to agree. */
  lemma {:induction false} CalleeFollowsTree(entry: KeywordImplementation, keyword: Token, tokens: seq<Token>,
                                             pos: nat, es: seq<Expr>, st: GlobalState, external: ExternalKeywords,
                                             mid: nat, end: nat)
    requires KeepsRegistry(external)
    requires |es| > 0 && es[0].Invocation? && AllWellFormed(es[1..], st.keywords)
    requires pos < |tokens| && tokens[pos].Keyword? && mid <= |tokens|
    requires end == mid + |FlattenAll(es[1..])| && end <= |tokens|
    requires tokens[mid..end] == FlattenAll(es[1..])
    requires ExpressionAgrees(tokens, pos, es[0], st, external, mid)
    decreases es, 0
    ensures ArgumentsAgree(entry, keyword, tokens, pos, es, st, external, end)
  {
    var callee := Eval(es[0], st, external);
    if callee.Success? && callee.value.ret.Some? {
      ArgumentsFollowTree(entry, keyword, tokens, mid, es[1..], callee.value, external, end);
      ReturnedArgumentAgrees(entry, keyword, tokens, pos, es, st, external, mid, end, callee.value);
    } else {
      FailedArgumentAgrees(entry, keyword, tokens, pos, es, st, external, mid, end);
    }
  }

  /** A callee that returns a value puts it before the remaining arguments, on both sides. */
  lemma ReturnedArgumentAgrees(entry: KeywordImplementation, keyword: Token, tokens: seq<Token>, pos: nat,
                               es: seq<Expr>, st: GlobalState, external: ExternalKeywords, mid: nat, end: nat,
                               next: GlobalState)
    requires |es| > 0 && es[0].Invocation?
    requires pos < |tokens| && tokens[pos].Keyword? && mid <= |tokens|
    requires ExpressionAgrees(tokens, pos, es[0], st, external, mid)
    requires Eval(es[0], st, external) == Success(next) && next.ret.Some?
    requires ArgumentsAgree(entry, keyword, tokens, mid, es[1..], next, external, end)
    ensures ArgumentsAgree(entry, keyword, tokens, pos, es, st, external, end)
  {
    KeywordArgumentStep(entry, keyword, tokens, pos, st, |es|, external);
    InvocationArgumentStep(es, st, external, end);
  }

  /** A callee that fails, or returns nothing, fails the same way on both sides. */
  lemma FailedArgumentAgrees(entry: KeywordImplementation, keyword: Token, tokens: seq<Token>, pos: nat,
                             es: seq<Expr>, st: GlobalState, external: ExternalKeywords, mid: nat, end: nat)
    requires |es| > 0 && es[0].Invocation?
    requires pos < |tokens| && tokens[pos].Keyword?
    requires ExpressionAgrees(tokens, pos, es[0], st, external, mid)
    requires Eval(es[0], st, external).Failure? || Eval(es[0], st, external).value.ret.None?
    ensures ArgumentsAgree(entry, keyword, tokens, pos, es, st, external, end)
  {
    KeywordArgumentStep(entry, keyword, tokens, pos, st, |es|, external);
    InvocationArgumentStep(es, st, external, end);
  }
}
